=== FILE: README.md ===
# go-fluent-validator schema evaluation, modelled in Dafny

This project models the schema evaluation engine of go-fluent-validator, from
`ValidationSchema.Validate` down to the rule predicates, and proves
properties of the model. It is written in Dafny 4.11.

## What is modelled

**Schema orchestration** (`Schema`, validator.go). A schema's `Validate` runs four
passes over one append-only error map:
1. the transform pass;
2. the per-field validate pass;
3. the conditional (`When`) sub-schemas, whose errors are merged in;
4. the cross-field validators, gated on an error-free result.

It then sets the transformed map as valid data only when nothing was recorded.

**Iteration order.** Go iterates `map[string]core.Type` in an unspecified order.
Here the shape is a `seq<Entry>`, so the order is an explicit parameter. Whether
a result has errors does not depend on it (`Schema.ShapeOrderIrrelevant`); which
messages appear can. The sub-schema merge also iterates a map; any visiting
order gives the same merge (`Results.MergeOrderIrrelevant`).

**The field engine** (`Evaluation`, core/base_type.go, types/*.go) is written once:
- `Transform` dispatches on the field variant: base transform, date parsing,
  array elements, object children.
- `Validate` does the required check, the global gate (any error anywhere stops
  the field), the type's own checks, and the element and child recursion under
  `field[i]` and `parent.child`.

The engine is generic over the per-type checks: `FieldOps(transform, checks)`.
`Schema.TypedOps` plugs in the transforms and checks of the `types/` files.

**Per-type checks.** Each type's checks are a fixed, ordered list of failures
with the type's early returns:
- `StringChecks`: StringType and AdvancedStringType;
- `ValueChecks`: NumberType, BooleanType, DateType, ArrayType, UuidType,
  IbanType and CreditCardType.

**Messages.** A check's message is kept as the symbolic `Failed(failure, label)`.
`Reports.Resolve` turns it into the text Go adds on the spot, through the
translator (`i18n.Get`); `Reports.ResolveRecorded` proves the two agree. The
translator is fixed for the duration of one validation, so recording and then
resolving is the same as rendering at once. Custom validators' messages are kept
as the text they return.

**Rule predicates** (rules/*.go):
- Luhn and the card brands;
- IBAN with its MOD 97-10 check (ISO/IEC 7064);
- the password policy;
- UUID shapes and domain labels;
- tag stripping, HTML escaping and filename sanitising;
- emoji filtering and character sets;
- phone patterns and the IP version dispatch.

The message catalogue with locale fallback is i18n/messages.go.

**Byte lengths.** Strings are `seq<char>` of Unicode scalar values. Go's `len`
counts UTF-8 bytes, so lengths go through `Text.ByteLen`.

**Collaborators.** Go library calls the model cannot contain are fields of
`Fields.Env`, given as parameters:
- the email, URL and custom regexes;
- base64 decoding;
- `\p{Latin}`;
- `net.ParseIP`;
- `time.Parse`;
- `%v` rendering;
- `math.Log2`;
- the float `MultipleOf` test.

## Model

| member | source | states |
|---|---|---|
| Schema.WithShape | validator.go:99-102 | Shape replaces the whole field map and keeps the cross validators and conditional rules |
| Schema.CrossValidate | validator.go:121-124 | CrossValidate appends one validator after the earlier ones, which keep their order, and changes nothing else |
| Schema.When | validator.go:143-150 | When appends one rule (field, expected value, sub-schema) after the earlier ones and changes nothing else |
| Schema.TransformPass | validator.go:173-181 | the transform pass only appends errors to the map it starts from and keeps it well formed |
| Schema.TransformPassVerdict | validator.go:173-181 | the transform pass records an error exactly when some declared field fails to transform |
| Schema.StepMap | validator.go:175-180 | one transform step binds the field's name exactly when its transform succeeds and leaves every other key's value alone |
| Schema.TransformPassKeys | validator.go:170-181 | the transformed map holds exactly the names of the fields that transform (plus the keys it started with) |
| Schema.TransformPassKeeps | validator.go:173-181 | a key no remaining entry declares keeps its value through the transform pass |
| Schema.TransformPassValues | validator.go:174-180 | with distinct names, every field that transforms holds its own transformed value of `data[field]` (nil when absent) |
| Schema.TransformPassMessage | validator.go:176-178 | a field whose transform fails gets exactly one message, "Dönüşüm hatası: <err>", under its name |
| Schema.TransformPassUntouched | validator.go:173-181 | the transform pass writes messages only under declared names |
| Schema.OnlyDeclaredKeysTransformed | validator.go:170-181 | an input key the shape does not declare never reaches the transformed map, so later passes read it as nil |
| Schema.FieldPass | validator.go:184-186 | the field pass only appends errors and keeps the map well formed |
| Schema.FieldPassVerdict | validator.go:184-186 | the field pass reports something exactly when some field fails on its own transformed value |
| Schema.ConditionalPass | validator.go:189-204 | the conditional pass only appends: sub-schema messages are added after the existing ones, never overwriting them |
| Schema.RuleStep | validator.go:191-201 | after one rule the map has errors exactly when it had some or the rule fires (key present and equal) with a failing sub-schema |
| Schema.ConditionalVerdict | validator.go:189-204 | the conditional pass adds errors exactly when some firing rule's sub-schema fails on the outer transformed map |
| Schema.BeforeCross | validator.go:169-204 | the errors of passes 1 to 3 are well formed and extend the transform pass's errors |
| Schema.CrossMessagesFaithful | validator.go:208-212 | the cross messages are empty exactly when every validator passes, and are exactly the failing validators' texts |
| Schema.CrossMessages | validator.go:208-212 | at most one message per cross validator, each the error text it returned |
| Schema.CrossPass | validator.go:207-213 | every cross validator runs; each error is appended under "_cross_validation" and no other key changes |
| Schema.Run | validator.go:168-221 | validData is the transformed map when no error was recorded and stays empty otherwise; the error map is well formed |
| Schema.Validate | validator.go:168-221 | the schema's Validate with the typed fields: well-formed errors and all-or-nothing valid data |
| Schema.RunVerdict | validator.go:168-221 | the result has errors exactly when a transform fails, a field fails, a firing rule's sub-schema fails, or a cross validator fails (it runs whenever the others all pass) |
| Schema.RuleNeedsOuterField | validator.go:191-194 | a rule can fire only on a field the outer shape declares, since the sub-schema sees the outer transformed map alone |
| Schema.Fires | validator.go:192-193 | a rule fires only on the expected value, dynamic type included (every integer width, and a time's location and monotonic reading); a rule expecting nil never fires on a missing key |
| Schema.FiresComparesTypes | validator.go:192-193 | a rule expecting `int(5)` fires on `int(5)` but not on `int64(5)` or `float64(5)` |
| Schema.FiresComparesWidthsAndClocks | validator.go:192-193 | a rule expecting `uint8(5)` fires on `uint8(5)` but not on `uint64(5)`; a rule expecting a time fires on that time but not on the same instant under another location or monotonic reading |
| Schema.ValidDataIsShape | validator.go:170-181 | on success validData has exactly the shape's names as keys, each holding its field's transformed value: extra input keys are dropped, absent ones hold what nil transforms to |
| Schema.TransformErrorsKept | validator.go:173-213 | no later pass removes or reorders a message the transform pass recorded |
| Schema.TransformFailureRecorded | validator.go:176-178 | a field whose transform fails has the transform message as the first message under its name in the final result |
| Schema.TransformFailureValidatesNil | validator.go:176-185 | a field whose transform fails is absent from the transformed map, so the field pass validates nil for it |
| Schema.CrossSkippedAfterErrors | validator.go:206-213 | once passes 1 to 3 recorded an error, including one merged from a sub-schema, the cross validators play no part in the result |
| Schema.ConditionalPassIgnoresCross | validator.go:189-204 | the conditional pass does not depend on the outer schema's cross validators |
| Schema.CrossRunsWhenClean | validator.go:206-213 | when passes 1 to 3 were clean, the result holds exactly the failing cross validators' messages, in order, under "_cross_validation" and nothing else |
| Schema.TransformedSameEntries | validator.go:173-181 | declaring the same entries in another order gives the same transformed map and the same transform verdict |
| Schema.SameEntriesTransformed | validator.go:173-181 | with the same entries, every transformed key of one order is there with the same value in the other |
| Schema.SameEntriesFails | validator.go:173-181 | with the same entries, a transform failure in one order is one in the other |
| Schema.SameEntriesFieldFails | validator.go:184-186 | with the same entries, a field failure in one order is one in the other |
| Schema.ShapeOrderIrrelevant | validator.go:173-186 | whether the result has errors is the same for every order the shape is visited in |
| Results.MessagesOf | core/result.go:78-80 | a field never written holds no messages |
| Results.HasErrorsMeansMessage | core/result.go:69-71 | on a well-formed map, HasErrors holds exactly when some field holds a message |
| Results.AddError | core/result.go:59-61 | AddError appends the message to that field's list, keeps earlier messages in order, leaves every other field alone, and makes HasErrors true |
| Results.AddErrors | core/result.go:59-61 | appending several messages one by one adds them to the field's list in order and changes nothing else |
| Results.ExtendsKeepsErrors | core/result.go:69-71 | once the result has an error it keeps having one through any append-only change |
| Results.AddErrorsExtends | core/result.go:59-61 | appending never removes or reorders an existing message |
| Results.AddErrorExtends | core/result.go:59-61 | AddError never removes or reorders an existing message |
| Results.MergeErrors | validator.go:196-200 | the sub-schema merge appends each key's sub-schema messages after those already there and keeps the map well formed |
| Results.MergeExtends | validator.go:196-200 | merging keeps every earlier message in place |
| Results.MergeOrderIrrelevant | validator.go:196-200 | visiting the sub-schema's keys in any order, each once, gives the same merged map |
| Results.MergeStep | validator.go:196-200 | merging one key first and then the rest is the whole merge |
| Results.MergeRest | validator.go:196-200 | merging the keys still to visit in order is the merge of the sub-map they form |
| Results.SetValidData | core/result.go:95-97 | SetValidData replaces the data and leaves the errors, and so HasErrors, as they were |
| Fields.ApplyStep | types/string.go:136-157 | a string transform fails exactly on a non-string, with its own error, and otherwise replaces the string by the rule's output |
| Fields.GetLabel | core/base_type.go:66-71 | the label when it is non-empty, the field name otherwise |
| Fields.Defaulted | core/base_type.go:101-104 | the default replaces only a nil input; "" and every other value are kept |
| Fields.BaseTransform | core/base_type.go:101-116 | a value still nil after defaulting returns nil without running a step; otherwise the steps run in order, each on the previous output, and the first error aborts with no value |
| Fields.IP | types/string.go:120-127 | IP takes its first argument as the version, or 0 (any) without one, and changes nothing else |
| Fields.Regex | types/string.go:236-243 | a pattern that fails to compile clears the pattern and records "invalid regex pattern: …"; a recorded error is never cleared |
| Fields.Password | types/string.go:160-180 | the field's password rules are the defaults with the options applied in order |
| Fields.NumberDefault | types/number.go:74-86 | an `int` or `float32` default is stored as a `float64`; every other value, the other integer types included, keeps its own type |
| Fields.NumberDefaultKeepsInt64 | types/number.go:74-86 | an `int64(5)` default stays an `int64`, while an `int(5)` default becomes `float64(5)` |
| Fields.Version | types/uuid.go:50-55 | Version takes effect only for 0 to 5; any other argument leaves the field unchanged |
| Custom.RuleError | core/custom_validators.go:121-123 | RuleFunc returns its validator's error; UniqueRule and ExistsRule fail on a checker error (wrapped) or a false answer; RegexRule fails exactly on non-strings |
| Custom.Refine | core/custom_validators.go:399-406 | a refined rule fails exactly when the predicate is false and carries the given message |
| Custom.RuleMessage | core/custom_validators.go:184-189 | a failing rule reports its Message(), or the error's text when Message() is "" |
| Custom.AddSync | core/custom_validators.go:149-151 | appends one sync validator and changes no other list |
| Custom.AddAsync | core/custom_validators.go:154-156 | appends one async validator and changes no other list |
| Custom.AddContext | core/custom_validators.go:159-161 | appends one context validator and changes no other list |
| Custom.AddRule | core/custom_validators.go:164-166 | appends one rule and changes no other list |
| Custom.HasValidators | core/custom_validators.go:230-235 | false exactly when all four lists are empty |
| Custom.ValidatorFailuresNone | core/custom_validators.go:176-181 | the sync validators report nothing exactly when each of them passes |
| Custom.RuleFailuresNone | core/custom_validators.go:182-190 | the rules report nothing exactly when each of them passes |
| Custom.ValidateSync | core/custom_validators.go:174-192 | every sync validator and then every rule runs, in order, each failure appending one message to the field, with no short-circuit; other fields are untouched |
| Custom.SyncPassesIff | core/custom_validators.go:174-192 | ValidateSync leaves the result unchanged exactly when every validator and every rule passes |
| Custom.NoValidatorsNoChange | core/custom_validators.go:230-235 | without validators ValidateSync changes nothing, so the fields' HasValidators guard never changes the outcome |
| Custom.FirstFailure | core/custom_validators.go:204-212 | none exactly when every async validator passes; otherwise the error of the first one that fails |
| Custom.ValidateAsync | core/custom_validators.go:204-212 | the async validators run until the first failure, whose message alone is recorded and whose error is returned |
| Custom.AsyncStopsAtFirst | core/custom_validators.go:204-212 | validators after the first failure never influence ValidateAsync |
| Custom.ValidateContext | core/custom_validators.go:221-227 | every context validator runs and each failure appends its message to the field; other fields are untouched |
| Custom.ContextFailures | core/custom_validators.go:221-227 | no message exactly when every context validator returns nil, and at most one per validator |
| Custom.StringCustom | types/string.go:183-197 | a string reaches the user function; anything else, nil included, fails with "value must be string" |
| Custom.NilOrStringCustom | types/uuid.go:58-77 | nil passes, a string reaches the user function, anything else fails with "value must be string" (also IBAN and card) |
| Custom.NumberCustom | types/number.go:121-155 | nil passes, signed integers and floats reach the user function as float64, anything else, unsigned integers included, fails with "value must be number" |
| Custom.BoolCustom | types/boolean.go:70-89 | nil passes, a bool reaches the user function, anything else fails |
| Custom.DateCustom | types/date.go:110-129 | nil passes, a time reaches the user function with its instant and its clock, anything else fails with "value must be time.Time" |
| Custom.ArrayCustom | types/array.go:116-135 | nil passes, a list reaches the user function, anything else fails |
| Custom.ObjectCustom | types/object.go:69-88 | nil passes, a map reaches the user function, anything else fails |
| Evaluation.Transform | types/object.go:107-136 | every type starts with the base transform: its failure is the result, and nil stays nil |
| Evaluation.ElementsSucceed | types/array.go:100-111 | the element transform succeeds exactly when every element transforms |
| Evaluation.TransformElements | types/array.go:102-111 | a successful element loop gives one transformed value per element |
| Evaluation.ElementsValues | types/array.go:100-111 | the transformed elements keep their order, each the transform of the element at its index |
| Evaluation.ElementsFailure | types/array.go:100-111 | a failed element transform names the first element that fails |
| Evaluation.ChildrenSucceed | types/object.go:121-135 | the children transform exactly when every declared child does |
| Evaluation.TransformChildren | types/object.go:121-128 | a successful child loop binds only names the shape declares |
| Evaluation.ChildrenFailure | types/object.go:124-127 | a failed child transform is that of the first declared child that fails |
| Evaluation.ChildrenKeys | types/object.go:121-135 | the transformed children are keyed by exactly the declared names |
| Evaluation.ChildrenValues | types/object.go:121-135 | with distinct names each declared child holds its own transformed value |
| Evaluation.Validate | core/base_type.go:132-144 | a field's Validate only appends errors, keeps the map well formed, and writes only under its own key and the keys below it |
| Evaluation.ValidateElements | types/array.go:224-229 | the element loop writes only under `field[…]` keys and only appends |
| Evaluation.ValidateChildren | types/object.go:159-163 | the child loop writes only under `field.…` keys and only appends |
| Evaluation.ValidateVerdict | types/string.go:265-271 | the result has errors exactly when it had some already or the field fails on its own (required, own checks, an element or a child) |
| Evaluation.ElementsVerdict | types/array.go:224-229 | the element loop adds errors exactly when some element fails |
| Evaluation.ChildrenVerdict | types/object.go:159-163 | the child loop adds errors exactly when some declared child fails |
| Evaluation.ElementFailsFromSome | types/array.go:224-229 | "some element from i on fails" holds exactly when such an element exists |
| Evaluation.ChildFailsFromSome | types/object.go:159-163 | "some child from i on fails" holds exactly when such a declared child exists |
| Evaluation.OwnKeyHoldsOwnFailures | types/string.go:264-416 | on an error-free result, the field's key ends up holding exactly its own failures, in order; elements and children write under longer keys |
| Evaluation.OwnKeyReports | types/number.go:202-283 | a check's failure is reported under the field's key exactly when the field's own checks find it |
| Evaluation.RequiredReportsOnce | core/base_type.go:132-144 | a missing required field gets exactly one "required" message under its key and nothing else changes |
| Evaluation.GateKeepsResult | types/string.go:265-271 | past the required check, a result that already has any error, or a nil value, stops the field |
| Evaluation.RequiredOnlyNilOrEmpty | core/base_type.go:134-143 | the required check rejects nil and "" only; 0, false, an empty list and white space are present |
| Evaluation.OwnFailures | types/object.go:144-167 | past the gate, nil reports nothing under the field's own key; a value of the wrong kind reports exactly its type's kind failure; an object's own key holds only its custom validators' failures |
| Evaluation.StringValueFailures | types/string.go:264-276 | nil reports nothing and a non-string reports exactly the string kind failure |
| Evaluation.AdvancedValueFailures | types/advanced_string.go:144-150 | nil reports nothing and a non-string reports exactly the string kind failure, as the plain string type does |
| Evaluation.AdvancedValueGated | types/advanced_string.go:144-150 | failing plain string checks are all that is reported; once they pass, exactly the failing advanced checks are |
| Evaluation.AdvancedNeedsCleanString | types/advanced_string.go:145-174 | an advanced check is reported exactly when the plain string checks reported nothing and that check fails |
| Evaluation.ObjectTransformContents | types/object.go:107-136 | an object transforms when every declared child does; the result keeps every undeclared input key unchanged, and each declared child, present or not, holds its transformed value |
| Evaluation.ArrayTransformElementwise | types/array.go:88-114 | an array with an element schema transforms when every element does, then holds the transformed elements in order; otherwise the error names the first failing index |
| StringChecks.LengthFailuresExactly | types/string.go:281-287 | Min and Max are inclusive bounds on the byte length, each checked independently |
| StringChecks.ContentFailuresExactly | types/string.go:334-387 | OneOf, password, IP, phone, alpha/alphanumeric/numeric and the prefix, suffix and substring checks report exactly their failing conditions |
| StringChecks.PasswordFailures | types/string.go:347-352 | one failure per password issue, and none unless the policy applies (a non-empty string) |
| StringChecks.FormatFailuresExactly | types/string.go:394-411 | the custom pattern, MAC, hex and base64 checks report exactly their failing conditions |
| StringChecks.Assemble | types/string.go:264-416 | the seven phases of StringType.Validate each report only their own kind of failure |
| StringChecks.StringFailures | types/string.go:264-416 | the string checks report in check order, with the custom validators last |
| StringChecks.StringReachesEmail | types/string.go:289-310 | the email failure is reported exactly when the pre-checks or the pattern reject the address |
| StringChecks.StringReachesUrl | types/string.go:312-332 | the URL failure is reported exactly when the email pre-checks did not return and the URL pre-checks or pattern reject it |
| StringChecks.StringReachesContent | types/string.go:334-387 | a content failure is reported exactly when no early return fired and the check fails |
| StringChecks.StringReachesPattern | types/string.go:389-392 | a recorded regex error is reported exactly when no early return fired, and it ends the checks |
| StringChecks.StringReachesFormat | types/string.go:394-411 | a format failure is reported exactly when the checks reach it and it fails |
| StringChecks.StringReachesUser | types/string.go:413-415 | custom validators report only when no early return fired, and then exactly their failures |
| StringChecks.StringReachesOther | types/string.go:264-416 | the string checks never report another type's failure |
| StringChecks.StringFailuresExactly | types/string.go:264-416 | StringType.Validate reports exactly the failures whose condition holds and whose check is reached |
| StringChecks.EmailEarlyReturn | types/string.go:289-305 | a failed email pre-check ("..", or a final part shorter than 2) gives the length failures, one email failure and nothing else: the custom validators are skipped |
| StringChecks.EmailPrecheckExample | types/string.go:290-293 | worked example of StringChecks.EmailEarlyReturn: "a..b@x.com" stops at the email pre-checks |
| StringChecks.UrlPrecheckExamples | types/string.go:312-328 | worked example of StringChecks.StringReachesUrl: a bare scheme and a schemeless address stop at the URL pre-checks |
| StringChecks.AdvancedFailuresExactly | types/advanced_string.go:154-173 | the Turkish, domain and character set checks report exactly their failing conditions |
| StringChecks.AdvancedFailures | types/advanced_string.go:154-173 | only advanced failures, at most three: the Turkish check, the domain and the character set |
| StringChecks.TurkishChecksExclusive | types/advanced_string.go:154-161 | TurkishChars reports at most one of its two failures |
| StringChecks.UnknownCharSetAlwaysFails | types/advanced_string.go:169-173 | a character set name outside the four known ones rejects every string |
| ValueChecks.AsNumber | types/number.go:214-238 | the signed integer types and both float types pass the number kind check with their exact value; unsigned integers and every other value fail it |
| ValueChecks.Truncate | types/number.go:247 | `float64(int64(x))` truncates toward zero, by less than one |
| ValueChecks.TruncateIsWhole | types/number.go:247 | truncation lands on a whole number |
| ValueChecks.TruncateFixesWholes | types/number.go:247-249 | Integer() fails exactly on numbers with a fractional part |
| ValueChecks.IntegerExamples | types/number.go:247-249 | worked example of ValueChecks.TruncateFixesWholes: 42.0 passes Integer() and 42.5 does not |
| ValueChecks.NumberCheckList | types/number.go:247-278 | the seven numeric checks, in order, each with a distinct failure |
| ValueChecks.NumberChecks | types/number.go:247-278 | every numeric check runs; each reports at most once |
| ValueChecks.NumberChecksExactly | types/number.go:247-278 | Integer, inclusive Min and Max, Positive (> 0), Negative (< 0), MultipleOf and the closed Between report exactly when their condition fails |
| ValueChecks.NumberFailures | types/number.go:202-283 | nil passes; a non-number gets exactly one kind failure and stops; custom validators come last |
| ValueChecks.NumberFailuresExactly | types/number.go:202-283 | NumberType.Validate reports exactly the failing numeric checks and the custom failures |
| ValueChecks.BetweenIsClosed | types/number.go:274-278 | Between rejects exactly the values outside the closed interval |
| ValueChecks.BooleanFailures | types/boolean.go:105-124 | only a bool passes the kind check; custom validators run only for a bool |
| ValueChecks.Layout | types/date.go:210-213 | the parse layout is the field's format, or "2006-01-02" when none was set |
| ValueChecks.DateTransform | types/date.go:154-180 | nil stays nil, a time passes unchanged, a string is parsed with the layout into a time with the parser's location and no monotonic reading (an unparsable one is a transform error), anything else is an error |
| ValueChecks.BoundFailures | types/date.go:216-233 | an unparsable bound gives the format failure instead of a range failure |
| ValueChecks.DateChecksExactly | types/date.go:216-233 | Min rejects only dates strictly before the bound, Max only dates strictly after |
| ValueChecks.DateBoundsInclusive | types/date.go:216-233 | a date equal to a parsed bound passes |
| ValueChecks.DateFailures | types/date.go:194-238 | a non-time value gets exactly one date failure and stops; a time gets its bound failures and then the custom failures |
| ValueChecks.Renderings | types/array.go:194-218 | Unique and Contains compare elements by their `%v` rendering |
| ValueChecks.RepeatScanFinds | types/array.go:194-205 | the scan finds a rendering met twice or already seen |
| ValueChecks.UniqueScanCorrect | types/array.go:194-205 | Unique fails exactly when two elements have the same rendering |
| ValueChecks.ArrayChecks | types/array.go:182-218 | Min, Max, NotEmpty, Unique and Contains each report at most once |
| ValueChecks.ArrayChecksExactly | types/array.go:182-218 | inclusive count bounds, NotEmpty, Unique and Contains (some rendering equal to the expected one) report exactly when they fail |
| ValueChecks.ArrayFailures | types/array.go:165-222 | a non-list gets exactly one array failure and stops; custom failures come after the list checks |
| ValueChecks.ArrayFailuresExactly | types/array.go:165-222 | ArrayType.Validate reports under its own key exactly the failing list checks and custom failures |
| ValueChecks.StringRuleFailures | types/uuid.go:89-112 | a non-string gets one kind failure and stops; a string gets the format failure when invalid, and the custom validators run either way |
| ValueChecks.UuidFailures | types/uuid.go:98-111 | a UUID failure is reported exactly when IsValidUUID is false; custom validators still run |
| ValueChecks.IbanFailures | types/iban.go:118-130 | an IBAN failure is reported exactly when IsValidIBAN is false; custom validators still run |
| ValueChecks.CardFailures | types/creditcard.go:134-147 | a card failure is reported exactly when IsValidCreditCard is false; custom validators still run |
| ValueChecks.IbanFieldIgnoresSpacesAndCase | types/iban.go:124-126 | an IBAN field's verdict ignores spaces and letter case |
| Reports.Select | types/number.go:247-278 | the failures of exactly the checks that fail, in order |
| Reports.SelectDistinct | types/array.go:182-218 | checks with different failures report each at most once |
| Reports.UserFailures | core/custom_validators.go:174-192 | the custom validators' messages become failures one to one, in order |
| Reports.ChecksThenUsers | types/number.go:280-282 | a type's checks followed by its custom validators keep the custom failures last |
| Reports.RecordedFailure | core/result.go:59-61 | a check's failure is among the recorded messages exactly when it was reported |
| Reports.UserFailuresRecordBack | core/custom_validators.go:184-189 | custom messages are recorded exactly as the validator returned them |
| Reports.ResolveRecorded | i18n/messages.go:288-310 | recording a failure and resolving it later gives the message Go adds on the spot |
| Reports.Texts | core/result.go:78-80 | resolving the error map keeps every key and every message, in order |
| Reports.Report | core/result.go:59-61 | reporting failures appends their records under the field in order, keeps everything else, and has errors exactly when it had some or something was reported |
| Reports.Render | types/string.go:275-409 | a check's failure renders to text that names the field's label first, or to "[key]" when the key has no template; a custom validator's message is kept as it returned it |
| Reports.Resolve | types/string.go:275-409 | a recorded failure resolves to the text its check renders; any other message is already text and is kept |
| Reports.UntranslatedTexts | types/array.go:176-186 | the texts Go writes without the translator (array kind and element counts, advanced checks, bad pattern, weak password) are the same in every locale |
| Reports.IssueText | rules/password.go:173-228 | each password issue has a fixed text, never a pending failure |
| Reports.IssueTextFormatted | rules/password.go:173-228 | exactly the issues that carry a setting (length limits, special set, unique and repeat limits) format it into their text |
| Reports.WrongTypeText | types/string.go:275 | a kind failure names the label first; the array's is fixed Turkish text, the others come from the translator |
| Reports.ContentText | types/string.go:343-386 | each content failure names the label first, or renders as "[key]" without a template |
| Reports.FormatText | types/string.go:395-409 | each format failure names the label first, or renders as "[key]" without a template |
| Reports.AdvancedText | types/advanced_string.go:154-173 | each advanced failure is fixed Turkish text with the label first |
| Reports.NumberText | types/number.go:243-276 | each numeric failure names the label first, or renders as "[key]" without a template |
| Reports.DateText | types/date.go:205-231 | each date failure names the label first, or renders as "[key]" without a template |
| Reports.ArrayText | types/array.go:176-216 | each array failure names the label first, or renders as "[key]" without a template |
| I18n.Bracketed | i18n/messages.go:309 | a key with no template renders as the key in brackets |
| I18n.Get | i18n/messages.go:288-310 | the current locale's template; failing that, the default locale's when fallback is on and the locales differ; failing that, "[key]" |
| I18n.SetLocale | i18n/messages.go:221-225 | changes only the current locale |
| I18n.SetDefaultLocale | i18n/messages.go:341-345 | changes only the default locale |
| I18n.SetFallback | i18n/messages.go:326-330 | changes only the fallback switch |
| I18n.HasLocale | i18n/messages.go:359-364 | true exactly when the locale is loaded |
| I18n.AddMessages | i18n/messages.go:256-267 | creates a missing locale and overwrites only the given keys; other keys and locales keep their templates |
| I18n.CataloguesComplete | i18n/messages.go:118-206 | both built-in catalogues define exactly the declared keys |
| I18n.UndeclaredKeysMissing | i18n/messages.go:43-83 | no key outside the const block, whatever its text, has a built-in template, so the keys the field types use without declaring them render as "[key]" |
| I18n.InitialLocales | i18n/messages.go:105-115 | at start exactly "en" and "tr" are loaded |
| I18n.InitialGet | i18n/messages.go:105-115 | at start a key renders with its English template, or bracketed when it has none |
| I18n.FallbackToDefault | i18n/messages.go:300-306 | a locale without the key reads the default locale's template when fallback is on |
| I18n.NoFallback | i18n/messages.go:293-309 | with fallback off only the current locale is consulted |
| I18n.AddedTemplateWins | i18n/messages.go:256-267 | a template added to the current locale is the one Get uses from then on |
| I18n.AddMessagesOtherKey | i18n/messages.go:256-267 | adding templates for other keys never changes what a key renders to |
| I18n.TurkishGet | i18n/messages.go:164-206 | after SetLocale("tr") a key renders with its Turkish template, or falls back to English |
| PasswordOptions.Apply | types/password_options.go:34-87 | each option writes exactly its own setting and no other |
| PasswordOptions.ApplyAll | types/password_options.go:34-87 | the options never change the settings that have no setter |
| PasswordOptions.Password | types/string.go:160-180 | no options give the fixed defaults; max repeats 3, common and keyboard blocked and entropy 50 always hold |
| PasswordOptions.UntouchedSetting | types/string.go:175-177 | options for other settings never disturb a setting |
| PasswordOptions.LastOptionWins | types/string.go:175-177 | the last option for a setting decides it |
| PasswordPolicy.StringReverse | rules/password.go:75-81 | reversal keeps the length |
| PasswordPolicy.StringReverseInvolution | rules/password.go:75-81 | reversing twice is the identity |
| PasswordPolicy.KeyboardPatternReversalInvariant | rules/password.go:87-95 | the keyboard check gives the same verdict for a password and its reversal |
| PasswordPolicy.PasswordChecksIgnoreCase | rules/password.go:87-95 | the keyboard and common-password checks do not distinguish letter case |
| PasswordPolicy.RepeatScanCorrect | rules/password.go:101-121 | the run-length scan finds a run longer than the limit exactly when one exists |
| PasswordPolicy.HasRepeatingCharsCorrect | rules/password.go:101-121 | hasRepeatingChars holds exactly when some rune repeats more than maxRepeats times in a row, and never for a limit of 0 or less |
| PasswordPolicy.CharPool | rules/password.go:128-154 | the character pool is at most 94, and positive for a non-empty password |
| PasswordPolicy.SelectSound | rules/password.go:173-228 | every reported issue comes from a firing check, in check order |
| PasswordPolicy.SelectMember | rules/password.go:173-228 | with distinct ranks a check's issue is reported exactly when the check fires |
| PasswordPolicy.PasswordChecks | rules/password.go:179-225 | the eleven checks in the order the function runs them |
| PasswordPolicy.PasswordIssueIff | rules/password.go:179-225 | each issue is reported exactly when its check fires |
| PasswordPolicy.ValidatePassword | rules/password.go:173-228 | nil rules give no issues; otherwise each of the eleven issues appears exactly when its condition holds, in the fixed order, with byte lengths, distinct runes and the special set read as a regexp class |
| PasswordPolicy.ClassWithoutRangesIsSet | rules/password.go:196-201 | a special set with no interior `-` matches exactly its own runes |
| PasswordPolicy.ClassCoversRunes | rules/password.go:196-201 | a class whose ranges ascend matches every rune of the set except a `-` that joins a range |
| PasswordPolicy.ClassRangeExample | rules/password.go:196-201 | worked example of PasswordPolicy.ClassCoversRunes: `WithSpecialChars("#-%")` builds the range `#` to `%`, which matches `$` and not `-` |
| PasswordOptions.DefaultSpecialIsSet | types/string.go:168 | the default special set ends in `-`, so its class matches exactly its own runes |
| Network.IsValidIP | rules/network.go:58-74 | false when parsing fails; version 0 accepts any address, 4 the IPv4 ones, 6 the others, any other version nothing |
| Network.IpVersionsPartition | rules/network.go:58-74 | a parsed address is valid for exactly one of versions 4 and 6 |
| Network.IsValidPhoneNumber | rules/network.go:83-113 | false for a country outside the table; TR and US match their patterns after formatting runes are removed |
| Network.PhoneFormattingIrrelevant | rules/network.go:110-112 | inserting white space, '-', '(' or ')' anywhere never changes the verdict |
| Network.PhoneCleanIdempotent | rules/network.go:110-112 | a pre-cleaned number gets the same verdict |
| Security.StripTags | rules/security.go:82-89 | the output is no longer and no '<' in it is followed later by '>' |
| Security.StripHtmlTags | rules/security.go:82-89 | the result has no tag span left |
| Security.StripTagsNoSpan | rules/security.go:82-89 | text without a tag span is left unchanged |
| Security.StripTagsIdempotent | rules/security.go:82-89 | stripping twice is stripping once |
| Security.AllowedTagsIgnored | rules/security.go:82-89 | the allowed tags argument never makes a difference |
| Security.StripTagsExample | rules/security.go:39 | worked example of Security.StripHtmlTags and Security.StripTagsNoSpan: a closed tag is removed; a '<' with no '>' after it stays |
| Security.PreventXss | rules/security.go:101-108 | because '&' is replaced first, the five replacement passes equal escaping each special rune once |
| Security.EscapeHtml | rules/security.go:101-108 | the escaped text holds no '<', '>', '"' or '\'' |
| Security.PassesEscape | rules/security.go:103-107 | the five passes, each on the previous output, equal the rune-by-rune escape |
| Security.CollapseDots | rules/security.go:126 | collapsing dot runs keeps only runes of the input and leaves no two dots adjacent |
| Security.TrimOneDot | rules/security.go:127-128 | removing one leading and one trailing dot keeps a dot-run-free name free of them and leaves no leading dot |
| Security.SanitizeFilename | rules/security.go:123-133 | the output uses only [A-Za-z0-9-_.], has no "..", no leading '.', and is at most 255 bytes |
| Security.SanitizeTransliterates | rules/security.go:61-68 | a Turkish letter is kept as its Latin letter rather than dropped |
| Security.SanitizeKeepsSafeNames | rules/security.go:123-133 | a name already safe passes unchanged |
| Security.FilterEmoji | rules/security.go:145-150 | without remove the identity; with it no emoji is left |
| Security.FilterEmojiKeepsText | rules/security.go:145-150 | removal keeps every other rune, in order |
| Security.ValidateCharSet | rules/security.go:162-168 | false for an unknown set and for ""; numeric and alpha accept exactly non-empty digit and letter strings |
| Security.CharSetsNest | rules/security.go:53-58 | alpha and numeric text is alphanumeric |
| Domains.HasTurkishChars | rules/advanced_string.go:50-53 | true exactly when the text holds one of çÇğĞıİöÖşŞüÜ, so never for ASCII text |
| Domains.IsValidDomain | rules/advanced_string.go:72-89 | an accepted domain is labels then a TLD, with exactly one label when subdomains are disallowed |
| Domains.NoSubdomainImpliesSubdomain | rules/advanced_string.go:83-86 | anything accepted without subdomains is accepted with them |
| Domains.JoinedLabelsAreDomain | rules/advanced_string.go:72-89 | labels and a TLD joined with dots are accepted; one label suffices without subdomains |
| Domains.DomainIsJoinedLabels | rules/advanced_string.go:72-89 | every domain is its dot-separated parts joined back |
| Domains.DomainExamples | rules/advanced_string.go:74-78 | worked example of Domains.IsValidDomain and Domains.JoinedLabelsAreDomain: a label may start with a digit, a hyphen may not start or end it, and the TLD needs two letters |
| Uuid.IsValidUUID | rules/uuid.go:52-67 | version 0 accepts the 8-4-4-4-12 lowercase hex shape; 1, 3, 4 and 5 also need their version digit and variant; other versions nothing |
| Uuid.SpecificImpliesGeneric | rules/uuid.go:52-67 | anything valid for a version is valid for version 0 |
| Uuid.OnlyLowercase | rules/uuid.go:24-35 | an accepted UUID holds no upper-case letter |
| Uuid.FormatIsGeneric | rules/uuid.go:34 | groups of 8, 4, 4, 4 and 12 lowercase hex digits joined by dashes form a valid UUID |
| Uuid.GenericIsFormat | rules/uuid.go:34 | every valid UUID is its five groups joined by dashes at 8, 13, 18 and 23 |
| Payment.Contribution | rules/payment.go:56-61 | one digit adds less than 10 to the Luhn sum |
| Payment.Luhn | rules/payment.go:46-67 | luhnCheck accepts only strings made of decimal digits |
| Payment.LuhnScanSum | rules/payment.go:46-67 | the scan accepts exactly the digit strings whose weighted sum is a multiple of 10 |
| Payment.SumLeftIsSumRight | rules/payment.go:46-67 | summing from the left with the parity flag equals the right-to-left sum |
| Payment.LuhnCorrect | rules/payment.go:46-67 | luhnCheck equals the right-to-left check of ISO/IEC 7812-1 on digit strings, and is false on anything else |
| Payment.LuhnEmpty | rules/payment.go:46-67 | luhnCheck accepts the empty string |
| Payment.LuhnDetectsSingleDigitError | rules/payment.go:46-67 | changing a single digit of a Luhn-valid number makes it invalid |
| Payment.StripNonDigits | rules/payment.go:86 | stripping keeps only ASCII digits |
| Payment.IsValidCreditCard | rules/payment.go:84-105 | valid exactly when the stripped digits pass Luhn and, for a known brand, match its pattern; an unknown brand is false |
| Payment.CreditCardDigitsOnly | rules/payment.go:84-105 | inputs with the same digits get the same verdict |
| Payment.CreditCardStripIdempotent | rules/payment.go:86 | a pre-stripped number gets the same verdict |
| Payment.BrandShapes | rules/payment.go:89-93 | visa is 4 then 12 or 15 digits, mastercard 5[1-5] then 14, amex 3[47] then 13 |
| Payment.ExpandLetter | rules/payment.go:142-148 | a letter becomes two digits denoting 10 to 35 |
| Payment.IsValidIBAN | rules/payment.go:125-163 | with a known country, valid exactly when the byte length matches, the shape holds (two letters, two digits, at least four alphanumerics) and the remainder mod 97 is 1; an unknown country is invalid; without a country, exactly the shape and remainder 1 |
| Payment.NormalizeIbanIdempotent | rules/payment.go:126 | normalising twice is normalising once |
| Payment.NormalizeIban | rules/payment.go:126 | the normalised IBAN holds no space and no lower-case ASCII letter and is no longer than the input |
| Payment.IbanIgnoresSpacesAndCase | rules/payment.go:126 | spaces and letter case never change the verdict |
| Payment.ModStep | rules/payment.go:150-162 | the remainder of a number extended by one digit depends only on the remainder of the number |
| Payment.Mod97 | rules/payment.go:150-162 | the digit-by-digit remainder equals the big-integer remainder mod 97 |
| Payment.CheckIban | rules/payment.go:125-163 | the IBAN check with the digit-by-digit remainder agrees with IsValidIBAN |
| Text.ByteLenBounds | types/string.go:281-287 | a string's byte length is at least its rune count, equal exactly for ASCII text |
| Text.GoLower | rules/password.go:88 | lower-casing never leaves an upper-case ASCII letter, and gives ASCII only for ASCII, U+0130 or the Kelvin sign |
| Text.GoUpper | rules/payment.go:126 | upper-casing never leaves a lower-case ASCII letter |
| Text.TrimSpace | types/string.go:136-145 | trimming leaves a slice of the input with no white space at either end |
| Text.TrimSpaceIdempotent | types/string.go:136-145 | trimming twice is trimming once |
| Text.SplitJoin | rules/advanced_string.go:72-89 | splitting undoes joining when no part holds the separator |
| Text.JoinSplit | rules/advanced_string.go:72-89 | joining undoes splitting |
| Values.Lookup | validator.go:174 | a missing key reads as nil |

## Left out

- Go's `fmt.Sprintf` placeholder rendering is left out. Messages are symbolic `Sprintf(format, args)` values, so message text is compared structurally, not as rendered strings.
- The translator's mutex and the `sync.Once` singleton are left out. The translator is an explicit value that stays fixed during a validation.
- The async validators' `context.Context` and its cancellation are left out. Only the first-failure order of ValidateAsync is modelled.
- The I/O behind UniqueRule and ExistsRule is left out. Their checkers are function values.
- The email, URL and user regexes, base64 decoding, `\p{Latin}`, `net.ParseIP`, `time.Parse` and `%v` rendering are parameters in `Fields.Env`, not models. The pre-checks around the email and URL regexes are modelled.
- Floating point is modelled as exact reals.
  - The entropy estimate keeps `math.Log2` as a parameter.
  - MultipleOf's `math.Mod` with its 1e-9 epsilon is the parameter `isMultipleOf`.
- ValueChecks.Truncate: the int64 overflow of `float64(int64(x))` for |x| ≥ 2^63 is not modelled, because reals are unbounded. The Integer check is exact truncation.
- Text.GoLower/GoUpper: only ASCII letters and the four runes U+0130, U+212A, U+0131 and U+017F are mapped; every other non-ASCII rune is left unchanged, where Go's `strings.ToLower`/`ToUpper` would map, for example, 'Ä' to 'ä'. No verdict depends on this: the password checks (rules/password.go:88 and 218) compare the folded text only with ASCII keyboard patterns and the ASCII common-password list, and the IBAN check (rules/payment.go:126) matches the upper-cased text against an ASCII-only pattern, so a non-ASCII rune fails or is ignored the same way whether or not it is mapped.
- ValueChecks.AsNumber: integers and floats are converted exactly, so no rounding is modelled. A `float32` holds an exact real like a `float64`. Go's `float64(v)` on an `int` or `int64` rounds magnitudes above 2^53 to the nearest float64, and the model does not. For example, under Max(9007199254740992) the value `int64(9007199254740993)` rounds down and passes in Go, but is AboveMax in the model. The smaller signed widths convert exactly in Go as well.
- The ranges of the integer types are not enforced: an `Int` tagged `GoInt8` may hold any integer. No operation of the core converts between integer types.
- `regexp.MustCompile` panics are left out. In the password policy this includes an empty special-character set, which the model reads as matching nothing, and a descending range such as `z-a`, which it reads as an empty range.
- Go's runtime panic when `==` in `When` compares uncomparable values is left out. The model uses structural equality. That compares numbers by value and Go type, each integer width separately, as `==` on `any` does. It compares times by instant, location and monotonic reading, as `==` on `time.Time` does.
- Schema.Fires: a location is an identity number, and the location of a parsed time is the parameter `Fields.Env.parsedLoc`. Go's `time.Parse` allocates a fresh `FixedZone` for an offset that is not the local zone's, so such a time never equals a user's expected value in Go. The model leaves that freshness to the choice of `parsedLoc`.
- I18n.UndeclaredKeysMissing: the eighteen keys that types/*.go looks up but i18n/messages.go does not declare (`KeyString` to `KeyArrayContains`) have assumed texts such as "validation.string". Their declarations are not part of this model. The lemma's first clause holds for any texts that differ from the declared keys, but the model assumes no other file gives them a template.
- The `When` callback is represented by the sub-schema value it returns. The factory is pure in every use of it.
- `types/advanced_string.go` converts with `value.(string)` after `StringType.Validate`; a non-string never reaches it because the string checks already reported. The model follows that path.
- main/main.go (printing examples), constructors.go (zero-value constructors), core/interfaces.go (declarations) and core/errors.go and errors.go (string concatenation) are not part of this model.
- Schema.Validate: states only well-formed errors and all-or-nothing valid data about the typed instantiation. The detailed properties are proved about `Schema.Run` for any field operations, which `Schema.TypedOps` instantiates.
- Evaluation.Transform: its own contract states the base-transform prefix. The date, array and object cases are stated by ValueChecks.DateTransform, Evaluation.ArrayTransformElementwise and Evaluation.ObjectTransformContents.
- Go's map iteration order is a parameter (the order of the shape sequence and of the merged keys), not a random choice.

=== FILE: custom.dfy ===
/**
 * User-supplied checks of core/custom_validators.go: validator functions,
 * rules with their own message, and the runners that report their failures
 * into an error map. A Go `error` is modelled as `Some(text)`, `nil` as `None`.
 */
module Custom {
  import opened Wrappers
  import opened Values
  import opened Messages
  import opened Results

  /** CustomValidator: `func(value any) error`. */
  type Validator = Value -> Option<string>

  /** ContextValidator: the value and the whole data map. */
  type ContextValidator = (Value, map<string, Value>) -> Option<string>

  /** A checker for Unique/Exists: `(bool, error)` as a result. */
  type Checker = Value -> Result<bool>

  /** The four Rule implementations; `Refine` builds a `RuleFunc`. */
  datatype Rule =
    | RuleFunc(validator: Validator, message: string)
    | UniqueRule(checker: Checker, message: string)
    | ExistsRule(checker: Checker, message: string)
    | RegexRule(pattern: string, message: string)

  /** Rule.Validate: the error a rule returns for a value. */
  function RuleError(r: Rule, v: Value): (e: Option<string>)
    ensures r.RuleFunc? ==> e == r.validator(v)
    ensures r.UniqueRule? ==> match r.checker(v)
      case Failure(err) => e == Some("unique check failed: " + err)
      case Success(ok) => e == if ok then None else Some("not unique")
    ensures r.ExistsRule? ==> match r.checker(v)
      case Failure(err) => e == Some("exists check failed: " + err)
      case Success(ok) => e == if ok then None else Some("not found")
    ensures r.RegexRule? ==> (e.Some? <==> !v.Str?)
  {
    match r
    case RuleFunc(validator, _) => validator(v)
    case UniqueRule(checker, _) =>
      (match checker(v)
       case Failure(err) => Some("unique check failed: " + err)
       case Success(ok) => if ok then None else Some("not unique"))
    case ExistsRule(checker, _) =>
      (match checker(v)
       case Failure(err) => Some("exists check failed: " + err)
       case Success(ok) => if ok then None else Some("not found"))
    case RegexRule(_, _) => if v.Str? then None else Some("value must be string")
  }

  /** Refine: a rule that fails exactly when the predicate is false. */
  function Refine(fn: Value -> bool, message: string): (r: Rule)
    ensures r.message == message
    ensures forall v :: RuleError(r, v).Some? <==> !fn(v)
  {
    RuleFunc((v: Value) => if fn(v) then None else Some("refinement failed"), message)
  }

  /** The message a failing rule reports: its own, or the error's text when its own is empty. */
  function RuleMessage(r: Rule, err: string): (m: Msg)
    ensures r.message != "" ==> m == Raw(r.message)
    ensures r.message == "" ==> m == Raw(err)
  {
    Raw(if r.message == "" then err else r.message)
  }

  /** CustomValidation: the four lists, each in insertion order. */
  datatype CustomValidation = CustomValidation(
    syncValidators: seq<Validator>,
    asyncValidators: seq<Validator>,
    contextValidators: seq<ContextValidator>,
    rules: seq<Rule>)

  /** NewCustomValidation; also what a field without custom checks holds. */
  const NoValidators: CustomValidation := CustomValidation([], [], [], [])

  function AddSync(cv: CustomValidation, f: Validator): (r: CustomValidation)
    ensures r.syncValidators == cv.syncValidators + [f]
    ensures r.asyncValidators == cv.asyncValidators && r.contextValidators == cv.contextValidators && r.rules == cv.rules
  {
    cv.(syncValidators := cv.syncValidators + [f])
  }

  function AddAsync(cv: CustomValidation, f: Validator): (r: CustomValidation)
    ensures r.asyncValidators == cv.asyncValidators + [f]
    ensures r.syncValidators == cv.syncValidators && r.contextValidators == cv.contextValidators && r.rules == cv.rules
  {
    cv.(asyncValidators := cv.asyncValidators + [f])
  }

  function AddContext(cv: CustomValidation, f: ContextValidator): (r: CustomValidation)
    ensures r.contextValidators == cv.contextValidators + [f]
    ensures r.syncValidators == cv.syncValidators && r.asyncValidators == cv.asyncValidators && r.rules == cv.rules
  {
    cv.(contextValidators := cv.contextValidators + [f])
  }

  function AddRule(cv: CustomValidation, rule: Rule): (r: CustomValidation)
    ensures r.rules == cv.rules + [rule]
    ensures r.syncValidators == cv.syncValidators && r.asyncValidators == cv.asyncValidators
    ensures r.contextValidators == cv.contextValidators
  {
    cv.(rules := cv.rules + [rule])
  }

  /** HasValidators: some list is non-empty. */
  function HasValidators(cv: CustomValidation): (b: bool)
    ensures !b <==> cv == NoValidators
  {
    |cv.syncValidators| > 0 || |cv.asyncValidators| > 0 || |cv.contextValidators| > 0 || |cv.rules| > 0
  }

  // ---- What the runners report: the reference lists ----

  /** The message of one validator that fails on the value, or none. */
  function ValidatorFailure(f: Validator, v: Value): (ms: seq<Msg>)
    ensures |ms| <= 1
  {
    if f(v).Some? then [Raw(f(v).value)] else []
  }

  /** One message per failing validator, in order. */
  function ValidatorFailures(vs: seq<Validator>, v: Value): (ms: seq<Msg>)
    ensures |ms| <= |vs|
  {
    if |vs| == 0 then [] else ValidatorFailure(vs[0], v) + ValidatorFailures(vs[1..], v)
  }

  /** The message of one rule that fails on the value, or none. */
  function RuleFailure(r: Rule, v: Value): (ms: seq<Msg>)
    ensures |ms| <= 1
  {
    var e := RuleError(r, v);
    if e.Some? then [RuleMessage(r, e.value)] else []
  }

  /** One message per failing rule, in order. */
  function RuleFailures(rs: seq<Rule>, v: Value): (ms: seq<Msg>)
    ensures |ms| <= |rs|
  {
    if |rs| == 0 then [] else RuleFailure(rs[0], v) + RuleFailures(rs[1..], v)
  }

  /** Everything ValidateSync reports: validator failures first, then rule failures. */
  function SyncFailures(cv: CustomValidation, v: Value): seq<Msg> {
    ValidatorFailures(cv.syncValidators, v) + RuleFailures(cv.rules, v)
  }

  lemma {:induction false} ValidatorFailuresNone(vs: seq<Validator>, v: Value)
    ensures ValidatorFailures(vs, v) == [] <==> forall i :: 0 <= i < |vs| ==> vs[i](v).None?
  {
    if |vs| > 0 {
      ValidatorFailuresNone(vs[1..], v);
      assert forall i :: 1 <= i < |vs| ==> vs[1..][i - 1] == vs[i];
    }
  }

  // ---- The runners ----

  /**
   * ValidateSync: every sync validator, then every rule, runs; each failure
   * appends one message to the field, in that order, and nothing else changes.
   */
  function ValidateSync(cv: CustomValidation, field: string, v: Value, errs: ErrorMap): (r: ErrorMap)
    ensures MessagesOf(r, field) == MessagesOf(errs, field) + ValidatorFailures(cv.syncValidators, v) + RuleFailures(cv.rules, v)
    ensures forall k :: k != field ==> (k in r <==> k in errs) && MessagesOf(r, k) == MessagesOf(errs, k)
    ensures |MessagesOf(r, field)| <= |MessagesOf(errs, field)| + |cv.syncValidators| + |cv.rules|
    ensures WellFormed(errs) ==> WellFormed(r)
  {
    AddErrors(errs, field, SyncFailures(cv, v))
  }

  /** A rule failure reports the rule's message, or the error text when the message is empty. */
  lemma {:induction false} RuleFailuresNone(rs: seq<Rule>, v: Value)
    ensures RuleFailures(rs, v) == [] <==> forall i :: 0 <= i < |rs| ==> RuleError(rs[i], v).None?
  {
    if |rs| > 0 {
      RuleFailuresNone(rs[1..], v);
      assert forall i :: 1 <= i < |rs| ==> rs[1..][i - 1] == rs[i];
    }
  }

  /** ValidateSync leaves the map as it is exactly when every validator and every rule passes. */
  lemma SyncPassesIff(cv: CustomValidation, field: string, v: Value, errs: ErrorMap)
    requires WellFormed(errs)
    ensures ValidateSync(cv, field, v, errs) == errs <==>
      (forall i :: 0 <= i < |cv.syncValidators| ==> cv.syncValidators[i](v).None?)
      && (forall i :: 0 <= i < |cv.rules| ==> RuleError(cv.rules[i], v).None?)
  {
    ValidatorFailuresNone(cv.syncValidators, v);
    RuleFailuresNone(cv.rules, v);
    var r := ValidateSync(cv, field, v, errs);
    if SyncFailures(cv, v) != [] {
      assert |MessagesOf(r, field)| > |MessagesOf(errs, field)|;
    }
  }

  /** Without validators ValidateSync changes nothing, so the fields' HasValidators guard is redundant. */
  lemma NoValidatorsNoChange(cv: CustomValidation, field: string, v: Value, errs: ErrorMap)
    requires !HasValidators(cv)
    ensures ValidateSync(cv, field, v, errs) == errs
  {
    assert SyncFailures(cv, v) == [];
  }

  /** The first failing async validator's error, if any. */
  function FirstFailure(vs: seq<Validator>, v: Value): (e: Option<string>)
    ensures e.None? <==> forall i :: 0 <= i < |vs| ==> vs[i](v).None?
    ensures e.Some? ==> exists i :: 0 <= i < |vs| && vs[i](v) == e && forall j :: 0 <= j < i ==> vs[j](v).None?
  {
    if |vs| == 0 then None
    else if vs[0](v).Some? then vs[0](v)
    else
      var e := FirstFailure(vs[1..], v);
      assert forall i :: 1 <= i < |vs| ==> vs[1..][i - 1] == vs[i];
      if e.Some? then
        var i :| 0 <= i < |vs[1..]| && vs[1..][i](v) == e && forall j :: 0 <= j < i ==> vs[1..][j](v).None?;
        assert vs[i + 1](v) == e;
        e
      else e
  }

  /**
   * ValidateAsync: validators run in order until the first failure, whose
   * message alone is recorded and whose error is returned. The context and its
   * cancellation are not modelled.
   */
  function {:induction false} ValidateAsync(cv: CustomValidation, field: string, v: Value, errs: ErrorMap)
    : (r: (ErrorMap, Option<string>))
    ensures r.1 == FirstFailure(cv.asyncValidators, v)
    ensures r.1.None? ==> r.0 == errs
    ensures r.1.Some? ==> r.0 == AddError(errs, field, Raw(r.1.value))
  {
    var e := FirstFailure(cv.asyncValidators, v);
    if e.Some? then (AddError(errs, field, Raw(e.value)), e) else (errs, None)
  }

  /** Validators after the first failure never influence ValidateAsync. */
  lemma {:induction false} AsyncStopsAtFirst(vs: seq<Validator>, more: seq<Validator>, v: Value)
    requires FirstFailure(vs, v).Some?
    ensures FirstFailure(vs + more, v) == FirstFailure(vs, v)
    decreases |vs|
  {
    if vs[0](v).None? {
      assert (vs + more)[1..] == vs[1..] + more;
      AsyncStopsAtFirst(vs[1..], more, v);
    }
  }

  /** The failures of the context validators, in order. */
  function ContextFailures(vs: seq<ContextValidator>, v: Value, data: map<string, Value>): (ms: seq<Msg>)
    ensures |ms| <= |vs|
    ensures ms == [] <==> forall j :: 0 <= j < |vs| ==> vs[j](v, data).None?
  {
    if |vs| == 0 then []
    else (if vs[0](v, data).Some? then [Raw(vs[0](v, data).value)] else []) + ContextFailures(vs[1..], v, data)
  }

  /** ValidateContext: every context validator runs; each failure appends its message. */
  function ValidateContext(cv: CustomValidation, field: string, v: Value, data: map<string, Value>, errs: ErrorMap)
    : (r: ErrorMap)
    ensures MessagesOf(r, field) == MessagesOf(errs, field) + ContextFailures(cv.contextValidators, v, data)
    ensures forall k :: k != field ==> (k in r <==> k in errs) && MessagesOf(r, k) == MessagesOf(errs, k)
  {
    AddErrors(errs, field, ContextFailures(cv.contextValidators, v, data))
  }

  // ---- The typed wrappers the field builders install with AddSync ----

  /** StringType.Custom: strings reach the user function; anything else, nil included, is an error. */
  function StringCustom(fn: string -> Option<string>): (f: Validator)
    ensures forall s :: f(Str(s)) == fn(s)
    ensures forall v: Value :: !v.Str? ==> f(v) == Some("value must be string")
  {
    (v: Value) => if v.Str? then fn(v.s) else Some("value must be string")
  }

  /** The Custom of the UUID, IBAN and card types: like StringCustom, but nil passes. */
  function NilOrStringCustom(fn: string -> Option<string>): (f: Validator)
    ensures f(Null) == None
    ensures forall s :: f(Str(s)) == fn(s)
    ensures forall v: Value :: !v.Str? && !v.Null? ==> f(v) == Some("value must be string")
  {
    (v: Value) => if v.Null? then None else if v.Str? then fn(v.s) else Some("value must be string")
  }

  /** NumberType.Custom: nil passes, signed integers and floats reach the user function as reals, anything else fails. */
  function NumberCustom(fn: real -> Option<string>): (f: Validator)
    ensures f(Null) == None
    ensures forall i, t :: !IsUnsigned(t) ==> f(Int(i, t)) == fn(i as real)
    ensures forall x, t :: f(Flt(x, t)) == fn(x)
    ensures forall v: Value :: !v.Null? && !IsNumber(v) ==> f(v) == Some("value must be number")
  {
    (v: Value) => match v
      case Null => None
      case Int(i, t) => if IsUnsigned(t) then Some("value must be number") else fn(i as real)
      case Flt(x, _) => fn(x)
      case _ => Some("value must be number")
  }

  /** BooleanType.Custom. */
  function BoolCustom(fn: bool -> Option<string>): (f: Validator)
    ensures f(Null) == None
    ensures forall b :: f(Bool(b)) == fn(b)
    ensures forall v: Value :: !v.Null? && !v.Bool? ==> f(v) == Some("value must be boolean")
  {
    (v: Value) => if v.Null? then None else if v.Bool? then fn(v.b) else Some("value must be boolean")
  }

  /** DateType.Custom: nil passes, a time reaches the user function whole, anything else fails. */
  function DateCustom(fn: (int, Clock) -> Option<string>): (f: Validator)
    ensures f(Null) == None
    ensures forall t, c :: f(Time(t, c)) == fn(t, c)
    ensures forall v: Value :: !v.Null? && !v.Time? ==> f(v) == Some("value must be time.Time")
  {
    (v: Value) => if v.Null? then None else if v.Time? then fn(v.t, v.clock) else Some("value must be time.Time")
  }

  /** ArrayType.Custom. */
  function ArrayCustom(fn: seq<Value> -> Option<string>): (f: Validator)
    ensures f(Null) == None
    ensures forall items :: f(List(items)) == fn(items)
    ensures forall v: Value :: !v.Null? && !v.List? ==> f(v) == Some("value must be array")
  {
    (v: Value) => if v.Null? then None else if v.List? then fn(v.items) else Some("value must be array")
  }

  /** ObjectType.Custom. */
  function ObjectCustom(fn: map<string, Value> -> Option<string>): (f: Validator)
    ensures f(Null) == None
    ensures forall m :: f(Obj(m)) == fn(m)
    ensures forall v: Value :: !v.Null? && !v.Obj? ==> f(v) == Some("value must be object (map[string]any)")
  {
    (v: Value) => if v.Null? then None else if v.Obj? then fn(v.fields) else Some("value must be object (map[string]any)")
  }
}

=== FILE: domain_rules.dfy ===
/**
 * The Turkish-letter and domain-name predicates of rules/advanced_string.go.
 */
module Domains {
  import opened Text

  /** The twelve Turkish letters çÇğĞıİöÖşŞüÜ. */
  predicate IsTurkishLetter(c: char) {
    c == '\U{00E7}' || c == '\U{00C7}' || c == '\U{011F}' || c == '\U{011E}'
    || c == '\U{0131}' || c == '\U{0130}' || c == '\U{00F6}' || c == '\U{00D6}'
    || c == '\U{015F}' || c == '\U{015E}' || c == '\U{00FC}' || c == '\U{00DC}'
  }

  /** HasTurkishChars: the text holds at least one Turkish letter. */
  function HasTurkishChars(text: string): (b: bool)
    ensures b <==> exists i :: 0 <= i < |text| && IsTurkishLetter(text[i])
    ensures AllAscii(text) ==> !b
  {
    if |text| == 0 then false
    else if IsTurkishLetter(text[0]) then true
    else
      var rest := HasTurkishChars(text[1..]);
      assert forall i :: 1 <= i < |text| ==> text[i] == text[1..][i - 1];
      rest
  }

  /** `[a-zA-Z0-9]([a-zA-Z0-9-]*[a-zA-Z0-9])?`: alphanumeric ends, hyphens only inside. */
  predicate IsLabel(s: string) {
    && |s| >= 1 && IsAlnum(s[0]) && IsAlnum(s[|s| - 1])
    && forall i :: 0 <= i < |s| ==> IsAlnum(s[i]) || s[i] == '-'
  }

  /** `[a-zA-Z]{2,}`. */
  predicate IsTld(s: string) {
    |s| >= 2 && forall i :: 0 <= i < |s| ==> IsLetter(s[i])
  }

  /** Labels followed by a top-level domain. */
  predicate LabelsThenTld(parts: seq<string>) {
    |parts| >= 2 && IsTld(parts[|parts| - 1]) && forall k :: 0 <= k < |parts| - 1 ==> IsLabel(parts[k])
  }

  /**
   * IsValidDomain. Neither a label nor the TLD can hold '.', so the anchored
   * patterns match exactly when the dot-separated parts are labels and a TLD:
   * any number of labels with subdomains allowed, exactly one without.
   */
  function IsValidDomain(domain: string, allowSubdomain: bool): (ok: bool)
    ensures ok ==> LabelsThenTld(SplitOn(domain, '.'))
    ensures !allowSubdomain && ok ==> |SplitOn(domain, '.')| == 2
  {
    var parts := SplitOn(domain, '.');
    LabelsThenTld(parts) && (allowSubdomain || |parts| == 2)
  }

  /** Anything accepted without subdomains is accepted with them. */
  lemma NoSubdomainImpliesSubdomain(domain: string)
    requires IsValidDomain(domain, false)
    ensures IsValidDomain(domain, true)
  {}

  lemma NoDot(s: string)
    requires IsLabel(s) || IsTld(s)
    ensures '.' !in s
  {}

  /** Labels and a TLD joined with dots form an accepted domain; one label suffices without subdomains. */
  lemma JoinedLabelsAreDomain(labels: seq<string>, tld: string)
    requires |labels| >= 1 && IsTld(tld)
    requires forall k :: 0 <= k < |labels| ==> IsLabel(labels[k])
    ensures IsValidDomain(JoinOn(labels + [tld], '.'), true)
    ensures |labels| == 1 ==> IsValidDomain(JoinOn(labels + [tld], '.'), false)
  {
    var parts := labels + [tld];
    forall k | 0 <= k < |parts| ensures '.' !in parts[k] {
      NoDot(parts[k]);
    }
    assert SplitOn(JoinOn(parts, '.'), '.') == parts by {
      SplitJoin(parts, '.');
    }
    assert parts[..|parts| - 1] == labels;
  }

  /** Every accepted domain is its parts joined with dots. */
  lemma DomainIsJoinedLabels(domain: string, allowSubdomain: bool)
    requires IsValidDomain(domain, allowSubdomain)
    ensures JoinOn(SplitOn(domain, '.'), '.') == domain
  {
    JoinSplit(domain, '.');
  }

  /** Examples of the rule: a label may start with a digit, a hyphen may not start or end it. */
  lemma DomainExamples()
    ensures IsLabel("1example") && IsLabel("my-site")
    ensures !IsLabel("-site") && !IsLabel("site-") && !IsLabel("")
    ensures !IsTld("c") && IsTld("com")
  {}
}

=== FILE: evaluation.dfy ===
/**
 * One field's Transform and Validate (core/base_type.go and types/). Dates,
 * arrays and objects have a transform of their own; every field type
 * validates in the same order: the required check, the gate on errors
 * already in the shared result, nil, the kind check and the type's own
 * checks. Arrays and objects recurse into their elements and children under
 * derived keys. The shared `*ValidationResult` is threaded as an `ErrorMap`.
 */
module Evaluation {
  import opened Wrappers
  import opened Text
  import opened Values
  import opened Messages
  import opened Results
  import opened Custom
  import opened Reports
  import opened Fields
  import StringChecks
  import ValueChecks

  // ---------------------------------------------------------------------------
  // Transform
  // ---------------------------------------------------------------------------

  const ObjectKindError: string := "nesne (object) tipinde olmal\U{0131}d\U{0131}r"
  const ArrayKindError: string := "dizi (array) tipinde olmal\U{0131}d\U{0131}r"

  /** `alan '<name>': <err>`, the wrapping of a child's transform error. */
  function ChildError(name: string, err: string): string {
    "alan '" + name + "': " + err
  }

  /** `dizi index <i>: <err>`, the wrapping of an element's transform error. */
  function ElementError(i: nat, err: string): string {
    "dizi index " + NatToString(i) + ": " + err
  }

  /**
   * Type.Transform. Every type starts with the base transform and returns nil
   * for nil; a date parses strings, an array transforms its elements when it
   * has an element schema, an object transforms its declared children and
   * keeps the undeclared input keys; every other type is the base transform.
   */
  function Transform(f: Field, v: Value, env: Env): (r: Result<Value>)
    ensures BaseTransform(f.base, v).Failure? ==> r == BaseTransform(f.base, v)
    ensures BaseTransform(f.base, v) == Success(Null) ==> r == Success(Null)
    decreases f, 2
  {
    match f
    case DateField(b, d, _) => ValueChecks.DateTransform(b, d, v, env)
    case ArrayField(b, _, elements, _) =>
      (match BaseTransform(b, v)
       case Failure(e) => Failure(e)
       case Success(w) =>
         if w.Null? then Success(Null)
         else if !w.List? then Failure(ArrayKindError)
         else if elements.None? then Success(w)
         else
           match TransformElements(f, w.items, 0, env)
           case Failure(e) => Failure(e)
           case Success(items) => Success(List(items)))
    case ObjectField(b, _, _) =>
      (match BaseTransform(b, v)
       case Failure(e) => Failure(e)
       case Success(w) =>
         if w.Null? then Success(Null)
         else if !w.Obj? then Failure(ObjectKindError)
         else
           match TransformChildren(f, w.fields, 0, env)
           case Failure(e) => Failure(e)
           case Success(children) => Success(Obj(w.fields + children)))
    case _ => BaseTransform(f.base, v)
  }

  /**
   * The element loop of ArrayType.Transform from index `i` on: each element
   * through the element schema, in order; the first failure ends the loop
   * and names its index.
   */
  function TransformElements(parent: Field, items: seq<Value>, i: nat, env: Env): (r: Result<seq<Value>>)
    requires parent.ArrayField? && parent.elements.Some? && i <= |items|
    ensures r.Success? ==> |r.value| == |items| - i
    decreases parent, 1, |items| - i
  {
    if i == |items| then Success([])
    else
      match Transform(parent.elements.value, items[i], env)
      case Failure(e) => Failure(ElementError(i, e))
      case Success(x) =>
        match TransformElements(parent, items, i + 1, env)
        case Failure(e) => Failure(e)
        case Success(rest) => Success([x] + rest)
  }

  /** The elements transform exactly when each from `i` on does. */
  lemma {:induction false} ElementsSucceed(parent: Field, items: seq<Value>, i: nat, env: Env)
    requires parent.ArrayField? && parent.elements.Some? && i <= |items|
    ensures TransformElements(parent, items, i, env).Success? <==>
      forall j :: i <= j < |items| ==> Transform(parent.elements.value, items[j], env).Success?
    decreases |items| - i
  {
    if i < |items| {
      ElementsSucceed(parent, items, i + 1, env);
    }
  }

  /** Transformed elements keep their order: the one at `j - i` is element `j` transformed. */
  lemma {:induction false} ElementsValues(parent: Field, items: seq<Value>, i: nat, env: Env, j: nat)
    requires parent.ArrayField? && parent.elements.Some? && i <= j < |items|
    requires TransformElements(parent, items, i, env).Success?
    ensures Success(TransformElements(parent, items, i, env).value[j - i]) == Transform(parent.elements.value, items[j], env)
    decreases |items| - i
  {
    if j > i {
      ElementsValues(parent, items, i + 1, env, j);
    }
  }

  /** Element `j` is the first from `i` on to fail, and the elements' error names its index. */
  predicate FirstElementFailure(parent: Field, items: seq<Value>, i: nat, env: Env, j: nat)
    requires parent.ArrayField? && parent.elements.Some? && i <= j < |items|
  {
    && Transform(parent.elements.value, items[j], env).Failure?
    && (forall k :: i <= k < j ==> Transform(parent.elements.value, items[k], env).Success?)
    && TransformElements(parent, items, i, env).Failure?
    && TransformElements(parent, items, i, env).error == ElementError(j, Transform(parent.elements.value, items[j], env).error)
  }

  /** A failure names the first element from `i` on whose transform fails. */
  lemma {:induction false} ElementsFailure(parent: Field, items: seq<Value>, i: nat, env: Env)
    requires parent.ArrayField? && parent.elements.Some? && i <= |items| && TransformElements(parent, items, i, env).Failure?
    ensures exists j :: i <= j < |items| && FirstElementFailure(parent, items, i, env, j)
    decreases |items| - i
  {
    if Transform(parent.elements.value, items[i], env).Failure? {
      assert FirstElementFailure(parent, items, i, env, i);
    } else {
      ElementsFailure(parent, items, i + 1, env);
      var j :| i + 1 <= j < |items| && FirstElementFailure(parent, items, i + 1, env, j);
      assert FirstElementFailure(parent, items, i, env, j);
    }
  }

  /** The names of the shape's entries from index `i` on. */
  function NamesFrom(shape: seq<Entry>, i: nat): set<string>
    decreases |shape| - i
  {
    if i >= |shape| then {} else {shape[i].name} + NamesFrom(shape, i + 1)
  }

  /** Some entry of the shape from index `i` on is named `k`. */
  predicate DeclaredFrom(shape: seq<Entry>, i: nat, k: string) {
    exists j :: i <= j < |shape| && shape[j].name == k
  }

  /**
   * The shape loop of ObjectType.Transform from entry `i` on: each declared
   * child, read from the input (a missing key is nil), through its schema;
   * the first failure ends the loop and names the child.
   */
  function TransformChildren(parent: Field, data: map<string, Value>, i: nat, env: Env): (r: Result<map<string, Value>>)
    requires parent.ObjectField? && i <= |parent.shape|
    ensures r.Success? ==> r.value.Keys <= NamesFrom(parent.shape, i)
    decreases parent, 1, |parent.shape| - i
  {
    if i == |parent.shape| then Success(map[])
    else
      var entry := parent.shape[i];
      match Transform(entry.field, Lookup(data, entry.name), env)
      case Failure(e) => Failure(ChildError(entry.name, e))
      case Success(x) =>
        match TransformChildren(parent, data, i + 1, env)
        case Failure(e) => Failure(e)
        case Success(rest) => Success(map[entry.name := x] + rest)
  }

  /** Declared child `j` transforms: its value in `data`, nil when missing, passes its schema's transform. */
  predicate ChildTransforms(parent: Field, data: map<string, Value>, j: int, env: Env)
    requires parent.ObjectField? && 0 <= j < |parent.shape|
  {
    Transform(parent.shape[j].field, Lookup(data, parent.shape[j].name), env).Success?
  }

  /** The children transform exactly when every declared child from `i` on does. */
  lemma {:induction false} ChildrenSucceed(parent: Field, data: map<string, Value>, i: nat, env: Env)
    requires parent.ObjectField? && i <= |parent.shape|
    ensures TransformChildren(parent, data, i, env).Success? <==>
      forall j :: i <= j < |parent.shape| ==> ChildTransforms(parent, data, j, env)
    decreases |parent.shape| - i
  {
    if i < |parent.shape| {
      ChildrenSucceed(parent, data, i + 1, env);
      ChildrenStep(parent, data, i, env);
      if TransformChildren(parent, data, i, env).Success? {
        forall j | i <= j < |parent.shape| ensures ChildTransforms(parent, data, j, env) {
          if j > i {
            assert i + 1 <= j;
          }
        }
      } else if ChildTransforms(parent, data, i, env) {
        var j :| i + 1 <= j < |parent.shape| && !ChildTransforms(parent, data, j, env);
        assert i <= j;
      }
    }
  }

  /** One iteration of the children loop: it succeeds exactly when child `i` and the rest do. */
  lemma ChildrenStep(parent: Field, data: map<string, Value>, i: nat, env: Env)
    requires parent.ObjectField? && i < |parent.shape|
    ensures TransformChildren(parent, data, i, env).Success? <==>
      ChildTransforms(parent, data, i, env) && TransformChildren(parent, data, i + 1, env).Success?
  {
  }

  /** A failure names the first declared child from `i` on whose transform fails. */
  lemma {:induction false} ChildrenFailure(parent: Field, data: map<string, Value>, i: nat, env: Env)
    requires parent.ObjectField? && i <= |parent.shape| && TransformChildren(parent, data, i, env).Failure?
    ensures exists j :: i <= j < |parent.shape| && FirstChildFailure(parent, data, i, env, j)
    decreases |parent.shape| - i
  {
    if Transform(parent.shape[i].field, Lookup(data, parent.shape[i].name), env).Failure? {
      assert FirstChildFailure(parent, data, i, env, i);
    } else {
      ChildrenFailure(parent, data, i + 1, env);
      var j :| i + 1 <= j < |parent.shape| && FirstChildFailure(parent, data, i + 1, env, j);
      assert FirstChildFailure(parent, data, i, env, j);
    }
  }

  /** Child `j` is the first from `i` on to fail, and the children's error names it. */
  predicate FirstChildFailure(parent: Field, data: map<string, Value>, i: nat, env: Env, j: nat)
    requires parent.ObjectField? && i <= j < |parent.shape|
  {
    && Transform(parent.shape[j].field, Lookup(data, parent.shape[j].name), env).Failure?
    && (forall k :: i <= k < j ==> Transform(parent.shape[k].field, Lookup(data, parent.shape[k].name), env).Success?)
    && TransformChildren(parent, data, i, env).Failure?
    && TransformChildren(parent, data, i, env).error ==
       ChildError(parent.shape[j].name, Transform(parent.shape[j].field, Lookup(data, parent.shape[j].name), env).error)
  }

  /** The transformed children are keyed by exactly the names declared from `i` on. */
  lemma {:induction false} ChildrenKeys(parent: Field, data: map<string, Value>, i: nat, env: Env, k: string)
    requires parent.ObjectField? && i <= |parent.shape| && TransformChildren(parent, data, i, env).Success?
    ensures k in TransformChildren(parent, data, i, env).value <==> DeclaredFrom(parent.shape, i, k)
    decreases |parent.shape| - i
  {
    if i < |parent.shape| {
      ChildrenKeys(parent, data, i + 1, env, k);
      if DeclaredFrom(parent.shape, i, k) {
        var j :| i <= j < |parent.shape| && parent.shape[j].name == k;
        assert j == i || DeclaredFrom(parent.shape, i + 1, k);
      }
    }
  }

  /** With distinct names, each declared child holds its own transformed value. */
  lemma {:induction false} ChildrenValues(parent: Field, data: map<string, Value>, i: nat, env: Env, j: nat)
    requires parent.ObjectField? && i <= j < |parent.shape| && DistinctNames(parent.shape)
    requires TransformChildren(parent, data, i, env).Success?
    ensures parent.shape[j].name in TransformChildren(parent, data, i, env).value
    ensures Success(TransformChildren(parent, data, i, env).value[parent.shape[j].name]) ==
      Transform(parent.shape[j].field, Lookup(data, parent.shape[j].name), env)
    decreases |parent.shape| - i
  {
    var name := parent.shape[i].name;
    if j == i {
      ChildrenKeys(parent, data, i + 1, env, name);
    } else {
      ChildrenValues(parent, data, i + 1, env, j);
    }
  }

  // ---------------------------------------------------------------------------
  // Keys
  // ---------------------------------------------------------------------------

  /** `field[i]`, the key of an array element. */
  function ElementKey(field: string, i: nat): string {
    (field + "[") + (NatToString(i) + "]")
  }

  /** `parent.child`, the key of an object's child. */
  function ChildKey(field: string, name: string): string {
    (field + ".") + name
  }

  /** No key outside the subtree of keys that start with `prefix` changed between `a` and `b`. */
  ghost predicate SameOutside(a: ErrorMap, b: ErrorMap, prefix: string) {
    forall k :: !HasPrefix(k, prefix) ==> (k in a <==> k in b) && MessagesOf(a, k) == MessagesOf(b, k)
  }

  lemma PrefixOfLonger(k: string, p: string, x: string)
    requires HasPrefix(k, p + x)
    ensures HasPrefix(k, p)
  {
    assert k[..|p|] == k[..|p + x|][..|p|];
    assert (p + x)[..|p|] == p;
  }

  /** Changes confined to the keys under `p + x` are confined to the keys under `p`. */
  lemma SameOutsideWiden(a: ErrorMap, b: ErrorMap, p: string, x: string)
    requires SameOutside(a, b, p + x)
    ensures SameOutside(a, b, p)
  {
    forall k | !HasPrefix(k, p)
      ensures (k in a <==> k in b) && MessagesOf(a, k) == MessagesOf(b, k)
    {
      if HasPrefix(k, p + x) {
        PrefixOfLonger(k, p, x);
      }
    }
  }

  lemma SameOutsideTrans(a: ErrorMap, b: ErrorMap, c: ErrorMap, p: string)
    requires SameOutside(a, b, p) && SameOutside(b, c, p)
    ensures SameOutside(a, c, p)
  {}

  /** A change to the one key `field` is inside the subtree of `field`. */
  lemma OneKeyInside(a: ErrorMap, b: ErrorMap, field: string)
    requires forall k :: k != field ==> (k in a <==> k in b) && MessagesOf(a, k) == MessagesOf(b, k)
    ensures SameOutside(a, b, field)
  {
    assert HasPrefix(field, field) by {
      assert field[..|field|] == field;
    }
  }

  // ---------------------------------------------------------------------------
  // Validate
  // ---------------------------------------------------------------------------

  /** What the required check rejects: nil and the empty string, nothing else. */
  predicate IsMissing(v: Value) {
    v.Null? || v == Str("")
  }

  /** BaseType.Validate reports the field. */
  predicate RequiredFails(b: Base, v: Value) {
    b.required && IsMissing(v)
  }

  /** The kind of value a field's type accepts once past nil. */
  predicate AcceptsKind(f: Field, v: Value) {
    match f
    case NumberField(_, _, _) => IsNumber(v)
    case BooleanField(_, _) => v.Bool?
    case DateField(_, _, _) => v.Time?
    case ArrayField(_, _, _, _) => v.List?
    case ObjectField(_, _, _) => v.Obj?
    case _ => v.Str?
  }

  /** The type a field's kind check names when it fails: the string types share `KeyString`. */
  function KindOf(f: Field): TypeName {
    match f
    case NumberField(_, _, _) => NumberType
    case BooleanField(_, _) => BooleanType
    case DateField(_, _, _) => DateType
    case ArrayField(_, _, _, _) => ArrayType
    case ObjectField(_, _, _) => ObjectType
    case _ => StringType
  }

  /** StringType.Validate past the gate: nil passes, a non-string fails the kind check, a string runs the string checks. */
  function StringValueFailures(r: StringRules, custom: CustomValidation, v: Value, env: Env): (fs: seq<Failure>)
    ensures v.Null? ==> fs == []
    ensures !v.Null? && !v.Str? ==> fs == [WrongType(StringType)]
  {
    if v.Null? then []
    else if !v.Str? then [WrongType(StringType)]
    else StringChecks.StringFailures(r, custom, v.s, env)
  }

  /**
   * AdvancedStringType.Validate past the gate: the plain string validation,
   * then, only if it left the result error-free, the advanced checks.
   */
  function AdvancedValueFailures(r: StringRules, a: AdvancedRules, custom: CustomValidation, v: Value, env: Env): (fs: seq<Failure>)
    ensures v.Null? ==> fs == []
    ensures !v.Null? && !v.Str? ==> fs == [WrongType(StringType)]
  {
    var plain := StringValueFailures(r, custom, v, env);
    if plain == [] && v.Str? then StringChecks.AdvancedFailures(a, v.s, env) else plain
  }

  /** The advanced checks run only on a string the plain checks passed, and then report exactly their failures. */
  lemma AdvancedValueGated(r: StringRules, a: AdvancedRules, custom: CustomValidation, v: Value, env: Env)
    requires v.Str?
    ensures StringValueFailures(r, custom, v, env) != [] ==>
      AdvancedValueFailures(r, a, custom, v, env) == StringValueFailures(r, custom, v, env)
    ensures StringValueFailures(r, custom, v, env) == [] ==> forall f ::
      f in AdvancedValueFailures(r, a, custom, v, env) <==> f.Advanced? && StringChecks.AdvancedFails(a, v.s, env, f.advanced)
  {
    StringChecks.AdvancedFailuresExactly(a, v.s, env);
  }

  /**
   * What a field reports under its own key once past the required check and
   * the gate: the type's kind check, its checks and its custom validators.
   * An object's custom validators run after its children, which report under
   * their own keys.
   */
  function OwnFailures(f: Field, v: Value, env: Env): (fs: seq<Failure>)
    ensures v.Null? ==> fs == []
    ensures !v.Null? && !AcceptsKind(f, v) ==> fs == [WrongType(KindOf(f))]
    ensures f.ObjectField? && v.Obj? ==> fs == UserFailures(SyncFailures(f.custom, v))
  {
    match f
    case StringField(_, r, custom) => StringValueFailures(r, custom, v, env)
    case AdvancedStringField(_, r, a, custom) => AdvancedValueFailures(r, a, custom, v, env)
    case NumberField(_, n, custom) => ValueChecks.NumberFailures(n, custom, v, env)
    case BooleanField(_, custom) => ValueChecks.BooleanFailures(custom, v)
    case DateField(_, d, custom) => ValueChecks.DateFailures(d, custom, v, env)
    case ArrayField(_, a, _, custom) => ValueChecks.ArrayFailures(a, custom, v, env)
    case ObjectField(_, _, custom) =>
      if v.Null? then [] else if !v.Obj? then [WrongType(ObjectType)] else UserFailures(SyncFailures(custom, v))
    case UuidField(_, version, custom) => ValueChecks.UuidFailures(version, custom, v)
    case IbanField(_, country, custom) => ValueChecks.IbanFailures(country, custom, v)
    case CardField(_, cardType, custom) => ValueChecks.CardFailures(cardType, custom, v)
  }

  /**
   * The checks a field runs on its own value once past the required check
   * and the gate. Validate is written for any such checks; `OwnChecks`
   * gives the ones of types/.
   */
  type Checks = (Field, Value) -> seq<Failure>

  function OwnChecks(env: Env): (checks: Checks)
    ensures forall f, v :: checks(f, v) == OwnFailures(f, v, env)
  {
    (f: Field, v: Value) => OwnFailures(f, v, env)
  }

  /**
   * Type.Validate. Errors are only ever appended, and only under `field` and
   * the keys below it.
   */
  function Validate(f: Field, field: string, v: Value, errs: ErrorMap, checks: Checks): (r: ErrorMap)
    ensures Extends(errs, r)
    ensures WellFormed(errs) ==> WellFormed(r)
    ensures SameOutside(errs, r, field)
    decreases f, 2
  {
    var name := GetLabel(f.base, field);
    if RequiredFails(f.base, v) then
      var r := Report(errs, field, [MissingRequired], name);
      OneKeyInside(errs, r, field);
      r
    else if HasErrors(errs) || v.Null? then errs
    else
      var own := Report(errs, field, checks(f, v), name);
      OneKeyInside(errs, own, field);
      if f.ArrayField? && f.elements.Some? && v.List? then
        var r := ValidateElements(f, field, v.items, 0, own, checks);
        SameOutsideWiden(own, r, field, "[");
        ExtendsTrans(errs, own, r);
        r
      else if f.ObjectField? && v.Obj? then
        var children := ValidateChildren(f, field, v.fields, 0, errs, checks);
        SameOutsideWiden(errs, children, field, ".");
        var r := Report(children, field, checks(f, v), name);
        OneKeyInside(children, r, field);
        ExtendsTrans(errs, children, r);
        r
      else own
  }

  /** The element loop of ArrayType.Validate from index `i` on: element `i` under `field[i]`, in index order. */
  function ValidateElements(parent: Field, field: string, items: seq<Value>, i: nat, errs: ErrorMap, checks: Checks): (r: ErrorMap)
    requires parent.ArrayField? && parent.elements.Some? && i <= |items|
    ensures Extends(errs, r)
    ensures WellFormed(errs) ==> WellFormed(r)
    ensures SameOutside(errs, r, field + "[")
    decreases parent, 1, |items| - i
  {
    if i == |items| then
      ExtendsRefl(errs);
      errs
    else
      var e1 := Validate(parent.elements.value, ElementKey(field, i), items[i], errs, checks);
      SameOutsideWiden(errs, e1, field + "[", NatToString(i) + "]");
      var r := ValidateElements(parent, field, items, i + 1, e1, checks);
      ExtendsTrans(errs, e1, r);
      r
  }

  /** The shape loop of ObjectType.Validate from entry `i` on: each declared child under `parent.child`. */
  function ValidateChildren(parent: Field, field: string, data: map<string, Value>, i: nat, errs: ErrorMap, checks: Checks): (r: ErrorMap)
    requires parent.ObjectField? && i <= |parent.shape|
    ensures Extends(errs, r)
    ensures WellFormed(errs) ==> WellFormed(r)
    ensures SameOutside(errs, r, field + ".")
    decreases parent, 1, |parent.shape| - i
  {
    if i == |parent.shape| then
      ExtendsRefl(errs);
      errs
    else
      var entry := parent.shape[i];
      var e1 := Validate(entry.field, ChildKey(field, entry.name), Lookup(data, entry.name), errs, checks);
      SameOutsideWiden(errs, e1, field + ".", entry.name);
      var r := ValidateChildren(parent, field, data, i + 1, e1, checks);
      ExtendsTrans(errs, e1, r);
      r
  }

  // ---------------------------------------------------------------------------
  // What Validate reports
  // ---------------------------------------------------------------------------

  /**
   * Whether validating `v` against `f` on an error-free result reports
   * anything: the required check, the field's own checks, or, below a value
   * of the right kind, some element or some declared child. The key the
   * field is validated under plays no part.
   */
  predicate FieldFails(f: Field, v: Value, checks: Checks)
    decreases f, 2
  {
    || RequiredFails(f.base, v)
    || (!v.Null? && checks(f, v) != [])
    || (f.ArrayField? && f.elements.Some? && v.List? && ElementFailsFrom(f, v.items, 0, checks))
    || (f.ObjectField? && v.Obj? && ChildFailsFrom(f, v.fields, 0, checks))
  }

  /** Some element from index `i` on fails against the element schema. */
  predicate ElementFailsFrom(parent: Field, items: seq<Value>, i: nat, checks: Checks)
    requires parent.ArrayField? && parent.elements.Some?
    decreases parent, 1, |items| - i
  {
    i < |items| && (FieldFails(parent.elements.value, items[i], checks) || ElementFailsFrom(parent, items, i + 1, checks))
  }

  /** Some declared child from entry `i` on fails, read from `data` as Validate reads it. */
  predicate ChildFailsFrom(parent: Field, data: map<string, Value>, i: nat, checks: Checks)
    requires parent.ObjectField?
    decreases parent, 1, |parent.shape| - i
  {
    i < |parent.shape| &&
    (FieldFails(parent.shape[i].field, Lookup(data, parent.shape[i].name), checks) || ChildFailsFrom(parent, data, i + 1, checks))
  }

  lemma {:induction false} ElementFailsFromSome(parent: Field, items: seq<Value>, i: nat, checks: Checks)
    requires parent.ArrayField? && parent.elements.Some? && i <= |items|
    ensures ElementFailsFrom(parent, items, i, checks) <==>
      exists j :: i <= j < |items| && FieldFails(parent.elements.value, items[j], checks)
    decreases |items| - i
  {
    if i < |items| {
      ElementFailsFromSome(parent, items, i + 1, checks);
      if exists j :: i <= j < |items| && FieldFails(parent.elements.value, items[j], checks) {
        var j :| i <= j < |items| && FieldFails(parent.elements.value, items[j], checks);
        assert j == i || i + 1 <= j;
      }
    }
  }

  lemma {:induction false} ChildFailsFromSome(parent: Field, data: map<string, Value>, i: nat, checks: Checks)
    requires parent.ObjectField? && i <= |parent.shape|
    ensures ChildFailsFrom(parent, data, i, checks) <==>
      exists j :: i <= j < |parent.shape| && FieldFails(parent.shape[j].field, Lookup(data, parent.shape[j].name), checks)
    decreases |parent.shape| - i
  {
    var shape := parent.shape;
    if i < |shape| {
      ChildFailsFromSome(parent, data, i + 1, checks);
      if exists j :: i <= j < |shape| && FieldFails(shape[j].field, Lookup(data, shape[j].name), checks) {
        var j :| i <= j < |shape| && FieldFails(shape[j].field, Lookup(data, shape[j].name), checks);
        assert j == i || i + 1 <= j;
      }
    }
  }

  /**
   * The verdict of Validate: the result has errors exactly when it had some
   * already or the field fails on its own. Under the gate, only the first
   * failing element or child reports (beyond required checks), so the order
   * of a Go map's iteration decides which one, but not whether one does.
   */
  lemma {:induction false} ValidateVerdict(f: Field, field: string, v: Value, errs: ErrorMap, checks: Checks)
    ensures HasErrors(Validate(f, field, v, errs, checks)) <==> HasErrors(errs) || FieldFails(f, v, checks)
    decreases f, 2
  {
    if RequiredFails(f.base, v) || HasErrors(errs) || v.Null? {
    } else {
      var own := Report(errs, field, checks(f, v), GetLabel(f.base, field));
      if f.ArrayField? && f.elements.Some? && v.List? {
        ElementsVerdict(f, field, v.items, 0, own, checks);
      } else if f.ObjectField? && v.Obj? {
        ChildrenVerdict(f, field, v.fields, 0, errs, checks);
      }
    }
  }

  lemma {:induction false} ElementsVerdict(parent: Field, field: string, items: seq<Value>, i: nat, errs: ErrorMap, checks: Checks)
    requires parent.ArrayField? && parent.elements.Some? && i <= |items|
    ensures HasErrors(ValidateElements(parent, field, items, i, errs, checks)) <==>
      HasErrors(errs) || ElementFailsFrom(parent, items, i, checks)
    decreases parent, 1, |items| - i
  {
    if i < |items| {
      var g := parent.elements.value;
      var e1 := Validate(g, ElementKey(field, i), items[i], errs, checks);
      ValidateVerdict(g, ElementKey(field, i), items[i], errs, checks);
      ElementsVerdict(parent, field, items, i + 1, e1, checks);
    }
  }

  lemma {:induction false} ChildrenVerdict(parent: Field, field: string, data: map<string, Value>, i: nat, errs: ErrorMap, checks: Checks)
    requires parent.ObjectField? && i <= |parent.shape|
    ensures HasErrors(ValidateChildren(parent, field, data, i, errs, checks)) <==>
      HasErrors(errs) || ChildFailsFrom(parent, data, i, checks)
    decreases parent, 1, |parent.shape| - i
  {
    if i < |parent.shape| {
      var entry := parent.shape[i];
      var key := ChildKey(field, entry.name);
      var child := Lookup(data, entry.name);
      var e1 := ChildStep(parent, field, data, i, errs, checks);
      ValidateVerdict(entry.field, key, child, errs, checks);
      ChildrenVerdict(parent, field, data, i + 1, e1, checks);
    }
  }

  /** One step of the shape loop, and of ChildFailsFrom, at entry `i`. */
  lemma ChildStep(parent: Field, field: string, data: map<string, Value>, i: nat, errs: ErrorMap, checks: Checks)
    returns (e1: ErrorMap)
    requires parent.ObjectField? && i < |parent.shape|
    ensures e1 == Validate(parent.shape[i].field, ChildKey(field, parent.shape[i].name), Lookup(data, parent.shape[i].name), errs, checks)
    ensures ValidateChildren(parent, field, data, i, errs, checks) == ValidateChildren(parent, field, data, i + 1, e1, checks)
    ensures ChildFailsFrom(parent, data, i, checks) <==>
      FieldFails(parent.shape[i].field, Lookup(data, parent.shape[i].name), checks) || ChildFailsFrom(parent, data, i + 1, checks)
  {
    var entry := parent.shape[i];
    e1 := Validate(entry.field, ChildKey(field, entry.name), Lookup(data, entry.name), errs, checks);
  }

  /**
   * On an error-free result, the field's own key ends up holding exactly its
   * own failures, in order: elements and children report under longer keys.
   */
  lemma OwnKeyHoldsOwnFailures(f: Field, field: string, v: Value, errs: ErrorMap, checks: Checks)
    requires !HasErrors(errs) && !RequiredFails(f.base, v) && !v.Null?
    ensures MessagesOf(Validate(f, field, v, errs, checks), field) == RecordAll(checks(f, v), GetLabel(f.base, field))
  {
    var name := GetLabel(f.base, field);
    var own := Report(errs, field, checks(f, v), name);
    assert MessagesOf(errs, field) == [];
    if f.ArrayField? && f.elements.Some? && v.List? {
      var r := ValidateElements(f, field, v.items, 0, own, checks);
      assert !HasPrefix(field, field + "[");
    } else if f.ObjectField? && v.Obj? {
      var children := ValidateChildren(f, field, v.fields, 0, errs, checks);
      assert !HasPrefix(field, field + ".");
    }
  }

  /** A check's failure is reported under the field's key exactly when the field's own checks find it. */
  lemma OwnKeyReports(f: Field, field: string, v: Value, errs: ErrorMap, checks: Checks, x: Failure)
    requires !HasErrors(errs) && !RequiredFails(f.base, v) && !v.Null?
    requires !x.UserFailure?
    requires forall g :: g in checks(f, v) && g.UserFailure? ==> !g.msg.Failed?
    ensures Failed(x, GetLabel(f.base, field)) in MessagesOf(Validate(f, field, v, errs, checks), field) <==> x in checks(f, v)
  {
    OwnKeyHoldsOwnFailures(f, field, v, errs, checks);
    RecordedFailure(checks(f, v), GetLabel(f.base, field), x);
  }

  /** A missing required field reports one message under its key, whatever the result held, and nothing else. */
  lemma RequiredReportsOnce(f: Field, field: string, v: Value, errs: ErrorMap, checks: Checks)
    requires RequiredFails(f.base, v)
    ensures MessagesOf(Validate(f, field, v, errs, checks), field) == MessagesOf(errs, field) + [Failed(MissingRequired, GetLabel(f.base, field))]
    ensures forall k :: k != field ==> MessagesOf(Validate(f, field, v, errs, checks), k) == MessagesOf(errs, k)
  {
  }

  /** Past the required check, a result that already has errors, or a nil value, leaves the result as it is. */
  lemma GateKeepsResult(f: Field, field: string, v: Value, errs: ErrorMap, checks: Checks)
    requires !RequiredFails(f.base, v)
    requires HasErrors(errs) || v.Null?
    ensures Validate(f, field, v, errs, checks) == errs
  {
  }

  /** The required check rejects only nil and "": zero, false, an empty list and white space are present. */
  lemma RequiredOnlyNilOrEmpty(b: Base)
    requires b.required
    ensures RequiredFails(b, Null) && RequiredFails(b, Str(""))
    ensures !RequiredFails(b, Int(0, GoInt)) && !RequiredFails(b, Flt(0.0, GoFloat64)) && !RequiredFails(b, Bool(false))
    ensures !RequiredFails(b, List([])) && !RequiredFails(b, Str(" "))
  {
  }

  /**
   * An advanced string runs its advanced checks only when the plain string
   * checks report nothing; then it reports exactly the advanced checks that fail.
   */
  lemma AdvancedNeedsCleanString(r: StringRules, a: AdvancedRules, custom: CustomValidation, s: string, env: Env, x: AdvancedIssue)
    ensures Advanced(x) in AdvancedValueFailures(r, a, custom, Str(s), env) <==>
      StringChecks.StringFailures(r, custom, s, env) == [] && StringChecks.AdvancedFails(a, s, env, x)
  {
    StringChecks.StringReachesOther(r, custom, s, env, Advanced(x));
    StringChecks.AdvancedFailuresExactly(a, s, env);
  }

  // ---------------------------------------------------------------------------
  // What Transform produces
  // ---------------------------------------------------------------------------

  /**
   * An object transforms when every declared child does; the result keeps
   * every input key, replaces each declared child with its transformed value
   * and adds the declared children the input lacks.
   */
  lemma ObjectTransformContents(f: Field, v: Value, env: Env, data: map<string, Value>)
    requires f.ObjectField? && BaseTransform(f.base, v) == Success(Obj(data))
    ensures Transform(f, v, env).Success? <==> forall j :: 0 <= j < |f.shape| ==> ChildTransforms(f, data, j, env)
    ensures Transform(f, v, env).Success? ==> Transform(f, v, env).value.Obj?
    ensures Transform(f, v, env).Success? ==> forall k ::
      k in Transform(f, v, env).value.fields <==> k in data || DeclaredFrom(f.shape, 0, k)
    ensures Transform(f, v, env).Success? ==> forall k :: k in data && !DeclaredFrom(f.shape, 0, k) ==>
      Transform(f, v, env).value.fields[k] == data[k]
    ensures Transform(f, v, env).Success? && DistinctNames(f.shape) ==> forall j :: 0 <= j < |f.shape| ==>
      f.shape[j].name in Transform(f, v, env).value.fields && ChildTransforms(f, data, j, env) &&
      Transform(f, v, env).value.fields[f.shape[j].name] == Transform(f.shape[j].field, Lookup(data, f.shape[j].name), env).value
  {
    var children := TransformChildren(f, data, 0, env);
    ObjectTransformUnfold(f, v, env, data);
    ChildrenSucceed(f, data, 0, env);
    if children.Success? {
      ChildrenContents(f, data, env);
      assert Transform(f, v, env).value.fields == data + children.value;
    }
  }

  /** An object whose base transform gives a map runs the child loop and lays its result over the map. */
  lemma ObjectTransformUnfold(f: Field, v: Value, env: Env, data: map<string, Value>)
    requires f.ObjectField? && BaseTransform(f.base, v) == Success(Obj(data))
    ensures TransformChildren(f, data, 0, env).Success? ==>
      Transform(f, v, env) == Success(Obj(data + TransformChildren(f, data, 0, env).value))
    ensures TransformChildren(f, data, 0, env).Failure? ==> Transform(f, v, env).Failure?
  {
  }

  /** The keys and values of a successful child loop over the whole shape. */
  lemma ChildrenContents(f: Field, data: map<string, Value>, env: Env)
    requires f.ObjectField? && TransformChildren(f, data, 0, env).Success?
    ensures forall k :: k in TransformChildren(f, data, 0, env).value <==> DeclaredFrom(f.shape, 0, k)
    ensures DistinctNames(f.shape) ==> forall j :: 0 <= j < |f.shape| ==>
      f.shape[j].name in TransformChildren(f, data, 0, env).value &&
      Success(TransformChildren(f, data, 0, env).value[f.shape[j].name]) ==
        Transform(f.shape[j].field, Lookup(data, f.shape[j].name), env)
  {
    var children := TransformChildren(f, data, 0, env);
    forall k ensures k in children.value <==> DeclaredFrom(f.shape, 0, k) {
      ChildrenKeys(f, data, 0, env, k);
    }
    if DistinctNames(f.shape) {
      forall j | 0 <= j < |f.shape|
        ensures f.shape[j].name in children.value
        ensures Success(children.value[f.shape[j].name]) == Transform(f.shape[j].field, Lookup(data, f.shape[j].name), env)
      {
        ChildrenValues(f, data, 0, env, j);
      }
    }
  }

  /**
   * An array with an element schema transforms when every element does, and
   * then holds the transformed elements in order; the first element that
   * fails, with every element before it transforming, names its index in
   * the error.
   */
  lemma ArrayTransformElementwise(f: Field, v: Value, env: Env, items: seq<Value>)
    requires f.ArrayField? && f.elements.Some? && BaseTransform(f.base, v) == Success(List(items))
    ensures Transform(f, v, env).Success? <==> forall j :: 0 <= j < |items| ==> Transform(f.elements.value, items[j], env).Success?
    ensures Transform(f, v, env).Success? ==> Transform(f, v, env).value.List?
    ensures Transform(f, v, env).Success? ==> |Transform(f, v, env).value.items| == |items|
    ensures Transform(f, v, env).Success? ==> forall j :: 0 <= j < |items| ==>
      Transform(f, v, env).value.items[j] == Transform(f.elements.value, items[j], env).value
    ensures Transform(f, v, env).Failure? ==> exists j :: (0 <= j < |items| &&
      (forall k :: 0 <= k < j ==> Transform(f.elements.value, items[k], env).Success?) &&
      Transform(f.elements.value, items[j], env).Failure? && Transform(f, v, env).error == ElementError(j, Transform(f.elements.value, items[j], env).error))
  {
    var r := TransformElements(f, items, 0, env);
    ElementsSucceed(f, items, 0, env);
    if r.Failure? {
      ElementsFailure(f, items, 0, env);
    }
    if r.Success? {
      forall j | 0 <= j < |items|
        ensures Success(r.value[j]) == Transform(f.elements.value, items[j], env)
      {
        ElementsValues(f, items, 0, env, j);
      }
    }
  }
}

=== FILE: fields.dfy ===
/**
 * The field schemas of types/ and core/base_type.go as immutable values: the
 * common base (required flag, label, default, transform chain), the
 * per-type rule records and one `Field` constructor per field type. Go's
 * chained builders that only store an argument become record fields; the
 * builders with logic of their own are functions here.
 */
module Fields {
  import opened Wrappers
  import opened Text
  import opened Values
  import opened Custom
  import PasswordPolicy
  import PasswordOptions
  import Network
  import Security
  import I18n

  /**
   * What the engine needs from outside the model: the translator the message
   * lookups read, and the collaborators whose internals are not modelled.
   *  - `emailPattern`, `urlPattern`: the email and URL regular expressions of types/string.go;
   *  - `matches(pattern, s)`: a compiled user pattern matching `s`;
   *  - `base64Decodes`: `base64.StdEncoding.DecodeString` succeeding;
   *  - `isLatin`: membership in the Unicode Latin script;
   *  - `parseIP`: `net.ParseIP`;
   *  - `parseTime(layout, s)`: `time.Parse`, with instants as integers;
   *  - `parsedLoc(layout, s)`: the location `time.Parse` attaches to its result;
   *  - `show`: the `%v` rendering of a value;
   *  - `log2`: `math.Log2` in the password entropy estimate;
   *  - `isMultipleOf(x, m)`: `math.Abs(math.Mod(x, m)) <= 1e-9`.
   */
  datatype Env = Env(
    tr: I18n.Translator,
    emailPattern: string -> bool,
    urlPattern: string -> bool,
    matches: (string, string) -> bool,
    base64Decodes: string -> bool,
    isLatin: char -> bool,
    parseIP: string -> Option<Network.IP>,
    parseTime: (string, string) -> Option<int>,
    parsedLoc: (string, string) -> nat,
    show: Value -> string,
    log2: nat -> real,
    isMultipleOf: (real, real) -> bool)

  /** The clock of a time `time.Parse` returns: the location it attaches and no monotonic reading. */
  function ParsedClock(env: Env, layout: string, s: string): Clock {
    Clock(env.parsedLoc(layout, s), None)
  }

  // ---------------------------------------------------------------------------
  // Transform steps
  // ---------------------------------------------------------------------------

  /** The string rewrites the builders install as transform steps. */
  datatype Sanitizer =
    | TrimSpaces
    | StripTags(allowedTags: seq<string>)
    | EscapeHtml
    | CleanFilename
    | DropEmoji(remove: bool)

  function Sanitize(op: Sanitizer, s: string): string {
    match op
    case TrimSpaces => TrimSpace(s)
    case StripTags(tags) => Security.StripHtmlTags(s, tags)
    case EscapeHtml => Security.PreventXss(s)
    case CleanFilename => Security.SanitizeFilename(s)
    case DropEmoji(remove) => Security.FilterEmoji(s, remove)
  }

  /**
   * One transform function: either a string rewrite that fails with a fixed
   * text on anything but a string, or a user function.
   */
  datatype Step =
    | OnString(op: Sanitizer, typeError: string)
    | UserStep(fn: Value -> Result<Value>)

  /** A string rewrite fails exactly on non-strings, and otherwise replaces the string by the rule's output. */
  function ApplyStep(step: Step, v: Value): (r: Result<Value>)
    ensures step.OnString? ==> (r.Success? <==> v.Str?)
    ensures step.OnString? && !v.Str? ==> r.error == step.typeError
    ensures step.OnString? && v.Str? ==> r.value == Str(Sanitize(step.op, v.s))
    ensures step.UserStep? ==> r == step.fn(v)
  {
    match step
    case OnString(op, err) => if v.Str? then Success(Str(Sanitize(op, v.s))) else Failure(err)
    case UserStep(fn) => fn(v)
  }

  // The error texts of the string rewrites (types/string.go, types/advanced_string.go).
  const TrimError: string := "Trim sadece string de\U{011F}erler i\U{00E7}in uygulanabilir"
  const StripTagsError: string := "StripTags sadece string de\U{011F}erler i\U{00E7}in uygulanabilir"
  const AdvancedStripTagsError: string := "StripTags sadece string'lere uygulanabilir"
  const EscapeHtmlError: string := "EscapeHTML sadece string'lere uygulanabilir"
  const SanitizeFilenameError: string := "SanitizeFilename sadece string'lere uygulanabilir"
  const FilterEmojiError: string := "FilterEmoji sadece string'lere uygulanabilir"

  // ---------------------------------------------------------------------------
  // The common base of every field
  // ---------------------------------------------------------------------------

  /** BaseType. `defaultValue` is `Null` when no default is set, as a nil `defaultValue` is in Go. */
  datatype Base = Base(required: bool, labelText: string, defaultValue: Value, steps: seq<Step>)

  const NewBase: Base := Base(false, "", Null, [])

  /** GetLabel: the label when one is set, otherwise the field name. */
  function GetLabel(b: Base, field: string): (l: string)
    ensures b.labelText != "" ==> l == b.labelText
    ensures b.labelText == "" ==> l == field
  {
    if b.labelText != "" then b.labelText else field
  }

  /** AddTransform: the step runs after every step added before it. */
  function AddTransform(b: Base, step: Step): Base {
    b.(steps := b.steps + [step])
  }

  /** The steps in order, each on the previous output; the first failure ends the chain. */
  function RunSteps(steps: seq<Step>, v: Value): Result<Value>
    decreases |steps|
  {
    if |steps| == 0 then Success(v)
    else
      match ApplyStep(steps[0], v)
      case Failure(e) => Failure(e)
      case Success(x) => RunSteps(steps[1..], x)
  }

  /** The value a field starts from: the default replaces a nil input when one is set. */
  function Defaulted(b: Base, v: Value): (d: Value)
    ensures !v.Null? ==> d == v
    ensures v.Null? ==> d == b.defaultValue
  {
    if v.Null? && !b.defaultValue.Null? then b.defaultValue else v
  }

  /**
   * BaseType.Transform: substitute the default, return nil untouched, and
   * otherwise run the steps; the result of a failed step carries no value.
   */
  function BaseTransform(b: Base, v: Value): (r: Result<Value>)
    ensures Defaulted(b, v).Null? ==> r == Success(Null)
    ensures !Defaulted(b, v).Null? ==> r == RunSteps(b.steps, Defaulted(b, v))
  {
    var d := Defaulted(b, v);
    if d.Null? then Success(Null) else RunSteps(b.steps, d)
  }

  // ---------------------------------------------------------------------------
  // The per-type rules
  // ---------------------------------------------------------------------------

  /** The optional checks of StringType; `None`/`false` means the builder was not called. */
  datatype StringRules = StringRules(
    minLength: Option<int>,
    maxLength: Option<int>,
    email: bool,
    url: bool,
    allowed: seq<string>,
    password: Option<PasswordPolicy.PasswordRules>,
    ipVersion: Option<int>,
    phoneCountry: Option<string>,
    alpha: bool,
    alphanumeric: bool,
    numeric: bool,
    startsWith: Option<string>,
    endsWith: Option<string>,
    contains: Option<string>,
    customRegex: Option<string>,
    regexError: Option<string>,
    mac: bool,
    hex: bool,
    base64: bool)

  const NoStringRules: StringRules :=
    StringRules(None, None, false, false, [], None, None, None, false, false, false,
                None, None, None, None, None, false, false, false)

  /** The extra checks of AdvancedStringType. */
  datatype AdvancedRules = AdvancedRules(turkishChars: Option<bool>, domain: Option<bool>, charSet: Option<string>)

  const NoAdvancedRules: AdvancedRules := AdvancedRules(None, None, None)

  /** The checks of NumberType; `between` holds both bounds, as Between always sets both. */
  datatype NumberRules = NumberRules(
    min: Option<real>,
    max: Option<real>,
    integer: bool,
    positive: bool,
    negative: bool,
    multipleOf: Option<real>,
    between: Option<(real, real)>)

  const NoNumberRules: NumberRules := NumberRules(None, None, false, false, false, None, None)

  /** DateType: the layout ("" selects the default) and the two bounds as unparsed text. */
  datatype DateRules = DateRules(format: string, minDate: Option<string>, maxDate: Option<string>)

  const NoDateRules: DateRules := DateRules("", None, None)

  /** The count checks and element predicates of ArrayType. */
  datatype ArrayRules = ArrayRules(
    minLength: Option<int>,
    maxLength: Option<int>,
    unique: bool,
    containsValue: Option<Value>,
    notEmpty: bool)

  const NoArrayRules: ArrayRules := ArrayRules(None, None, false, None, false)

  // ---------------------------------------------------------------------------
  // Fields
  // ---------------------------------------------------------------------------

  /**
   * One constructor per field type. An array's element schema is optional;
   * an object's shape is a sequence of named entries, the iteration order
   * Go's map leaves unspecified made explicit.
   */
  datatype Field =
    | StringField(base: Base, str: StringRules, custom: CustomValidation)
    | AdvancedStringField(base: Base, str: StringRules, adv: AdvancedRules, custom: CustomValidation)
    | NumberField(base: Base, num: NumberRules, custom: CustomValidation)
    | BooleanField(base: Base, custom: CustomValidation)
    | DateField(base: Base, date: DateRules, custom: CustomValidation)
    | ArrayField(base: Base, arr: ArrayRules, elements: Option<Field>, custom: CustomValidation)
    | ObjectField(base: Base, shape: seq<Entry>, custom: CustomValidation)
    | UuidField(base: Base, version: int, custom: CustomValidation)
    | IbanField(base: Base, country: string, custom: CustomValidation)
    | CardField(base: Base, cardType: string, custom: CustomValidation)

  datatype Entry = Entry(name: string, field: Field)

  /** The names of a shape, in order. */
  function Names(shape: seq<Entry>): (ns: seq<string>)
    ensures |ns| == |shape|
    ensures forall i :: 0 <= i < |shape| ==> ns[i] == shape[i].name
  {
    seq(|shape|, i requires 0 <= i < |shape| => shape[i].name)
  }

  predicate DistinctNames(shape: seq<Entry>) {
    forall i, j :: 0 <= i < j < |shape| ==> shape[i].name != shape[j].name
  }

  // The zero values the package-level constructors return.
  const NewString: Field := StringField(NewBase, NoStringRules, NoValidators)
  const NewAdvancedString: Field := AdvancedStringField(NewBase, NoStringRules, NoAdvancedRules, NoValidators)
  const NewNumber: Field := NumberField(NewBase, NoNumberRules, NoValidators)
  const NewBoolean: Field := BooleanField(NewBase, NoValidators)
  const NewDate: Field := DateField(NewBase, NoDateRules, NoValidators)
  const NewArray: Field := ArrayField(NewBase, NoArrayRules, None, NoValidators)
  const NewObject: Field := ObjectField(NewBase, [], NoValidators)
  const NewUuid: Field := UuidField(NewBase, 0, NoValidators)
  const NewIban: Field := IbanField(NewBase, "", NoValidators)
  const NewCard: Field := CardField(NewBase, "", NoValidators)

  // ---------------------------------------------------------------------------
  // Builders with logic of their own
  // ---------------------------------------------------------------------------

  predicate IsStringLike(f: Field) { f.StringField? || f.AdvancedStringField? }

  function Required(f: Field): Field { f.(base := f.base.(required := true)) }

  function Label(f: Field, text: string): Field { f.(base := f.base.(labelText := text)) }

  function WithDefault(f: Field, v: Value): Field { f.(base := f.base.(defaultValue := v)) }

  function WithStep(f: Field, step: Step): Field { f.(base := AddTransform(f.base, step)) }

  /** StringType.Trim, also inherited by AdvancedStringType. */
  function Trim(f: Field): Field
    requires IsStringLike(f)
  {
    WithStep(f, OnString(TrimSpaces, TrimError))
  }

  /** StripTags: StringType's and AdvancedStringType's versions differ only in their error text. */
  function StripTagsStep(f: Field, allowedTags: seq<string>): Field
    requires IsStringLike(f)
  {
    var err := if f.AdvancedStringField? then AdvancedStripTagsError else StripTagsError;
    WithStep(f, OnString(StripTags(allowedTags), err))
  }

  function EscapeHtmlStep(f: Field): Field
    requires f.AdvancedStringField?
  {
    WithStep(f, OnString(EscapeHtml, EscapeHtmlError))
  }

  function SanitizeFilenameStep(f: Field): Field
    requires f.AdvancedStringField?
  {
    WithStep(f, OnString(CleanFilename, SanitizeFilenameError))
  }

  function FilterEmojiStep(f: Field, remove: bool): Field
    requires f.AdvancedStringField?
  {
    WithStep(f, OnString(DropEmoji(remove), FilterEmojiError))
  }

  /** StringType.IP: the first argument, or 0 (any version) when none is given. */
  function IP(r: StringRules, version: seq<int>): (r': StringRules)
    ensures r'.ipVersion.Some?
    ensures |version| == 0 ==> r'.ipVersion == Some(0)
    ensures |version| > 0 ==> r'.ipVersion == Some(version[0])
    ensures r' == r.(ipVersion := r'.ipVersion)
  {
    r.(ipVersion := Some(if |version| > 0 then version[0] else 0))
  }

  /**
   * StringType.Regex: a pattern that does not compile clears the pattern and
   * records "invalid regex pattern: ..."; a recorded error is never cleared.
   */
  function Regex(r: StringRules, pattern: string, compile: string -> Option<string>): (r': StringRules)
    ensures compile(pattern).Some? ==>
      r'.customRegex.None? && r'.regexError == Some("invalid regex pattern: " + compile(pattern).value)
    ensures compile(pattern).None? ==> r'.customRegex == Some(pattern) && r'.regexError == r.regexError
    ensures r.regexError.Some? ==> r'.regexError.Some?
    ensures r' == r.(customRegex := r'.customRegex, regexError := r'.regexError)
  {
    match compile(pattern)
    case Some(err) => r.(customRegex := None, regexError := Some("invalid regex pattern: " + err))
    case None => r.(customRegex := Some(pattern))
  }

  /** StringType.Password: the defaults, then the options in order. */
  function Password(r: StringRules, options: seq<PasswordOptions.PasswordOption>): (r': StringRules)
    ensures r'.password == Some(PasswordOptions.Password(options))
    ensures options == [] ==> r'.password == Some(PasswordOptions.DefaultRules)
    ensures r' == r.(password := r'.password)
  {
    r.(password := Some(PasswordOptions.Password(options)))
  }

  /** The Custom builder of the string-valued types: a StringCustom or NilOrStringCustom validator. */
  function CustomString(f: Field, fn: string -> Option<string>): Field {
    var v := if IsStringLike(f) then StringCustom(fn) else NilOrStringCustom(fn);
    f.(custom := AddSync(f.custom, v))
  }

  /**
   * NumberType.Default: an `int` or a `float32` default is widened to
   * `float64`; every other value, the other integer types included, is
   * stored with its own type.
   */
  function NumberDefault(f: Field, v: Value): (r: Field)
    requires f.NumberField?
    ensures r.NumberField? && r.num == f.num && r.custom == f.custom
    ensures r.base == f.base.(defaultValue := r.base.defaultValue)
    ensures v.Int? && v.intType == GoInt ==> r.base.defaultValue == Flt(v.i as real, GoFloat64)
    ensures v.Flt? ==> r.base.defaultValue == Flt(v.r, GoFloat64)
    ensures !(v.Int? && v.intType == GoInt) && !v.Flt? ==> r.base.defaultValue == v
    ensures r.base.defaultValue.Int? <==> v.Int? && v.intType != GoInt
  {
    match v
    case Int(i, GoInt) => WithDefault(f, Flt(i as real, GoFloat64))
    case Flt(x, _) => WithDefault(f, Flt(x, GoFloat64))
    case _ => WithDefault(f, v)
  }

  /** An `int64` default is not widened: it stays an `int64`, unlike an `int` of the same value. */
  lemma NumberDefaultKeepsInt64(f: Field)
    requires f.NumberField?
    ensures NumberDefault(f, Int(5, GoInt64)).base.defaultValue == Int(5, GoInt64)
    ensures NumberDefault(f, Int(5, GoInt)).base.defaultValue == Flt(5.0, GoFloat64)
  {
  }

  /** UuidType.Version: an argument outside 0..5 leaves the field unchanged. */
  function Version(f: Field, v: int): (r: Field)
    requires f.UuidField?
    ensures 0 <= v <= 5 ==> r == f.(version := v)
    ensures !(0 <= v <= 5) ==> r == f
    ensures 0 <= f.version <= 5 ==> 0 <= r.version <= 5
  {
    if 0 <= v <= 5 then f.(version := v) else f
  }
}

=== FILE: i18n.dfy ===
/**
 * The message catalogue of i18n/messages.go: the translator state, its two
 * built-in locales and the lookup with fallback to the default locale. The
 * global singleton and its mutex are replaced by an explicit `Translator`
 * value, and formatting stays symbolic (see `Messages`).
 */
module I18n {
  import opened Messages

  /** A locale's templates, by message key. */
  type Catalogue = map<string, string>

  // The declared message keys.
  const KeyRequired: string := "validation.required"
  const KeyMin: string := "validation.min"
  const KeyMax: string := "validation.max"
  const KeyEmail: string := "validation.email"
  const KeyURL: string := "validation.url"
  const KeyIP: string := "validation.ip"
  const KeyUUID: string := "validation.uuid"
  const KeyIBAN: string := "validation.iban"
  const KeyCreditCard: string := "validation.credit_card"
  const KeyPhone: string := "validation.phone"
  const KeyInteger: string := "validation.integer"
  const KeyNumeric: string := "validation.numeric"
  const KeyBoolean: string := "validation.boolean"
  const KeyArray: string := "validation.array"
  const KeyObject: string := "validation.object"
  const KeyDate: string := "validation.date"
  const KeyDateFormat: string := "validation.date_format"
  const KeyDateMin: string := "validation.date_min"
  const KeyDateMax: string := "validation.date_max"
  const KeyOneOf: string := "validation.one_of"
  const KeyMinLength: string := "validation.min_length"
  const KeyMaxLength: string := "validation.max_length"
  const KeyMinElements: string := "validation.min_elements"
  const KeyMaxElements: string := "validation.max_elements"
  const KeyPassword: string := "validation.password"
  const KeyPasswordUpper: string := "validation.password.uppercase"
  const KeyPasswordLower: string := "validation.password.lowercase"
  const KeyPasswordNumeric: string := "validation.password.numeric"
  const KeyPasswordSpecial: string := "validation.password.special"
  const KeyPasswordUnique: string := "validation.password.unique_chars"
  const KeyPasswordRepeating: string := "validation.password.repeating"
  const KeyPasswordCommon: string := "validation.password.common"
  const KeyPasswordKeyboard: string := "validation.password.keyboard"
  const KeyPasswordWeak: string := "validation.password.weak"
  const KeyTurkishChars: string := "validation.turkish_chars"
  const KeyNoTurkishChars: string := "validation.no_turkish_chars"
  const KeyDomain: string := "validation.domain"
  const KeyCharSet: string := "validation.charset"
  const KeyTransform: string := "validation.transform_error"
  const KeyCrossValidation: string := "validation.cross_validation"

  // Keys the field types pass to the lookup that i18n/messages.go does not
  // declare, so their texts below are assumed names, not the program's. What
  // the model relies on holds whatever the texts are, as long as they differ
  // from the declared keys: neither built-in locale has a template for them,
  // so unless a caller adds one they resolve to the bracketed key.
  const KeyString: string := "validation.string"
  const KeyAlpha: string := "validation.alpha"
  const KeyAlphanumeric: string := "validation.alphanumeric"
  const KeyNumericString: string := "validation.numeric_string"
  const KeyStartsWith: string := "validation.starts_with"
  const KeyEndsWith: string := "validation.ends_with"
  const KeyContains: string := "validation.contains"
  const KeyRegex: string := "validation.regex"
  const KeyMAC: string := "validation.mac"
  const KeyHex: string := "validation.hex"
  const KeyBase64: string := "validation.base64"
  const KeyPositive: string := "validation.positive"
  const KeyNegative: string := "validation.negative"
  const KeyMultipleOf: string := "validation.multiple_of"
  const KeyBetween: string := "validation.between"
  const KeyNotEmpty: string := "validation.not_empty"
  const KeyUnique: string := "validation.unique"
  const KeyArrayContains: string := "validation.array_contains"

  const UndeclaredKeys: set<string> := {
    KeyString, KeyAlpha, KeyAlphanumeric, KeyNumericString, KeyStartsWith, KeyEndsWith,
    KeyContains, KeyRegex, KeyMAC, KeyHex, KeyBase64, KeyPositive, KeyNegative,
    KeyMultipleOf, KeyBetween, KeyNotEmpty, KeyUnique, KeyArrayContains
  }

  const DeclaredKeys: set<string> := {
    KeyRequired, KeyMin, KeyMax, KeyEmail, KeyURL, KeyIP,
    KeyUUID, KeyIBAN, KeyCreditCard, KeyPhone, KeyInteger, KeyNumeric,
    KeyBoolean, KeyArray, KeyObject, KeyDate, KeyDateFormat, KeyDateMin,
    KeyDateMax, KeyOneOf, KeyMinLength, KeyMaxLength, KeyMinElements, KeyMaxElements,
    KeyPassword, KeyPasswordUpper, KeyPasswordLower, KeyPasswordNumeric, KeyPasswordSpecial, KeyPasswordUnique,
    KeyPasswordRepeating, KeyPasswordCommon, KeyPasswordKeyboard, KeyPasswordWeak, KeyTurkishChars, KeyNoTurkishChars,
    KeyDomain, KeyCharSet, KeyTransform, KeyCrossValidation
  }

  /** The English catalogue loaded at start. */
  const English: Catalogue := map[
    KeyRequired := "%s is required",
    KeyMin := "%s must be at least %v",
    KeyMax := "%s must be at most %v",
    KeyEmail := "%s must be a valid email address",
    KeyURL := "%s must be a valid URL",
    KeyIP := "%s must be a valid IP address",
    KeyUUID := "%s must be a valid UUID",
    KeyIBAN := "%s must be a valid IBAN",
    KeyCreditCard := "%s must be a valid credit card number",
    KeyPhone := "%s must be a valid %s phone number",
    KeyInteger := "%s must be an integer",
    KeyNumeric := "%s must be a numeric value",
    KeyBoolean := "%s must be a boolean value",
    KeyArray := "%s must be an array",
    KeyObject := "%s must be an object",
    KeyDate := "%s must be a valid date",
    KeyDateFormat := "%s is not in a valid date format. Expected: %s",
    KeyDateMin := "%s cannot be before %s",
    KeyDateMax := "%s cannot be after %s",
    KeyOneOf := "%s must be one of: %s",
    KeyMinLength := "%s must be at least %d characters long",
    KeyMaxLength := "%s must be at most %d characters long",
    KeyMinElements := "%s must contain at least %d elements",
    KeyMaxElements := "%s must contain at most %d elements",
    KeyPassword := "%s must meet password requirements",
    KeyPasswordUpper := "%s must contain at least one uppercase letter",
    KeyPasswordLower := "%s must contain at least one lowercase letter",
    KeyPasswordNumeric := "%s must contain at least one number",
    KeyPasswordSpecial := "%s must contain at least one special character (%s)",
    KeyPasswordUnique := "%s must contain at least %d unique characters",
    KeyPasswordRepeating := "%s cannot have more than %d repeating characters",
    KeyPasswordCommon := "%s is too common, please choose a more secure password",
    KeyPasswordKeyboard := "%s cannot contain keyboard sequences",
    KeyPasswordWeak := "%s is not strong enough, please choose a more complex password",
    KeyTurkishChars := "%s must contain Turkish characters",
    KeyNoTurkishChars := "%s must not contain Turkish characters",
    KeyDomain := "%s must be a valid domain name",
    KeyCharSet := "%s must contain only '%s' characters",
    KeyTransform := "Transformation error: %s",
    KeyCrossValidation := "Cross-field validation failed: %s"
  ]

  /** The Turkish catalogue loaded at start. */
  const Turkish: Catalogue := map[
    KeyRequired := "%s alan\U{0131} zorunludur",
    KeyMin := "%s alan\U{0131} en az %v olmal\U{0131}d\U{0131}r",
    KeyMax := "%s alan\U{0131} en fazla %v olmal\U{0131}d\U{0131}r",
    KeyEmail := "%s alan\U{0131} ge\U{00E7}erli bir e-posta adresi olmal\U{0131}d\U{0131}r",
    KeyURL := "%s alan\U{0131} ge\U{00E7}erli bir URL olmal\U{0131}d\U{0131}r",
    KeyIP := "%s alan\U{0131} ge\U{00E7}erli bir IP adresi olmal\U{0131}d\U{0131}r",
    KeyUUID := "%s alan\U{0131} ge\U{00E7}erli bir UUID olmal\U{0131}d\U{0131}r",
    KeyIBAN := "%s alan\U{0131} ge\U{00E7}erli bir IBAN olmal\U{0131}d\U{0131}r",
    KeyCreditCard := "%s alan\U{0131} ge\U{00E7}erli bir kredi kart\U{0131} numaras\U{0131} olmal\U{0131}d\U{0131}r",
    KeyPhone := "%s alan\U{0131} ge\U{00E7}erli bir %s telefon numaras\U{0131} olmal\U{0131}d\U{0131}r",
    KeyInteger := "%s alan\U{0131} tamsay\U{0131} olmal\U{0131}d\U{0131}r",
    KeyNumeric := "%s alan\U{0131} say\U{0131}sal bir de\U{011F}er olmal\U{0131}d\U{0131}r",
    KeyBoolean := "%s alan\U{0131} boolean tipinde olmal\U{0131}d\U{0131}r",
    KeyArray := "%s alan\U{0131} dizi (array) tipinde olmal\U{0131}d\U{0131}r",
    KeyObject := "%s alan\U{0131} nesne (object) tipinde olmal\U{0131}d\U{0131}r",
    KeyDate := "%s alan\U{0131} ge\U{00E7}erli bir tarih olmal\U{0131}d\U{0131}r",
    KeyDateFormat := "%s ge\U{00E7}erli bir tarih format\U{0131} de\U{011F}il. Beklenen: %s",
    KeyDateMin := "%s alan\U{0131} %s tarihinden \U{00F6}nce olamaz",
    KeyDateMax := "%s alan\U{0131} %s tarihinden sonra olamaz",
    KeyOneOf := "%s alan\U{0131} \U{015F}unlardan biri olmal\U{0131}d\U{0131}r: %s",
    KeyMinLength := "%s alan\U{0131} en az %d karakter olmal\U{0131}d\U{0131}r",
    KeyMaxLength := "%s alan\U{0131} en fazla %d karakter olmal\U{0131}d\U{0131}r",
    KeyMinElements := "%s alan\U{0131}nda en az %d eleman olmal\U{0131}d\U{0131}r",
    KeyMaxElements := "%s alan\U{0131}nda en fazla %d eleman olmal\U{0131}d\U{0131}r",
    KeyPassword := "%s \U{015F}ifre gereksinimlerini kar\U{015F}\U{0131}lamal\U{0131}d\U{0131}r",
    KeyPasswordUpper := "%s en az bir b\U{00FC}y\U{00FC}k harf i\U{00E7}ermelidir",
    KeyPasswordLower := "%s en az bir k\U{00FC}\U{00E7}\U{00FC}k harf i\U{00E7}ermelidir",
    KeyPasswordNumeric := "%s en az bir rakam i\U{00E7}ermelidir",
    KeyPasswordSpecial := "%s en az bir \U{00F6}zel karakter i\U{00E7}ermelidir (%s)",
    KeyPasswordUnique := "%s en az %d farkl\U{0131} karakter i\U{00E7}ermelidir",
    KeyPasswordRepeating := "%s en fazla %d adet tekrar eden karakter i\U{00E7}erebilir",
    KeyPasswordCommon := "%s \U{00E7}ok yayg\U{0131}n bir \U{015F}ifre, l\U{00FC}tfen daha g\U{00FC}venli bir \U{015F}ifre se\U{00E7}in",
    KeyPasswordKeyboard := "%s klavye d\U{00FC}zeninde s\U{0131}ral\U{0131} karakterler i\U{00E7}eremez",
    KeyPasswordWeak := "%s yeterince karma\U{015F}\U{0131}k de\U{011F}il, l\U{00FC}tfen daha g\U{00FC}\U{00E7}l\U{00FC} bir \U{015F}ifre se\U{00E7}in",
    KeyTurkishChars := "%s alan\U{0131}nda T\U{00FC}rk\U{00E7}e karakter bulunmal\U{0131}d\U{0131}r",
    KeyNoTurkishChars := "%s alan\U{0131}nda T\U{00FC}rk\U{00E7}e karakter bulunmamal\U{0131}d\U{0131}r",
    KeyDomain := "%s alan\U{0131} ge\U{00E7}erli bir alan ad\U{0131} olmal\U{0131}d\U{0131}r",
    KeyCharSet := "%s alan\U{0131} '%s' karakter setine uymal\U{0131}d\U{0131}r",
    KeyTransform := "D\U{00F6}n\U{00FC}\U{015F}\U{00FC}m hatas\U{0131}: %s",
    KeyCrossValidation := "\U{00C7}apraz alan do\U{011F}rulamas\U{0131} ba\U{015F}ar\U{0131}s\U{0131}z: %s"
  ]

  /** The translator state: current and default locale, the catalogues and the fallback switch. */
  datatype Translator = Translator(
    currentLocale: string,
    defaultLocale: string,
    messages: map<string, Catalogue>,
    fallbackEnabled: bool)

  /** The state after package initialisation: English current and default, both catalogues, fallback on. */
  const Initial: Translator := Translator("en", "en", map["en" := English, "tr" := Turkish], true)

  /** The text for a key with no template: the key in brackets. */
  function Bracketed(key: string): (m: Msg)
    ensures m.Raw? && |m.text| == |key| + 2 && m.text[0] == '[' && m.text[|m.text| - 1] == ']'
    ensures m.text[1..|m.text| - 1] == key
  {
    Raw("[" + key + "]")
  }

  /** The locale holds a template for the key. */
  predicate Defines(t: Translator, locale: string, key: string) {
    locale in t.messages && key in t.messages[locale]
  }

  /**
   * Get: the current locale's template; failing that, the default locale's when
   * fallback is on and the two locales differ; failing that, the bracketed key.
   */
  function Get(t: Translator, key: string, args: seq<Arg>): (m: Msg)
    ensures Defines(t, t.currentLocale, key) ==> m == Sprintf(t.messages[t.currentLocale][key], args)
    ensures !Defines(t, t.currentLocale, key) && t.fallbackEnabled && t.currentLocale != t.defaultLocale
            && Defines(t, t.defaultLocale, key)
            ==> m == Sprintf(t.messages[t.defaultLocale][key], args)
    ensures m.Raw? <==> (!Defines(t, t.currentLocale, key)
            && !(t.fallbackEnabled && t.currentLocale != t.defaultLocale && Defines(t, t.defaultLocale, key)))
    ensures m.Raw? ==> m == Bracketed(key)
  {
    if Defines(t, t.currentLocale, key) then Sprintf(t.messages[t.currentLocale][key], args)
    else if t.fallbackEnabled && t.currentLocale != t.defaultLocale && Defines(t, t.defaultLocale, key) then
      Sprintf(t.messages[t.defaultLocale][key], args)
    else Bracketed(key)
  }

  /** SetLocale. */
  function SetLocale(t: Translator, locale: string): (r: Translator)
    ensures r.currentLocale == locale
    ensures r.defaultLocale == t.defaultLocale && r.messages == t.messages && r.fallbackEnabled == t.fallbackEnabled
  {
    t.(currentLocale := locale)
  }

  /** SetDefaultLocale. */
  function SetDefaultLocale(t: Translator, locale: string): (r: Translator)
    ensures r.defaultLocale == locale
    ensures r.currentLocale == t.currentLocale && r.messages == t.messages && r.fallbackEnabled == t.fallbackEnabled
  {
    t.(defaultLocale := locale)
  }

  /** SetFallback. */
  function SetFallback(t: Translator, enabled: bool): (r: Translator)
    ensures r.fallbackEnabled == enabled
    ensures r.currentLocale == t.currentLocale && r.defaultLocale == t.defaultLocale && r.messages == t.messages
  {
    t.(fallbackEnabled := enabled)
  }

  /** HasLocale. */
  function HasLocale(t: Translator, locale: string): (b: bool)
    ensures b <==> locale in t.messages
  {
    locale in t.messages
  }

  /**
   * AddMessages: the locale is created when missing, then each given key is set
   * to its template; other keys of that locale and all other locales keep theirs.
   */
  function AddMessages(t: Translator, locale: string, added: Catalogue): (r: Translator)
    ensures r.currentLocale == t.currentLocale && r.defaultLocale == t.defaultLocale
    ensures r.fallbackEnabled == t.fallbackEnabled
    ensures r.messages.Keys == t.messages.Keys + {locale}
    ensures forall l :: l in t.messages && l != locale ==> r.messages[l] == t.messages[l]
    ensures forall k :: k in added ==> Defines(r, locale, k) && r.messages[locale][k] == added[k]
    ensures forall k :: k !in added ==> (Defines(r, locale, k) <==> Defines(t, locale, k))
    ensures forall k :: k !in added && Defines(t, locale, k) ==>
      Defines(r, locale, k) && r.messages[locale][k] == t.messages[locale][k]
  {
    var existing := if locale in t.messages then t.messages[locale] else map[];
    t.(messages := t.messages[locale := existing + added])
  }

  /** Both built-in catalogues define every declared key and nothing else. */
  lemma CataloguesComplete()
    ensures English.Keys == DeclaredKeys && Turkish.Keys == DeclaredKeys
  {}

  /** No key outside the const block, whatever its text, is defined by a built-in catalogue. */
  lemma UndeclaredKeysMissing()
    ensures forall k :: k !in DeclaredKeys ==> k !in English && k !in Turkish
    ensures UndeclaredKeys !! DeclaredKeys
    ensures forall k :: k in UndeclaredKeys ==> k !in English && k !in Turkish
  {
    UndeclaredKeysDisjoint();
    CatalogueKeysDeclared();
  }

  /** A key outside the const block is in neither catalogue. */
  lemma CatalogueKeysDeclared()
    ensures forall k :: k !in DeclaredKeys ==> k !in English && k !in Turkish
  {
    CataloguesComplete();
  }

  lemma UndeclaredKeysDisjoint()
    ensures UndeclaredKeys !! DeclaredKeys
  {
    forall k | k in UndeclaredKeys ensures k !in DeclaredKeys {
      if k in {KeyString, KeyAlpha, KeyAlphanumeric, KeyNumericString, KeyStartsWith, KeyEndsWith} {
        UndeclaredMissingA(k);
      } else if k in {KeyContains, KeyRegex, KeyMAC, KeyHex, KeyBase64, KeyPositive} {
        UndeclaredMissingB(k);
      } else {
        UndeclaredMissingC(k);
      }
    }
  }

  lemma UndeclaredMissingA(k: string)
    requires k in {KeyString, KeyAlpha, KeyAlphanumeric, KeyNumericString, KeyStartsWith, KeyEndsWith}
    ensures k !in DeclaredKeys
  {}

  lemma UndeclaredMissingB(k: string)
    requires k in {KeyContains, KeyRegex, KeyMAC, KeyHex, KeyBase64, KeyPositive}
    ensures k !in DeclaredKeys
  {}

  lemma UndeclaredMissingC(k: string)
    requires k in {KeyNegative, KeyMultipleOf, KeyBetween, KeyNotEmpty, KeyUnique, KeyArrayContains}
    ensures k !in DeclaredKeys
  {}

  /** At start exactly "en" and "tr" are loaded. */
  lemma InitialLocales(locale: string)
    ensures HasLocale(Initial, locale) <==> locale == "en" || locale == "tr"
  {}

  /** At start a key renders with its English template when it has one, and bracketed otherwise. */
  lemma InitialGet(key: string, args: seq<Arg>)
    ensures key in English ==> Get(Initial, key, args) == Sprintf(English[key], args)
    ensures key !in English ==> Get(Initial, key, args) == Bracketed(key)
  {}

  /** A locale without a template for the key reads the default locale's when fallback is on. */
  lemma FallbackToDefault(t: Translator, key: string, args: seq<Arg>)
    requires t.fallbackEnabled && !Defines(t, t.currentLocale, key)
    ensures Get(t, key, args) == Get(SetLocale(t, t.defaultLocale), key, args)
  {}

  /** With fallback off, only the current locale is consulted. */
  lemma NoFallback(t: Translator, key: string, args: seq<Arg>)
    requires !t.fallbackEnabled
    ensures Get(t, key, args) == if Defines(t, t.currentLocale, key) then Sprintf(t.messages[t.currentLocale][key], args) else Bracketed(key)
  {}

  /** A template added to the current locale is the one Get uses from then on. */
  lemma AddedTemplateWins(t: Translator, key: string, template: string, args: seq<Arg>)
    ensures Get(AddMessages(t, t.currentLocale, map[key := template]), key, args) == Sprintf(template, args)
  {}

  /** Adding templates for other keys never changes what a key renders to. */
  lemma AddMessagesOtherKey(t: Translator, locale: string, added: Catalogue, key: string, args: seq<Arg>)
    requires key !in added
    requires locale in t.messages
    ensures Get(AddMessages(t, locale, added), key, args) == Get(t, key, args)
  {}

  /**
   * After SetLocale("tr") a key with a Turkish template renders with it, and a
   * key without one falls back to its English template.
   */
  lemma TurkishGet(key: string, args: seq<Arg>)
    ensures key in Turkish ==> Get(SetLocale(Initial, "tr"), key, args) == Sprintf(Turkish[key], args)
    ensures key !in Turkish && key in English ==> Get(SetLocale(Initial, "tr"), key, args) == Sprintf(English[key], args)
  {}
}

=== FILE: messages.dfy ===
/**
 * Error messages as the validator builds them. Go renders every message with
 * fmt.Sprintf; the model keeps the format string and its arguments instead of
 * the rendered text, so two messages are equal exactly when they were built
 * from the same format and the same arguments.
 */
module Messages {
  import opened Values
  import PasswordPolicy

  /** One argument of a format call: `%s`/`%d`/`%v` operands as they appear in the source. */
  datatype Arg =
    | S(s: string)
    | I(i: int)
    | R(r: real)
    | V(v: Value)
    | Strs(items: seq<string>)
    | M(m: Msg)

  /**
   * `Sprintf(format, args)` is `fmt.Sprintf(format, args...)` and `Raw(text)` is
   * an error's own text, added as is (`err.Error()`). `Failed(failure, name)`
   * is the message a field check adds for `failure` under the label `name`,
   * kept as the failure until its text is looked up.
   */
  datatype Msg =
    | Sprintf(format: string, args: seq<Arg>)
    | Raw(text: string)
    | Failed(failure: Failure, name: string)

  /** The type a field's kind check expects. */
  datatype TypeName = StringType | NumberType | BooleanType | DateType | ArrayType | ObjectType

  /** types/string.go: Min and Max. */
  datatype LengthIssue = TooShort(min: int) | TooLong(max: int)

  /** types/string.go: the checks from OneOf to Contains. */
  datatype ContentIssue =
    | NotOneOf(allowed: seq<string>)
    | WeakPassword(issue: PasswordPolicy.Issue)
    | BadIP
    | BadPhone(country: string)
    | NotAlpha
    | NotAlphanumeric
    | NotNumericText
    | MissingPrefix(prefix: string)
    | MissingSuffix(suffix: string)
    | MissingSubstring(substring: string)

  /** types/string.go: the custom pattern, MAC, Hex and Base64. */
  datatype FormatIssue = NoMatch | BadMac | BadHex | BadBase64

  /** types/advanced_string.go. */
  datatype AdvancedIssue = NeedsTurkish | ForbidsTurkish | BadDomain | OutsideCharSet(charSet: string)

  /** types/number.go. */
  datatype NumberIssue =
    | NotInteger
    | BelowMin(lowest: real)
    | AboveMax(highest: real)
    | NotPositive
    | NotNegative
    | NotMultiple(of: real)
    | OutsideRange(lo: real, hi: real)

  /** types/date.go: a bound that does not parse, or a date outside it. */
  datatype DateIssue = MinUnparsed(minLayout: string) | MaxUnparsed(maxLayout: string) | BeforeMin(minBound: string) | AfterMax(maxBound: string)

  /** types/array.go. */
  datatype ArrayIssue =
    | TooFewElements(count: int)
    | TooManyElements(limit: int)
    | EmptyArray
    | Duplicates
    | NotContained(expected: Value)

  /** One failed check of a field. */
  datatype Failure =
    | MissingRequired                     // core/base_type.go
    | WrongType(expected: TypeName)       // the kind check of every field type
    | Length(length: LengthIssue)
    | BadEmail
    | BadUrl
    | Content(content: ContentIssue)
    | BadPattern(error: string)
    | Format(format: FormatIssue)
    | Advanced(advanced: AdvancedIssue)
    | Numeric(number: NumberIssue)
    | Dated(date: DateIssue)
    | Listed(listing: ArrayIssue)
    | BadUuid                             // types/uuid.go
    | BadIban                             // types/iban.go
    | BadCard                             // types/creditcard.go
    | UserFailure(msg: Msg)               // a custom validator or rule, with the message it reported

}

=== FILE: network_rules.dfy ===
/**
 * IP version dispatch and phone number patterns of rules/network.go.
 */
module Network {
  import opened Wrappers
  import opened Text

  /** What the model needs of a parsed address: whether it has a 4-byte form (`To4() != nil`). */
  datatype IP = IP(is4: bool)

  /**
   * IsValidIP. `parse` stands for net.ParseIP; every parsed address has a
   * 16-byte form, so version 6 asks only that it have no 4-byte form.
   */
  function IsValidIP(ip: string, version: int, parse: string -> Option<IP>): (ok: bool)
    ensures parse(ip).None? ==> !ok
    ensures parse(ip).Some? ==>
      (version == 0 ==> ok) && (version == 4 ==> (ok <==> parse(ip).value.is4))
      && (version == 6 ==> (ok <==> !parse(ip).value.is4))
    ensures version !in {0, 4, 6} ==> !ok
  {
    match parse(ip)
    case None => false
    case Some(addr) =>
      match version
      case 4 => addr.is4
      case 6 => !addr.is4
      case 0 => true
      case _ => false
  }

  /** A parsed address is valid for version 0 and for exactly one of versions 4 and 6. */
  lemma IpVersionsPartition(ip: string, parse: string -> Option<IP>)
    requires IsValidIP(ip, 0, parse)
    ensures IsValidIP(ip, 4, parse) != IsValidIP(ip, 6, parse)
  {}

  /** `\s+|-|\(|\)`: Go's `\s` is tab, newline, form feed, carriage return and space. */
  predicate IsPhoneFormatting(c: char) {
    c == '\t' || c == '\n' || c == '\U{000C}' || c == '\r' || c == ' ' || c == '-' || c == '(' || c == ')'
  }

  predicate KeptInPhone(c: char) { !IsPhoneFormatting(c) }

  function CleanPhone(s: string): string {
    Filter(s, KeptInPhone)
  }

  /** `^(05|5)[0-9]{9}$`. */
  predicate TrMobile(s: string) {
    || (|s| == 11 && s[0] == '0' && s[1] == '5' && AllDigits(s[2..]))
    || (|s| == 10 && s[0] == '5' && AllDigits(s[1..]))
  }

  /** `[2-9]\d{2}[2-9]\d{2}\d{4}`: ten digits, the first and fourth of them 2 to 9. */
  predicate UsTenDigits(s: string) {
    |s| == 10 && AllDigits(s) && s[0] != '0' && s[0] != '1' && s[3] != '0' && s[3] != '1'
  }

  /** `^(\+1|1)?` followed by the ten digits. */
  predicate UsNumber(s: string) {
    UsTenDigits(s) || (HasPrefix(s, "1") && UsTenDigits(s[1..])) || (HasPrefix(s, "+1") && UsTenDigits(s[2..]))
  }

  const PhoneCountries: set<string> := {"TR", "US"}

  /** IsValidPhoneNumber: formatting runes removed, then the country pattern. */
  function IsValidPhoneNumber(phone: string, country: string): (ok: bool)
    ensures country !in PhoneCountries ==> !ok
    ensures country == "TR" ==> (ok <==> TrMobile(CleanPhone(phone)))
    ensures country == "US" ==> (ok <==> UsNumber(CleanPhone(phone)))
  {
    match country
    case "TR" => TrMobile(CleanPhone(phone))
    case "US" => UsNumber(CleanPhone(phone))
    case _ => false
  }

  /** Inserting a formatting rune anywhere never changes the verdict. */
  lemma PhoneFormattingIrrelevant(a: string, b: string, c: char, country: string)
    requires IsPhoneFormatting(c)
    ensures IsValidPhoneNumber(a + [c] + b, country) == IsValidPhoneNumber(a + b, country)
  {
    FilterConcat(a + [c], b, KeptInPhone);
    FilterConcat(a, [c], KeptInPhone);
    FilterConcat(a, b, KeptInPhone);
    assert [c][1..] == [];
    assert Filter([c], KeptInPhone) == [];
    assert CleanPhone(a + [c] + b) == CleanPhone(a + b);
  }

  /** Cleaning is idempotent, so a pre-cleaned number gets the same verdict. */
  lemma PhoneCleanIdempotent(phone: string, country: string)
    ensures IsValidPhoneNumber(CleanPhone(phone), country) == IsValidPhoneNumber(phone, country)
  {
    FilterKeepsAll(CleanPhone(phone), KeptInPhone);
  }
}

=== FILE: password_options.dfy ===
/**
 * The functional options of types/password_options.go and the defaults that
 * StringType.Password (types/string.go) starts from.
 */
module PasswordOptions {
  import opened PasswordPolicy

  /** The eight options; each stands for the closure its `With…` constructor returns. */
  datatype PasswordOption =
    | WithMinLength(length: int)
    | WithMaxLength(length: int)
    | WithRequireUppercase(required: bool)
    | WithRequireLowercase(required: bool)
    | WithRequireNumeric(required: bool)
    | WithRequireSpecial(required: bool)
    | WithSpecialChars(chars: string)
    | WithMinUniqueChars(count: int)

  /** The settings an option can write. */
  datatype Setting =
    | MinLength | MaxLength | RequireUppercase | RequireLowercase
    | RequireNumeric | RequireSpecial | SpecialChars | MinUniqueChars

  /** A setting's value, whatever its Go type. */
  datatype SettingValue = Num(n: int) | Flag(b: bool) | Chars(s: string)

  /** The setting an option writes. */
  function Sets(o: PasswordOption): Setting {
    match o
    case WithMinLength(_) => MinLength
    case WithMaxLength(_) => MaxLength
    case WithRequireUppercase(_) => RequireUppercase
    case WithRequireLowercase(_) => RequireLowercase
    case WithRequireNumeric(_) => RequireNumeric
    case WithRequireSpecial(_) => RequireSpecial
    case WithSpecialChars(_) => SpecialChars
    case WithMinUniqueChars(_) => MinUniqueChars
  }

  /** The value an option writes. */
  function Written(o: PasswordOption): SettingValue {
    match o
    case WithMinLength(n) => Num(n)
    case WithMaxLength(n) => Num(n)
    case WithRequireUppercase(b) => Flag(b)
    case WithRequireLowercase(b) => Flag(b)
    case WithRequireNumeric(b) => Flag(b)
    case WithRequireSpecial(b) => Flag(b)
    case WithSpecialChars(s) => Chars(s)
    case WithMinUniqueChars(n) => Num(n)
  }

  /** A setting as stored in the rules. */
  function Read(r: PasswordRules, s: Setting): SettingValue {
    match s
    case MinLength => Num(r.minLength)
    case MaxLength => Num(r.maxLength)
    case RequireUppercase => Flag(r.requireUppercase)
    case RequireLowercase => Flag(r.requireLowercase)
    case RequireNumeric => Flag(r.requireNumeric)
    case RequireSpecial => Flag(r.requireSpecial)
    case SpecialChars => Chars(r.specialChars)
    case MinUniqueChars => Num(r.minUniqueChars)
  }

  /** The four settings no option can reach. */
  predicate SameFixedSettings(a: PasswordRules, b: PasswordRules) {
    && a.maxRepeatingChars == b.maxRepeatingChars
    && a.disallowCommon == b.disallowCommon
    && a.disallowKeyboard == b.disallowKeyboard
    && a.minEntropy == b.minEntropy
  }

  /** Running one option: it writes its own setting and no other. */
  function Apply(o: PasswordOption, r: PasswordRules): (r': PasswordRules)
    ensures Read(r', Sets(o)) == Written(o)
    ensures forall s :: s != Sets(o) ==> Read(r', s) == Read(r, s)
    ensures SameFixedSettings(r, r')
  {
    match o
    case WithMinLength(n) => r.(minLength := n)
    case WithMaxLength(n) => r.(maxLength := n)
    case WithRequireUppercase(b) => r.(requireUppercase := b)
    case WithRequireLowercase(b) => r.(requireLowercase := b)
    case WithRequireNumeric(b) => r.(requireNumeric := b)
    case WithRequireSpecial(b) => r.(requireSpecial := b)
    case WithSpecialChars(s) => r.(specialChars := s)
    case WithMinUniqueChars(n) => r.(minUniqueChars := n)
  }

  /** The defaults of StringType.Password. */
  const DefaultRules: PasswordRules := PasswordRules(
    minLength := 8,
    maxLength := 72,
    requireUppercase := true,
    requireLowercase := true,
    requireNumeric := true,
    requireSpecial := true,
    specialChars := "!@#$%^&*(),.?\":{}|<>+-",
    minUniqueChars := 6,
    maxRepeatingChars := 3,
    disallowCommon := true,
    disallowKeyboard := true,
    minEntropy := 50.0)

  /** The default special set has its `-` last, so its class is exactly its runes. */
  lemma DefaultSpecialIsSet(c: char)
    ensures PasswordPolicy.InClass(c, DefaultRules.specialChars) <==> c in DefaultRules.specialChars
  {
    var chars := DefaultRules.specialChars;
    assert forall i | 1 <= i < |chars| - 1 :: chars[i] != '-';
    PasswordPolicy.ClassWithoutRangesIsSet(c, chars);
  }

  /** The options in order, each on the result of the previous ones. */
  function {:induction false} ApplyAll(r: PasswordRules, opts: seq<PasswordOption>): (r': PasswordRules)
    ensures SameFixedSettings(r, r')
    decreases |opts|
  {
    if |opts| == 0 then r else ApplyAll(Apply(opts[0], r), opts[1..])
  }

  /** StringType.Password: the rules a field gets from its options. */
  function Password(opts: seq<PasswordOption>): (r: PasswordRules)
    ensures r.maxRepeatingChars == 3 && r.disallowCommon && r.disallowKeyboard && r.minEntropy == 50.0
    ensures opts == [] ==> r == DefaultRules
  {
    ApplyAll(DefaultRules, opts)
  }

  /** Options for other settings never disturb a setting. */
  lemma {:induction false} UntouchedSetting(r: PasswordRules, opts: seq<PasswordOption>, s: Setting)
    requires forall i :: 0 <= i < |opts| ==> Sets(opts[i]) != s
    ensures Read(ApplyAll(r, opts), s) == Read(r, s)
    decreases |opts|
  {
    if |opts| > 0 {
      UntouchedSetting(Apply(opts[0], r), opts[1..], s);
    }
  }

  /** The last option for a setting decides it. */
  lemma {:induction false} LastOptionWins(r: PasswordRules, opts: seq<PasswordOption>, i: nat)
    requires i < |opts|
    requires forall j :: i < j < |opts| ==> Sets(opts[j]) != Sets(opts[i])
    ensures Read(ApplyAll(r, opts), Sets(opts[i])) == Written(opts[i])
    decreases |opts|
  {
    if i == 0 {
      var r1 := Apply(opts[0], r);
      assert forall j :: 0 <= j < |opts[1..]| ==> Sets(opts[1..][j]) != Sets(opts[0]) by {
        forall j | 0 <= j < |opts[1..]| ensures Sets(opts[1..][j]) != Sets(opts[0]) {
          assert opts[1..][j] == opts[j + 1];
        }
      }
      UntouchedSetting(r1, opts[1..], Sets(opts[0]));
    } else {
      assert forall j :: i - 1 < j < |opts[1..]| ==> Sets(opts[1..][j]) != Sets(opts[1..][i - 1]) by {
        forall j | i - 1 < j < |opts[1..]| ensures Sets(opts[1..][j]) != Sets(opts[1..][i - 1]) {
          assert opts[1..][j] == opts[j + 1];
        }
      }
      LastOptionWins(Apply(opts[0], r), opts[1..], i - 1);
    }
  }
}

=== FILE: password_rules.dfy ===
/**
 * The password policy check of rules/password.go: `ValidatePassword` and the
 * keyboard, repeat and blocklist detectors it uses.
 */
module PasswordPolicy {
  import opened Wrappers
  import opened Text

  /** rules.PasswordRules. */
  datatype PasswordRules = PasswordRules(
    minLength: int,
    maxLength: int,
    requireUppercase: bool,
    requireLowercase: bool,
    requireNumeric: bool,
    requireSpecial: bool,
    specialChars: string,
    minUniqueChars: int,
    maxRepeatingChars: int,
    disallowCommon: bool,
    disallowKeyboard: bool,
    minEntropy: real)

  /** One policy violation; its text is left to the message layer. */
  datatype Issue =
    | TooShort(min: int)
    | TooLong(max: int)
    | NoUppercase
    | NoLowercase
    | NoDigit
    | NoSpecial(chars: string)
    | TooFewUnique(min: int)
    | KeyboardSequence
    | Repeating(max: int)
    | CommonPassword
    | TooWeak

  /** Position of each kind of issue in the fixed reporting order. */
  function Rank(i: Issue): nat {
    match i
    case TooShort(_) => 0
    case TooLong(_) => 1
    case NoUppercase => 2
    case NoLowercase => 3
    case NoDigit => 4
    case NoSpecial(_) => 5
    case TooFewUnique(_) => 6
    case KeyboardSequence => 7
    case Repeating(_) => 8
    case CommonPassword => 9
    case TooWeak => 10
  }

  const CommonPasswords: set<string> :=
    {"password", "123456", "qwerty", "111111", "abc123",
     "letmein", "admin", "welcome", "monkey", "dragon"}

  const KeyboardPatterns: seq<string> :=
    ["qwerty", "asdfgh", "zxcvbn", "123456", "654321", "abc", "cba", "xyz"]

  // ---------------------------------------------------------------------------
  // stringReverse
  // ---------------------------------------------------------------------------

  /** stringReverse: reverses the runes of `s`. */
  function StringReverse(s: string): (r: string)
    ensures |r| == |s|
  {
    Reverse(s)
  }

  lemma StringReverseInvolution(s: string)
    ensures StringReverse(StringReverse(s)) == s
  {
    assert forall i :: 0 <= i < |s| ==> StringReverse(StringReverse(s))[i] == s[i];
  }

  // ---------------------------------------------------------------------------
  // hasKeyboardPattern
  // ---------------------------------------------------------------------------

  /** hasKeyboardPattern: the lower-cased password contains a pattern or its reversal. */
  predicate HasKeyboardPattern(password: string) {
    var lowered := ToLower(password);
    exists k | 0 <= k < |KeyboardPatterns| ::
      Contains(lowered, KeyboardPatterns[k]) || Contains(lowered, StringReverse(KeyboardPatterns[k]))
  }

  /** A run of `t` in `s` is a run of reversed `t` in reversed `s`. */
  lemma ContainsReverse(s: string, t: string)
    requires Contains(s, t)
    ensures Contains(Reverse(s), Reverse(t))
  {
    var i :| 0 <= i <= |s| && OccursAt(s, t, i);
    var j := |s| - i - |t|;
    assert Reverse(s)[j..j + |t|] == Reverse(t) by {
      forall k | 0 <= k < |t| ensures Reverse(s)[j..j + |t|][k] == Reverse(t)[k] {
        assert s[i..i + |t|][|t| - 1 - k] == t[|t| - 1 - k];
      }
    }
    assert OccursAt(Reverse(s), Reverse(t), j);
  }

  lemma LowerReverseCommute(s: string)
    ensures ToLower(Reverse(s)) == Reverse(ToLower(s))
  {}

  /** One direction of the reversal symmetry of hasKeyboardPattern. */
  lemma KeyboardPatternOfReverse(p: string)
    requires HasKeyboardPattern(p)
    ensures HasKeyboardPattern(StringReverse(p))
  {
    var lowered := ToLower(p);
    var k :| 0 <= k < |KeyboardPatterns| &&
      (Contains(lowered, KeyboardPatterns[k]) || Contains(lowered, StringReverse(KeyboardPatterns[k])));
    var pat := KeyboardPatterns[k];
    LowerReverseCommute(p);
    StringReverseInvolution(pat);
    if Contains(lowered, pat) {
      ContainsReverse(lowered, pat);
      assert Contains(ToLower(StringReverse(p)), StringReverse(pat));
    } else {
      ContainsReverse(lowered, StringReverse(pat));
      assert Contains(ToLower(StringReverse(p)), pat);
    }
  }

  /** The keyboard check gives the same verdict for a password and its reversal. */
  lemma KeyboardPatternReversalInvariant(p: string)
    ensures HasKeyboardPattern(StringReverse(p)) <==> HasKeyboardPattern(p)
  {
    if HasKeyboardPattern(p) {
      KeyboardPatternOfReverse(p);
    }
    if HasKeyboardPattern(StringReverse(p)) {
      KeyboardPatternOfReverse(StringReverse(p));
      StringReverseInvolution(p);
    }
  }

  lemma LowerIdempotent(s: string)
    ensures ToLower(ToLower(s)) == ToLower(s)
  {
    forall i | 0 <= i < |s| ensures ToLower(ToLower(s))[i] == ToLower(s)[i] {
      assert GoLower(GoLower(s[i])) == GoLower(s[i]);
    }
  }

  /**
   * The keyboard and blocklist checks see only the lower-cased password, so they
   * do not distinguish letter case; for ASCII passwords upper-casing is invisible too.
   */
  lemma PasswordChecksIgnoreCase(p: string)
    ensures HasKeyboardPattern(ToLower(p)) <==> HasKeyboardPattern(p)
    ensures IsCommon(ToLower(p)) <==> IsCommon(p)
    ensures AllAscii(p) ==> (HasKeyboardPattern(ToUpper(p)) <==> HasKeyboardPattern(p))
    ensures AllAscii(p) ==> (IsCommon(ToUpper(p)) <==> IsCommon(p))
  {
    LowerIdempotent(p);
    if AllAscii(p) {
      assert ToLower(ToUpper(p)) == ToLower(p) by {
        forall i | 0 <= i < |p| ensures ToLower(ToUpper(p))[i] == ToLower(p)[i] {
          assert IsAscii(p[i]);
        }
      }
    }
  }

  // ---------------------------------------------------------------------------
  // hasRepeatingChars
  // ---------------------------------------------------------------------------

  /** `maxRepeats + 1` copies of one rune start at index `i` of `p`. */
  predicate RepeatAt(p: string, i: int, maxRepeats: nat) {
    0 <= i && i + maxRepeats + 1 <= |p| && forall k :: i <= k <= i + maxRepeats ==> p[k] == p[i]
  }

  /** Reference definition: some rune repeats consecutively more than `maxRepeats` times. */
  predicate HasRunLongerThan(p: string, maxRepeats: int) {
    maxRepeats > 0 && exists i | 0 <= i < |p| :: RepeatAt(p, i, maxRepeats)
  }

  /**
   * The loop of hasRepeatingChars from index `i` on, where `run` is the number
   * of equal runes ending at index `i - 1`.
   */
  function RepeatScan(p: string, maxRepeats: int, i: nat, run: nat): bool
    requires 1 <= i <= |p|
    decreases |p| - i
  {
    if i == |p| then false
    else if p[i] == p[i - 1] then run + 1 > maxRepeats || RepeatScan(p, maxRepeats, i + 1, run + 1)
    else RepeatScan(p, maxRepeats, i + 1, 1)
  }

  /** hasRepeatingChars. */
  function HasRepeatingChars(p: string, maxRepeats: int): bool
  {
    if maxRepeats <= 0 || |p| == 0 then false else RepeatScan(p, maxRepeats, 1, 1)
  }

  /**
   * The scan state before index `i`: exactly `run` equal runes end at `i - 1`
   * (the run is maximal) and no over-long run lies wholly before `i`.
   */
  predicate ScanState(p: string, m: nat, i: nat, run: nat) {
    && 1 <= i <= |p| && 1 <= run <= i && run <= m
    && (forall k :: i - run <= k < i ==> p[k] == p[i - 1])
    && (i - run == 0 || p[i - run - 1] != p[i - 1])
    && forall j :: 0 <= j && j + m < i ==> !RepeatAt(p, j, m)
  }

  lemma {:induction false} RepeatScanCorrect(p: string, m: nat, i: nat, run: nat)
    requires m > 0 && ScanState(p, m, i, run)
    ensures RepeatScan(p, m, i, run) <==> exists j | 0 <= j < |p| :: RepeatAt(p, j, m)
    decreases |p| - i
  {
    if i == |p| {
      forall j | 0 <= j < |p| ensures !RepeatAt(p, j, m) {}
    } else if p[i] == p[i - 1] {
      if run + 1 > m {
        assert RepeatAt(p, i - m, m);
      } else {
        forall j | 0 <= j && j + m < i + 1 ensures !RepeatAt(p, j, m) {
        }
        RepeatScanCorrect(p, m, i + 1, run + 1);
      }
    } else {
      forall j | 0 <= j && j + m < i + 1 ensures !RepeatAt(p, j, m) {
      }
      RepeatScanCorrect(p, m, i + 1, 1);
    }
  }

  /** hasRepeatingChars is true iff some rune repeats more than `maxRepeats` times in a row. */
  lemma HasRepeatingCharsCorrect(p: string, maxRepeats: int)
    ensures HasRepeatingChars(p, maxRepeats) <==> HasRunLongerThan(p, maxRepeats)
  {
    if maxRepeats > 0 && |p| > 0 {
      RepeatScanCorrect(p, maxRepeats, 1, 1);
    }
  }

  // ---------------------------------------------------------------------------
  // calculatePasswordEntropy (logarithm left to the caller)
  // ---------------------------------------------------------------------------

  /** The character pool: 26, 26, 10 and 32 for each class present. */
  function CharPool(p: string): (n: nat)
    ensures n <= 94
    ensures |p| > 0 ==> n > 0
  {
    assert |p| > 0 ==> IsLower(p[0]) || IsUpper(p[0]) || IsDigit(p[0]) || !IsAlnum(p[0]);
    (if exists i | 0 <= i < |p| :: IsLower(p[i]) then 26 else 0)
    + (if exists i | 0 <= i < |p| :: IsUpper(p[i]) then 26 else 0)
    + (if exists i | 0 <= i < |p| :: IsDigit(p[i]) then 10 else 0)
    + (if exists i | 0 <= i < |p| :: !IsAlnum(p[i]) then 32 else 0)
  }

  /** Byte length times log2 of the pool; `log2` is Go's math.Log2. */
  function Entropy(p: string, log2: nat -> real): real
  {
    if ByteLen(p) == 0 || CharPool(p) == 0 then 0.0
    else ByteLen(p) as real * log2(CharPool(p))
  }

  // ---------------------------------------------------------------------------
  // ValidatePassword
  // ---------------------------------------------------------------------------

  predicate HasUpper(p: string) { exists i | 0 <= i < |p| :: IsUpper(p[i]) }
  predicate HasLower(p: string) { exists i | 0 <= i < |p| :: IsLower(p[i]) }
  predicate HasDigit(p: string) { exists i | 0 <= i < |p| :: IsDigit(p[i]) }
  predicate HasSpecial(p: string, chars: string) { exists i | 0 <= i < |p| :: InClass(p[i], chars) }

  // ---------------------------------------------------------------------------
  // The special-character class `[` + QuoteMeta(chars) + `]`. QuoteMeta escapes
  // every regexp metacharacter except `-`, so a `-` with a rune on each side
  // makes a range from the rune before it to the rune after it; every other
  // rune, a leading or trailing `-` included, stands for itself.
  // ---------------------------------------------------------------------------

  /** The rune `c` matches the class built from `chars`. */
  predicate InClass(c: char, chars: string)
    decreases |chars|
  {
    if |chars| == 0 then false
    else if |chars| >= 3 && chars[1] == '-' then chars[0] <= c <= chars[2] || InClass(c, chars[3..])
    else c == chars[0] || InClass(c, chars[1..])
  }

  /** Every range of the class runs upwards; Go's regexp rejects the class otherwise. */
  predicate RangesAscend(chars: string)
    decreases |chars|
  {
    if |chars| == 0 then true
    else if |chars| >= 3 && chars[1] == '-' then chars[0] <= chars[2] && RangesAscend(chars[3..])
    else RangesAscend(chars[1..])
  }

  /** Without an interior `-` the class is exactly the set of its runes. */
  lemma {:induction false} ClassWithoutRangesIsSet(c: char, chars: string)
    requires forall i | 1 <= i < |chars| - 1 :: chars[i] != '-'
    ensures InClass(c, chars) <==> c in chars
    decreases |chars|
  {
    if |chars| > 0 {
      assert |chars| >= 3 ==> chars[1] != '-';
      var rest := chars[1..];
      assert forall i | 1 <= i < |rest| - 1 :: rest[i] == chars[i + 1];
      ClassWithoutRangesIsSet(c, rest);
      assert chars == [chars[0]] + rest;
    }
  }

  /** A well-formed class matches every rune of `chars` but a `-` that joins a range. */
  lemma {:induction false} ClassCoversRunes(c: char, chars: string)
    requires RangesAscend(chars) && c in chars && c != '-'
    ensures InClass(c, chars)
    decreases |chars|
  {
    if |chars| >= 3 && chars[1] == '-' {
      if c != chars[0] && c != chars[2] {
        assert chars == chars[..3] + chars[3..];
        assert c in chars[3..];
        ClassCoversRunes(c, chars[3..]);
      }
    } else if c != chars[0] {
      assert chars == [chars[0]] + chars[1..];
      ClassCoversRunes(c, chars[1..]);
    }
  }

  /** `WithSpecialChars("#-%")` builds the range `#` to `%`: it matches `$`, which the string does not hold, and not `-`. */
  lemma ClassRangeExample()
    ensures InClass('$', "#-%") && '$' !in "#-%"
    ensures !InClass('-', "#-%")
  {
  }

  /** The distinct runes of `p`. */
  function Runes(p: string): set<char> { set i | 0 <= i < |p| :: p[i] }

  predicate IsCommon(p: string) { ToLower(p) in CommonPasswords }

  /** A check in reporting order: whether it fires and the issue it reports. */
  type Check = (bool, Issue)

  /** The issues of the checks that fire, in order. */
  function Select(cs: seq<Check>): (r: seq<Issue>)
    ensures |r| <= |cs|
  {
    if |cs| == 0 then [] else (if cs[0].0 then [cs[0].1] else []) + Select(cs[1..])
  }

  predicate RanksIncrease(cs: seq<Check>) {
    forall a, b :: 0 <= a < b < |cs| ==> Rank(cs[a].1) < Rank(cs[b].1)
  }

  predicate Reported(cs: seq<Check>, x: Issue) {
    exists k :: 0 <= k < |cs| && cs[k].0 && cs[k].1 == x
  }

  /** Every selected issue comes from a firing check. */
  lemma {:induction false} SelectReported(cs: seq<Check>)
    ensures forall x :: x in Select(cs) ==> Reported(cs, x)
    decreases |cs|
  {
    if |cs| > 0 {
      var tail := cs[1..];
      SelectReported(tail);
      forall x | x in Select(tail) ensures Reported(cs, x) {
        var k :| 0 <= k < |tail| && tail[k].0 && tail[k].1 == x;
        assert cs[k + 1] == tail[k];
      }
    }
  }

  /** Issues in strictly increasing rank. */
  predicate RankSorted(s: seq<Issue>) {
    forall k :: 0 <= k < |s| - 1 ==> Rank(s[k]) < Rank(s[k + 1])
  }

  lemma RankedCons(h: Issue, t: seq<Issue>)
    requires RankSorted(t) && (|t| > 0 ==> Rank(h) < Rank(t[0]))
    ensures RankSorted([h] + t)
  {
    forall k | 0 <= k < |[h] + t| - 1 ensures Rank(([h] + t)[k]) < Rank(([h] + t)[k + 1]) {
      if k > 0 {
        assert ([h] + t)[k] == t[k - 1];
      }
    }
  }

  /** Every selected issue comes from a firing check, and the selection keeps the rank order. */
  lemma {:induction false} SelectSound(cs: seq<Check>)
    requires RanksIncrease(cs)
    ensures forall x :: x in Select(cs) ==> Reported(cs, x)
    ensures RankSorted(Select(cs))
    decreases |cs|
  {
    SelectReported(cs);
    if |cs| > 0 {
      var tail := cs[1..];
      SelectSound(tail);
      if cs[0].0 {
        assert Select(cs) == [cs[0].1] + Select(tail);
        if |Select(tail)| > 0 {
          var x := Select(tail)[0];
          assert x in Select(tail);
          var j :| 0 <= j < |tail| && tail[j].0 && tail[j].1 == x;
          assert cs[j + 1] == tail[j];
        }
        RankedCons(cs[0].1, Select(tail));
      } else {
        assert Select(cs) == Select(tail);
      }
    }
  }

  /** With ranks distinct, a check's issue is reported exactly when the check fires. */
  lemma SelectMember(cs: seq<Check>, k: nat)
    requires RanksIncrease(cs) && k < |cs|
    ensures cs[k].1 in Select(cs) <==> cs[k].0
  {
    SelectSound(cs);
    if cs[k].0 {
      SelectComplete(cs, k);
    }
  }

  lemma {:induction false} SelectComplete(cs: seq<Check>, k: nat)
    requires k < |cs| && cs[k].0
    ensures cs[k].1 in Select(cs)
    decreases |cs|
  {
    if k == 0 {
      assert Select(cs)[0] == cs[0].1;
    } else {
      SelectComplete(cs[1..], k - 1);
      assert Select(cs[1..]) <= Select(cs) || Select(cs) == [cs[0].1] + Select(cs[1..]);
    }
  }

  /** The `k`-th check of ValidatePassword, in the order the function runs them. */
  function CheckAt(p: string, R: PasswordRules, log2: nat -> real, k: nat): (c: Check)
    requires k < 11
    ensures Rank(c.1) == k
  {
    match k
    case 0 => (ByteLen(p) < R.minLength, TooShort(R.minLength))
    case 1 => (ByteLen(p) > R.maxLength, TooLong(R.maxLength))
    case 2 => (R.requireUppercase && !HasUpper(p), NoUppercase)
    case 3 => (R.requireLowercase && !HasLower(p), NoLowercase)
    case 4 => (R.requireNumeric && !HasDigit(p), NoDigit)
    case 5 => (R.requireSpecial && !HasSpecial(p, R.specialChars), NoSpecial(R.specialChars))
    case 6 => (|Runes(p)| < R.minUniqueChars, TooFewUnique(R.minUniqueChars))
    case 7 => (R.disallowKeyboard && HasKeyboardPattern(p), KeyboardSequence)
    case 8 => (R.maxRepeatingChars > 0 && HasRepeatingChars(p, R.maxRepeatingChars), Repeating(R.maxRepeatingChars))
    case 9 => (R.disallowCommon && IsCommon(p), CommonPassword)
    case _ => (Entropy(p, log2) < R.minEntropy, TooWeak)
  }

  function PasswordChecks(p: string, R: PasswordRules, log2: nat -> real): (cs: seq<Check>)
    ensures |cs| == 11 && RanksIncrease(cs)
    ensures forall k :: 0 <= k < 11 ==> cs[k] == CheckAt(p, R, log2, k)
  {
    seq(11, k requires 0 <= k < 11 => CheckAt(p, R, log2, k))
  }

  /** Each issue of ValidatePassword is reported exactly when its check fires. */
  lemma {:induction false} PasswordIssueIff(p: string, R: PasswordRules, log2: nat -> real, k: nat)
    requires k < 11
    ensures CheckAt(p, R, log2, k).1 in Select(PasswordChecks(p, R, log2)) <==> CheckAt(p, R, log2, k).0
  {
    SelectMember(PasswordChecks(p, R, log2), k);
  }

  /**
   * ValidatePassword: every check runs, in a fixed order, each adding at most
   * one issue. `log2` stands for math.Log2 in the entropy estimate.
   */
  function ValidatePassword(p: string, rules: Option<PasswordRules>, log2: nat -> real): (r: seq<Issue>)
    ensures rules.None? ==> r == []
    ensures forall k :: 0 <= k < |r| - 1 ==> Rank(r[k]) < Rank(r[k + 1])
    ensures rules.Some? ==>
      var R := rules.value;
      && (TooShort(R.minLength) in r <==> ByteLen(p) < R.minLength)
      && (TooLong(R.maxLength) in r <==> ByteLen(p) > R.maxLength)
      && (NoUppercase in r <==> R.requireUppercase && !HasUpper(p))
      && (NoLowercase in r <==> R.requireLowercase && !HasLower(p))
      && (NoDigit in r <==> R.requireNumeric && !HasDigit(p))
      && (NoSpecial(R.specialChars) in r <==> R.requireSpecial && !HasSpecial(p, R.specialChars))
      && (TooFewUnique(R.minUniqueChars) in r <==> |Runes(p)| < R.minUniqueChars)
      && (KeyboardSequence in r <==> R.disallowKeyboard && HasKeyboardPattern(p))
      && (Repeating(R.maxRepeatingChars) in r <==> HasRunLongerThan(p, R.maxRepeatingChars))
      && (CommonPassword in r <==> R.disallowCommon && IsCommon(p))
      && (TooWeak in r <==> Entropy(p, log2) < R.minEntropy)
  {
    if rules.None? then []
    else
      var R := rules.value;
      var cs := PasswordChecks(p, R, log2);
      HasRepeatingCharsCorrect(p, R.maxRepeatingChars);
      SelectSound(cs);
      PasswordIssueIff(p, R, log2, 0); PasswordIssueIff(p, R, log2, 1);
      PasswordIssueIff(p, R, log2, 2); PasswordIssueIff(p, R, log2, 3);
      PasswordIssueIff(p, R, log2, 4); PasswordIssueIff(p, R, log2, 5);
      PasswordIssueIff(p, R, log2, 6); PasswordIssueIff(p, R, log2, 7);
      PasswordIssueIff(p, R, log2, 8); PasswordIssueIff(p, R, log2, 9);
      PasswordIssueIff(p, R, log2, 10);
      Select(cs)
  }
}

=== FILE: payment.dfy ===
/**
 * Card-number and IBAN checks of rules/payment.go: the Luhn checksum, the card
 * brand patterns and the ISO 13616 IBAN check (ISO/IEC 7064 MOD 97-10).
 */
module Payment {
  import opened Text

  // ---------------------------------------------------------------------------
  // Luhn
  // ---------------------------------------------------------------------------

  /** What one digit adds to the Luhn sum, doubled or not (a doubled value above 9 loses 9). */
  function Contribution(d: nat, doubled: bool): (c: nat)
    requires d < 10
    ensures c < 10
  {
    if !doubled then d else if 2 * d > 9 then 2 * d - 9 else 2 * d
  }

  /** The loop of luhnCheck: `doubled` says whether the rune at the front is doubled. */
  function LuhnScan(s: string, doubled: bool, sum: nat): (ok: bool)
    ensures ok ==> AllDigits(s)
  {
    if |s| == 0 then sum % 10 == 0
    else if !IsDigit(s[0]) then false
    else LuhnScan(s[1..], !doubled, sum + Contribution(DigitValue(s[0]), doubled))
  }

  /** luhnCheck: the first rune is doubled iff the byte length is even. */
  function Luhn(s: string): (ok: bool)
    ensures ok ==> AllDigits(s)
  {
    LuhnScan(s, ByteLen(s) % 2 == 0, 0)
  }

  /** The Luhn sum taken left to right, with the doubling flag of the first digit. */
  function SumLeft(s: string, doubled: bool): nat
    requires AllDigits(s)
  {
    if |s| == 0 then 0 else Contribution(DigitValue(s[0]), doubled) + SumLeft(s[1..], !doubled)
  }

  /**
   * The Luhn sum as ISO/IEC 7812-1 Annex B defines it: from the rightmost digit
   * leftwards, doubling every second digit; `doubled` is the flag of the last digit.
   */
  function SumRight(s: string, doubled: bool): nat
    requires AllDigits(s)
  {
    if |s| == 0 then 0
    else Contribution(DigitValue(s[|s| - 1]), doubled) + SumRight(s[..|s| - 1], !doubled)
  }

  /** Reference definition: a digit string whose right-to-left Luhn sum is a multiple of 10. */
  predicate LuhnValid(s: string) {
    AllDigits(s) && SumRight(s, false) % 10 == 0
  }

  /** Whether the digit at index `i` is doubled when the first one's flag is `first`. */
  function FlagAt(first: bool, i: nat): bool {
    first != (i % 2 == 1)
  }

  lemma {:induction false} LuhnScanSum(s: string, doubled: bool, sum: nat)
    ensures LuhnScan(s, doubled, sum) <==> AllDigits(s) && (sum + SumLeft(s, doubled)) % 10 == 0
    decreases |s|
  {
    if |s| > 0 && IsDigit(s[0]) {
      LuhnScanSum(s[1..], !doubled, sum + Contribution(DigitValue(s[0]), doubled));
      assert AllDigits(s) <==> AllDigits(s[1..]);
    }
  }

  /** Peeling the last digit off the left-to-right sum. */
  lemma {:induction false} SumLeftLast(s: string, doubled: bool)
    requires AllDigits(s) && |s| > 0
    ensures SumLeft(s, doubled)
         == SumLeft(s[..|s| - 1], doubled) + Contribution(DigitValue(s[|s| - 1]), FlagAt(doubled, |s| - 1))
    decreases |s|
  {
    if |s| > 1 {
      var t, u := s[1..], s[..|s| - 1];
      assert AllDigits(t) && AllDigits(u);
      SumLeftLast(t, !doubled);
      assert t[..|t| - 1] == u[1..];
      assert t[|t| - 1] == s[|s| - 1] && u[0] == s[0];
      assert FlagAt(!doubled, |t| - 1) == FlagAt(doubled, |s| - 1);
    }
  }

  /** Left to right and right to left sums agree when the flags line up. */
  lemma {:induction false} SumLeftIsSumRight(s: string, doubled: bool)
    requires AllDigits(s) && |s| > 0
    ensures SumLeft(s, doubled) == SumRight(s, FlagAt(doubled, |s| - 1))
    decreases |s|
  {
    SumLeftLast(s, doubled);
    if |s| > 1 {
      SumLeftIsSumRight(s[..|s| - 1], doubled);
    }
  }

  /** luhnCheck is exactly the ISO/IEC 7812-1 check on digit strings and false otherwise. */
  lemma LuhnCorrect(s: string)
    ensures Luhn(s) <==> LuhnValid(s)
  {
    LuhnScanSum(s, ByteLen(s) % 2 == 0, 0);
    if AllDigits(s) {
      DigitsAreAscii(s);
      if |s| > 0 {
        SumLeftIsSumRight(s, |s| % 2 == 0);
      }
    }
  }

  /** luhnCheck accepts the empty string. */
  lemma LuhnEmpty()
    ensures Luhn("")
  {}

  /** Contribution is injective in the digit for a fixed flag. */
  lemma ContributionInjective(a: nat, b: nat, doubled: bool)
    requires a < 10 && b < 10 && a != b
    ensures Contribution(a, doubled) != Contribution(b, doubled)
  {}

  /** Two digit strings that differ only at `k` have sums differing by that digit's contributions. */
  lemma {:induction false} SumLeftOneDigit(s: string, t: string, k: nat, doubled: bool)
    requires AllDigits(s) && AllDigits(t) && |s| == |t| && k < |s|
    requires forall i :: 0 <= i < |s| && i != k ==> s[i] == t[i]
    ensures SumLeft(s, doubled) - SumLeft(t, doubled)
         == Contribution(DigitValue(s[k]), FlagAt(doubled, k)) - Contribution(DigitValue(t[k]), FlagAt(doubled, k))
    decreases k
  {
    if k == 0 {
      assert s[1..] == t[1..];
    } else {
      SumLeftOneDigit(s[1..], t[1..], k - 1, !doubled);
    }
  }

  /** Changing any single digit of a Luhn-valid number makes it invalid. */
  lemma LuhnDetectsSingleDigitError(s: string, t: string, k: nat)
    requires |s| == |t| && k < |s| && AllDigits(t)
    requires forall i :: 0 <= i < |s| && i != k ==> s[i] == t[i]
    requires s[k] != t[k]
    requires Luhn(s)
    ensures !Luhn(t)
  {
    var f := |s| % 2 == 0;
    LuhnScanSum(s, ByteLen(s) % 2 == 0, 0);
    LuhnScanSum(t, ByteLen(t) % 2 == 0, 0);
    DigitsAreAscii(s);
    DigitsAreAscii(t);
    SumLeftOneDigit(s, t, k, f);
    ContributionInjective(DigitValue(s[k]), DigitValue(t[k]), FlagAt(f, k));
    NearMultipleOfTen(SumLeft(s, f), SumLeft(t, f));
  }

  lemma NearMultipleOfTen(x: int, y: int)
    requires x % 10 == 0 && x != y && -10 < x - y < 10
    ensures y % 10 != 0
  {}

  // ---------------------------------------------------------------------------
  // IsValidCreditCard
  // ---------------------------------------------------------------------------

  /** Go's `\D` replaced by "": keep only the ASCII digits. */
  function StripNonDigits(s: string): (r: string)
    ensures AllDigits(r)
  {
    Filter(s, IsDigit)
  }

  const Brands: set<string> := {"visa", "mastercard", "amex"}

  /** The brand patterns; `n` holds digits only. */
  predicate BrandMatches(brand: string, n: string) {
    match brand
    case "visa" => (|n| == 13 || |n| == 16) && n[0] == '4'
    case "mastercard" => |n| == 16 && n[0] == '5' && '1' <= n[1] <= '5'
    case "amex" => |n| == 15 && n[0] == '3' && (n[1] == '4' || n[1] == '7')
    case _ => false
  }

  /** IsValidCreditCard; the brand "" means any brand. */
  function IsValidCreditCard(cardNumber: string, cardType: string): (ok: bool)
    ensures ok ==> LuhnValid(StripNonDigits(cardNumber))
    ensures cardType != "" && cardType !in Brands ==> !ok
    ensures cardType == "" ==> (ok <==> LuhnValid(StripNonDigits(cardNumber)))
    ensures cardType in Brands ==>
      (ok <==> BrandMatches(cardType, StripNonDigits(cardNumber)) && LuhnValid(StripNonDigits(cardNumber)))
  {
    var number := StripNonDigits(cardNumber);
    LuhnCorrect(number);
    if cardType != "" && !BrandMatches(cardType, number) then false
    else Luhn(number)
  }

  /** Non-digits never change the verdict: only the digit sequence matters. */
  lemma CreditCardDigitsOnly(a: string, b: string, cardType: string)
    requires StripNonDigits(a) == StripNonDigits(b)
    ensures IsValidCreditCard(a, cardType) == IsValidCreditCard(b, cardType)
  {}

  /** Stripping is idempotent, so a pre-stripped number gets the same verdict. */
  lemma CreditCardStripIdempotent(a: string, cardType: string)
    ensures IsValidCreditCard(StripNonDigits(a), cardType) == IsValidCreditCard(a, cardType)
  {
    FilterKeepsAll(StripNonDigits(a), IsDigit);
  }

  /** The brand patterns in terms of the digit count and leading digits. */
  lemma BrandShapes(n: string)
    requires AllDigits(n)
    ensures BrandMatches("visa", n) <==> |n| in {13, 16} && n[0] == '4'
    ensures BrandMatches("mastercard", n) <==> |n| == 16 && n[0] == '5' && n[1] in "12345"
    ensures BrandMatches("amex", n) <==> |n| == 15 && n[0] == '3' && n[1] in "47"
  {}

  // ---------------------------------------------------------------------------
  // IsValidIBAN
  // ---------------------------------------------------------------------------

  /** ibanCountryLengths. */
  const IbanLengths: map<string, nat> :=
    map["TR" := 26, "DE" := 22, "GB" := 22, "FR" := 27, "IT" := 27, "NL" := 18]

  /** Remove the spaces, then upper-case. */
  function NormalizeIban(s: string): (r: string)
    ensures |r| <= |s|
    ensures forall i :: 0 <= i < |r| ==> r[i] != ' ' && !IsLower(r[i])
  {
    ToUpper(Filter(s, c => c != ' '))
  }

  /** `^[A-Z]{2}\d{2}[A-Z0-9]{4,}$`. */
  predicate IbanShape(s: string) {
    && |s| >= 8
    && IsUpper(s[0]) && IsUpper(s[1]) && IsDigit(s[2]) && IsDigit(s[3])
    && forall i :: 4 <= i < |s| ==> IsUpper(s[i]) || IsDigit(s[i])
  }

  /** Move the country code and check digits to the end. */
  function Rearrange(s: string): (r: string)
    requires |s| >= 4
    ensures |r| == |s|
  {
    s[4..] + s[..4]
  }

  /** A letter becomes its two-digit value A = 10 ... Z = 35; a digit stays. */
  function ExpandChar(c: char): (r: string)
    ensures IsDigit(c) ==> r == [c]
    ensures AllDigits(r)
  {
    if IsUpper(c) then NatToString(c as int - 'A' as int + 10) else if IsDigit(c) then [c] else []
  }

  /** Each letter becomes exactly two digits denoting 10 to 35. */
  lemma ExpandLetter(c: char)
    requires IsUpper(c)
    ensures |ExpandChar(c)| == 2
    ensures DecimalValue(ExpandChar(c)) == c as int - 'A' as int + 10
  {
    var v := c as int - 'A' as int + 10;
    assert ExpandChar(c) == NatToString(v / 10) + ['0' + (v % 10) as char];
    assert NatToString(v / 10) == ['0' + (v / 10) as char];
    var e := ExpandChar(c);
    assert e[..1] == NatToString(v / 10);
    assert e[..1][..0] == [];
    assert DecimalValue(e[..1]) == v / 10;
    assert DecimalValue(e) == 10 * (v / 10) + v % 10;
  }

  function Expand(s: string): (r: string)
    ensures AllDigits(r)
  {
    if |s| == 0 then [] else ExpandChar(s[0]) + Expand(s[1..])
  }

  /** The number a decimal digit string denotes (Horner's rule, as big.Int.SetString). */
  function DecimalValue(s: string): nat
    requires AllDigits(s)
  {
    if |s| == 0 then 0 else 10 * DecimalValue(s[..|s| - 1]) + DigitValue(s[|s| - 1])
  }

  /** IsValidIBAN; the country "" means no length check. */
  function IsValidIBAN(iban: string, countryCode: string): (ok: bool)
    ensures ok ==> IbanShape(NormalizeIban(iban))
    ensures ok && countryCode != "" ==>
      countryCode in IbanLengths && |NormalizeIban(iban)| == IbanLengths[countryCode]
    ensures countryCode != "" && countryCode !in IbanLengths ==> !ok
    ensures countryCode in IbanLengths ==>
      (ok <==> |NormalizeIban(iban)| == IbanLengths[countryCode] && IbanShape(NormalizeIban(iban))
               && DecimalValue(Expand(Rearrange(NormalizeIban(iban)))) % 97 == 1)
    ensures countryCode == "" ==>
      (ok <==> IbanShape(NormalizeIban(iban))
               && DecimalValue(Expand(Rearrange(NormalizeIban(iban)))) % 97 == 1)
  {
    var s := NormalizeIban(iban);
    ShapeByteLen(s);
    if countryCode != "" && (countryCode !in IbanLengths || ByteLen(s) != IbanLengths[countryCode]) then false
    else if !IbanShape(s) then false
    else DecimalValue(Expand(Rearrange(s))) % 97 == 1
  }

  /** A string of IBAN shape is ASCII, so Go's byte length is its rune count. */
  lemma ShapeByteLen(s: string)
    ensures IbanShape(s) ==> ByteLen(s) == |s|
  {
    if IbanShape(s) {
      assert AllAscii(s) by {
        forall i | 0 <= i < |s| ensures IsAscii(s[i]) { assert i < 4 || IsUpper(s[i]) || IsDigit(s[i]); }
      }
      ByteLenBounds(s);
    }
  }

  lemma UpperIdempotent(s: string)
    ensures ToUpper(ToUpper(s)) == ToUpper(s)
  {
    forall i | 0 <= i < |s| ensures ToUpper(ToUpper(s))[i] == ToUpper(s)[i] {
      assert GoUpper(GoUpper(s[i])) == GoUpper(s[i]);
    }
  }

  /** Normalising twice is normalising once. */
  lemma NormalizeIbanIdempotent(s: string)
    ensures NormalizeIban(NormalizeIban(s)) == NormalizeIban(s)
  {
    var t := Filter(s, c => c != ' ');
    assert forall i :: 0 <= i < |ToUpper(t)| ==> ToUpper(t)[i] != ' ';
    FilterKeepsAll(ToUpper(t), c => c != ' ');
    UpperIdempotent(t);
  }

  /** Spaces and letter case of the input never change the verdict. */
  lemma IbanIgnoresSpacesAndCase(iban: string, countryCode: string)
    ensures IsValidIBAN(NormalizeIban(iban), countryCode) == IsValidIBAN(iban, countryCode)
  {
    NormalizeIbanIdempotent(iban);
  }

  lemma ModStep(a: nat, d: nat)
    ensures (10 * a + d) % 97 == (10 * (a % 97) + d) % 97
  {
    var q, r := a / 97, a % 97;
    var y := 10 * r + d;
    var q2, r2 := y / 97, y % 97;
    assert a == 97 * q + r;
    assert y == 97 * q2 + r2;
    assert 10 * a + d == 97 * (10 * q + q2) + r2;
  }

  /**
   * The piecewise remainder of ISO/IEC 7064 MOD 97-10: one digit at a time,
   * never holding more than two digits of state.
   */
  method Mod97(digits: string) returns (r: nat)
    requires AllDigits(digits)
    ensures r < 97
    ensures r == DecimalValue(digits) % 97
  {
    r := 0;
    var i := 0;
    while i < |digits|
      invariant 0 <= i <= |digits|
      invariant r == DecimalValue(digits[..i]) % 97
    {
      assert digits[..i + 1][..i] == digits[..i];
      ModStep(DecimalValue(digits[..i]), DigitValue(digits[i]));
      r := (10 * r + DigitValue(digits[i])) % 97;
      i := i + 1;
    }
    assert digits[..i] == digits;
  }

  /** The IBAN check computed with the piecewise remainder; it agrees with IsValidIBAN. */
  method CheckIban(iban: string, countryCode: string) returns (ok: bool)
    ensures ok == IsValidIBAN(iban, countryCode)
  {
    var s := NormalizeIban(iban);
    if countryCode != "" && (countryCode !in IbanLengths || ByteLen(s) != IbanLengths[countryCode]) {
      return false;
    }
    if !IbanShape(s) {
      return false;
    }
    var r := Mod97(Expand(Rearrange(s)));
    ok := r == 1;
  }
}

=== FILE: reports.dfy ===
/**
 * What a field check reports. Each check of types/ yields a `Failure`; the
 * text it becomes is fixed by `Render`, with the label the field resolved
 * and the translator the lookups read. The error map records a failure as
 * `Failed(failure, name)` and `Resolve` turns it into that text: the
 * translator does not change during a validation, so resolving at the end
 * gives the texts Go computes on the way.
 */
module Reports {
  import opened Values
  import opened Messages
  import opened Results
  import I18n
  import PasswordPolicy

  /** The text of each password policy issue (rules/password.go). */
  function IssueText(i: PasswordPolicy.Issue): (m: Msg)
    ensures !m.Failed?
  {
    match i
    case TooShort(n) => Sprintf("en az %d karakter uzunlu\U{011F}unda olmal\U{0131}d\U{0131}r", [I(n)])
    case TooLong(n) => Sprintf("en fazla %d karakter uzunlu\U{011F}unda olmal\U{0131}d\U{0131}r", [I(n)])
    case NoUppercase => Raw("en az bir b\U{00FC}y\U{00FC}k harf i\U{00E7}ermelidir")
    case NoLowercase => Raw("en az bir k\U{00FC}\U{00E7}\U{00FC}k harf i\U{00E7}ermelidir")
    case NoDigit => Raw("en az bir rakam i\U{00E7}ermelidir")
    case NoSpecial(chars) => Sprintf("en az bir \U{00F6}zel karakter i\U{00E7}ermelidir (%s)", [S(chars)])
    case TooFewUnique(n) => Sprintf("en az %d farkl\U{0131} karakter i\U{00E7}ermelidir", [I(n)])
    case KeyboardSequence => Raw("klavye d\U{00FC}zeninde s\U{0131}ral\U{0131} karakterler i\U{00E7}eremez")
    case Repeating(n) => Sprintf("en fazla %d adet tekrar eden karakter i\U{00E7}erebilir", [I(n)])
    case CommonPassword =>
      Raw("\U{00E7}ok yayg\U{0131}n bir \U{015F}ifre, l\U{00FC}tfen daha g\U{00FC}venli bir \U{015F}ifre se\U{00E7}in")
    case TooWeak =>
      Raw("yeterince karma\U{015F}\U{0131}k de\U{011F}il, l\U{00FC}tfen daha g\U{00FC}\U{00E7}l\U{00FC} bir \U{015F}ifre se\U{00E7}in")
  }

  /** Exactly the issues that carry a setting format it into their text; the others are fixed text. */
  lemma IssueTextFormatted(i: PasswordPolicy.Issue)
    ensures IssueText(i).Sprintf? <==> i.TooShort? || i.TooLong? || i.NoSpecial? || i.TooFewUnique? || i.Repeating?
  {
    match i
    case TooShort(_) =>
    case TooLong(_) =>
    case NoSpecial(_) =>
    case TooFewUnique(_) =>
    case Repeating(_) =>
    case _ =>
  }

  /** The message of a failed kind check. */
  function WrongTypeText(t: TypeName, L: Arg, tr: I18n.Translator): (m: Msg)
    ensures !m.Failed?
    ensures m.Raw? || (m.Sprintf? && |m.args| >= 1 && m.args[0] == L)
  {
    match t
    case StringType => I18n.Get(tr, I18n.KeyString, [L])
    case NumberType => I18n.Get(tr, I18n.KeyNumeric, [L])
    case BooleanType => I18n.Get(tr, I18n.KeyBoolean, [L])
    case DateType => I18n.Get(tr, I18n.KeyDate, [L])
    case ArrayType => Sprintf("%s alan\U{0131} dizi (array) tipinde olmal\U{0131}d\U{0131}r", [L])
    case ObjectType => I18n.Get(tr, I18n.KeyObject, [L])
  }

  function ContentText(c: ContentIssue, L: Arg, tr: I18n.Translator): (m: Msg)
    ensures !m.Failed?
    ensures m.Raw? || (m.Sprintf? && |m.args| >= 1 && m.args[0] == L)
  {
    match c
    case NotOneOf(allowed) => I18n.Get(tr, I18n.KeyOneOf, [L, M(Sprintf("%v", [Strs(allowed)]))])
    case WeakPassword(i) => Sprintf("%s %s", [L, M(IssueText(i))])
    case BadIP => I18n.Get(tr, I18n.KeyIP, [L])
    case BadPhone(country) => I18n.Get(tr, I18n.KeyPhone, [L, S(country)])
    case NotAlpha => I18n.Get(tr, I18n.KeyAlpha, [L])
    case NotAlphanumeric => I18n.Get(tr, I18n.KeyAlphanumeric, [L])
    case NotNumericText => I18n.Get(tr, I18n.KeyNumericString, [L])
    case MissingPrefix(p) => I18n.Get(tr, I18n.KeyStartsWith, [L, S(p)])
    case MissingSuffix(p) => I18n.Get(tr, I18n.KeyEndsWith, [L, S(p)])
    case MissingSubstring(p) => I18n.Get(tr, I18n.KeyContains, [L, S(p)])
  }

  function FormatText(f: FormatIssue, L: Arg, tr: I18n.Translator): (m: Msg)
    ensures !m.Failed?
    ensures m.Raw? || (m.Sprintf? && |m.args| >= 1 && m.args[0] == L)
  {
    match f
    case NoMatch => I18n.Get(tr, I18n.KeyRegex, [L])
    case BadMac => I18n.Get(tr, I18n.KeyMAC, [L])
    case BadHex => I18n.Get(tr, I18n.KeyHex, [L])
    case BadBase64 => I18n.Get(tr, I18n.KeyBase64, [L])
  }

  function AdvancedText(a: AdvancedIssue, L: Arg): (m: Msg)
    ensures m.Sprintf? && |m.args| >= 1 && m.args[0] == L
  {
    match a
    case NeedsTurkish => Sprintf("%s alan\U{0131}nda T\U{00FC}rk\U{00E7}e karakter bulunmal\U{0131}d\U{0131}r", [L])
    case ForbidsTurkish => Sprintf("%s alan\U{0131}nda T\U{00FC}rk\U{00E7}e karakter bulunmamal\U{0131}d\U{0131}r", [L])
    case BadDomain => Sprintf("%s alan\U{0131} ge\U{00E7}erli bir alan ad\U{0131} olmal\U{0131}d\U{0131}r", [L])
    case OutsideCharSet(cs) => Sprintf("%s alan\U{0131} '%s' karakter setine uymal\U{0131}d\U{0131}r", [L, S(cs)])
  }

  function NumberText(n: NumberIssue, L: Arg, tr: I18n.Translator): (m: Msg)
    ensures !m.Failed?
    ensures m.Raw? || (m.Sprintf? && |m.args| >= 1 && m.args[0] == L)
  {
    match n
    case NotInteger => I18n.Get(tr, I18n.KeyInteger, [L])
    case BelowMin(m) => I18n.Get(tr, I18n.KeyMin, [L, R(m)])
    case AboveMax(m) => I18n.Get(tr, I18n.KeyMax, [L, R(m)])
    case NotPositive => I18n.Get(tr, I18n.KeyPositive, [L])
    case NotNegative => I18n.Get(tr, I18n.KeyNegative, [L])
    case NotMultiple(m) => I18n.Get(tr, I18n.KeyMultipleOf, [L, R(m)])
    case OutsideRange(lo, hi) => I18n.Get(tr, I18n.KeyBetween, [L, R(lo), R(hi)])
  }

  function DateText(d: DateIssue, L: Arg, tr: I18n.Translator): (m: Msg)
    ensures !m.Failed?
    ensures m.Raw? || (m.Sprintf? && |m.args| >= 1 && m.args[0] == L)
  {
    match d
    case MinUnparsed(layout) => I18n.Get(tr, I18n.KeyDateFormat, [L, S(layout)])
    case MaxUnparsed(layout) => I18n.Get(tr, I18n.KeyDateFormat, [L, S(layout)])
    case BeforeMin(bound) => I18n.Get(tr, I18n.KeyDateMin, [L, S(bound)])
    case AfterMax(bound) => I18n.Get(tr, I18n.KeyDateMax, [L, S(bound)])
  }

  function ArrayText(a: ArrayIssue, L: Arg, tr: I18n.Translator): (m: Msg)
    ensures !m.Failed?
    ensures m.Raw? || (m.Sprintf? && |m.args| >= 1 && m.args[0] == L)
  {
    match a
    case TooFewElements(n) => Sprintf("%s alan\U{0131}nda en az %d eleman olmal\U{0131}d\U{0131}r", [L, I(n)])
    case TooManyElements(n) => Sprintf("%s alan\U{0131}nda en fazla %d eleman olmal\U{0131}d\U{0131}r", [L, I(n)])
    case EmptyArray => I18n.Get(tr, I18n.KeyNotEmpty, [L])
    case Duplicates => I18n.Get(tr, I18n.KeyUnique, [L])
    case NotContained(x) => I18n.Get(tr, I18n.KeyArrayContains, [L, V(x)])
  }

  /**
   * The message each failure is reported with, as the field types build it:
   * text, never a pending failure, that names the field's label first unless
   * its key has no template; a custom validator's message is kept as it is.
   */
  function Render(f: Failure, name: string, tr: I18n.Translator): (m: Msg)
    ensures f.UserFailure? ==> m == f.msg
    ensures !f.UserFailure? ==> !m.Failed?
    ensures !f.UserFailure? ==> m.Raw? || (m.Sprintf? && |m.args| >= 1 && m.args[0] == S(name))
  {
    var L := S(name);
    match f
    case MissingRequired => I18n.Get(tr, I18n.KeyRequired, [L])
    case WrongType(t) => WrongTypeText(t, L, tr)
    case Length(TooShort(n)) => I18n.Get(tr, I18n.KeyMinLength, [L, I(n)])
    case Length(TooLong(n)) => I18n.Get(tr, I18n.KeyMaxLength, [L, I(n)])
    case BadEmail => I18n.Get(tr, I18n.KeyEmail, [L])
    case BadUrl => I18n.Get(tr, I18n.KeyURL, [L])
    case Content(c) => ContentText(c, L, tr)
    case BadPattern(err) => Sprintf("%s: %s", [L, S(err)])
    case Format(x) => FormatText(x, L, tr)
    case Advanced(a) => AdvancedText(a, L)
    case Numeric(n) => NumberText(n, L, tr)
    case Dated(d) => DateText(d, L, tr)
    case Listed(a) => ArrayText(a, L, tr)
    case BadUuid => I18n.Get(tr, I18n.KeyUUID, [L])
    case BadIban => I18n.Get(tr, I18n.KeyIBAN, [L])
    case BadCard => I18n.Get(tr, I18n.KeyCreditCard, [L])
    case UserFailure(m) => m
  }

  /** One message per failure, in the same order. */
  function RenderAll(fs: seq<Failure>, name: string, tr: I18n.Translator): (ms: seq<Msg>)
    ensures |ms| == |fs|
    ensures forall i :: 0 <= i < |fs| ==> ms[i] == Render(fs[i], name, tr)
  {
    seq(|fs|, i requires 0 <= i < |fs| => Render(fs[i], name, tr))
  }

  /** A check in reporting order: whether it fails, and the failure it reports. */
  type Check = (bool, Failure)

  /** The failures of the checks that fail, in order. */
  function Select(cs: seq<Check>): (fs: seq<Failure>)
    ensures forall f :: f in fs <==> (true, f) in cs
    ensures |fs| <= |cs|
    decreases |cs|
  {
    if |cs| == 0 then []
    else
      assert forall c :: c in cs <==> c == cs[0] || c in cs[1..];
      (if cs[0].0 then [cs[0].1] else []) + Select(cs[1..])
  }

  /** No failure is reported twice. */
  predicate Distinct(fs: seq<Failure>) {
    forall i, j :: 0 <= i < j < |fs| ==> fs[i] != fs[j]
  }

  /** Checks that report different failures report each at most once. */
  lemma {:induction false} SelectDistinct(cs: seq<Check>)
    requires forall i, j :: 0 <= i < j < |cs| ==> cs[i].1 != cs[j].1
    ensures Distinct(Select(cs))
    decreases |cs|
  {
    if |cs| > 0 {
      var tail := cs[1..];
      assert forall i :: 0 <= i < |tail| ==> tail[i] == cs[i + 1];
      SelectDistinct(tail);
      assert (true, cs[0].1) !in tail;
      var head: seq<Failure> := if cs[0].0 then [cs[0].1] else [];
      assert Select(cs) == head + Select(tail);
      assert forall f :: f in head ==> f !in Select(tail);
    }
  }

  /** The custom validators' messages as failures, in order. */
  function UserFailures(ms: seq<Msg>): (fs: seq<Failure>)
    ensures |fs| == |ms|
    ensures forall i :: 0 <= i < |ms| ==> fs[i] == UserFailure(ms[i])
    ensures forall f :: f in fs ==> f.UserFailure?
    ensures forall m :: UserFailure(m) in fs <==> m in ms
  {
    seq(|ms|, i requires 0 <= i < |ms| => UserFailure(ms[i]))
  }

  /** Custom failures come last: nothing that is not one follows one. */
  predicate UserFailuresLast(fs: seq<Failure>) {
    forall i, j :: 0 <= i < j < |fs| && fs[i].UserFailure? ==> fs[j].UserFailure?
  }

  /** A field's own checks followed by its custom validators keep the custom failures last. */
  lemma ChecksThenUsers(checks: seq<Failure>, users: seq<Failure>)
    requires forall f :: f in checks ==> !f.UserFailure?
    requires forall f :: f in users ==> f.UserFailure?
    ensures UserFailuresLast(checks + users)
  {
    var fs := checks + users;
    assert forall i :: 0 <= i < |checks| ==> fs[i] == checks[i] && checks[i] in checks;
    assert forall j :: |checks| <= j < |fs| ==> fs[j] == users[j - |checks|] && users[j - |checks|] in users;
  }

  /** The message a failure is recorded with: a custom validator's own message as it is, any other failure with the label it was reported under. */
  function Record(f: Failure, name: string): (m: Msg)
    ensures f.UserFailure? ==> m == f.msg
    ensures !f.UserFailure? ==> m == Failed(f, name)
  {
    if f.UserFailure? then f.msg else Failed(f, name)
  }

  function RecordAll(fs: seq<Failure>, name: string): (ms: seq<Msg>)
    ensures |ms| == |fs|
    ensures forall i :: 0 <= i < |fs| ==> ms[i] == Record(fs[i], name)
  {
    seq(|fs|, i requires 0 <= i < |fs| => Record(fs[i], name))
  }

  /** A check's failure is among the records exactly when it is among the failures, provided no custom message looks like a record. */
  lemma RecordedFailure(fs: seq<Failure>, name: string, x: Failure)
    requires !x.UserFailure?
    requires forall g :: g in fs && g.UserFailure? ==> !g.msg.Failed?
    ensures Failed(x, name) in RecordAll(fs, name) <==> x in fs
  {
    var ms := RecordAll(fs, name);
    if x in fs {
      var i :| 0 <= i < |fs| && fs[i] == x;
      assert ms[i] == Failed(x, name);
    }
  }

  /** A custom validator's messages are recorded exactly as it returned them. */
  lemma UserFailuresRecordBack(ms: seq<Msg>, name: string)
    ensures RecordAll(UserFailures(ms), name) == ms
  {}

  /** The text of a recorded message: a recorded failure is rendered, any other message is already text. */
  function Resolve(m: Msg, tr: I18n.Translator): (t: Msg)
    ensures !m.Failed? ==> t == m
    ensures m.Failed? ==> t == Render(m.failure, m.name, tr)
    ensures !(m.Failed? && m.failure.UserFailure? && m.failure.msg.Failed?) ==> !t.Failed?
  {
    match m
    case Failed(f, name) => Render(f, name, tr)
    case _ => m
  }

  /**
   * The texts Go writes without the translator (the array kind check, the
   * element counts, the advanced checks, a bad pattern, a weak password) are
   * the same whatever the locale.
   */
  lemma UntranslatedTexts(f: Failure, name: string, tr1: I18n.Translator, tr2: I18n.Translator)
    requires || f == WrongType(ArrayType) || f.Advanced? || f.BadPattern?
             || (f.Listed? && (f.listing.TooFewElements? || f.listing.TooManyElements?))
             || (f.Content? && f.content.WeakPassword?)
    ensures Render(f, name, tr1) == Render(f, name, tr2)
  {
  }

  /** Recording then resolving gives the message Go adds on the spot. */
  lemma ResolveRecorded(f: Failure, name: string, tr: I18n.Translator)
    requires f.UserFailure? ==> !f.msg.Failed?
    ensures Resolve(Record(f, name), tr) == Render(f, name, tr)
  {}

  /** The error map as texts: every key keeps its messages, in order, each resolved. */
  function Texts(errs: ErrorMap, tr: I18n.Translator): (r: ErrorMap)
    ensures r.Keys == errs.Keys
    ensures forall k :: k in errs ==> |r[k]| == |errs[k]|
    ensures forall k, i :: k in errs && 0 <= i < |errs[k]| ==> r[k][i] == Resolve(errs[k][i], tr)
  {
    map k | k in errs :: seq(|errs[k]|, i requires 0 <= i < |errs[k]| => Resolve(errs[k][i], tr))
  }

  /**
   * Report the failures under the field's key: its list grows by their
   * records, in order; every other key keeps its list.
   */
  function Report(errs: ErrorMap, field: string, fs: seq<Failure>, name: string): (r: ErrorMap)
    ensures MessagesOf(r, field) == MessagesOf(errs, field) + RecordAll(fs, name)
    ensures forall k :: k != field ==> (k in r <==> k in errs) && MessagesOf(r, k) == MessagesOf(errs, k)
    ensures HasErrors(r) <==> HasErrors(errs) || |fs| > 0
    ensures fs == [] ==> r == errs
    ensures WellFormed(errs) ==> WellFormed(r)
    ensures Extends(errs, r)
  {
    var r := AddErrors(errs, field, RecordAll(fs, name));
    AddErrorsExtends(errs, field, RecordAll(fs, name));
    assert |fs| > 0 ==> field in r;
    r
  }
}

=== FILE: results.dfy ===
/**
 * The error accumulator of core/result.go. A `ValidationResult` is a value:
 * every operation that adds errors returns the extended map instead of
 * mutating a shared `*ValidationResult`.
 */
module Results {
  import opened Values
  import opened Messages

  /** Messages per field key, in the order they were added. */
  type ErrorMap = map<string, seq<Msg>>

  /** `errors[field]`: a key that was never written reads as the empty list. */
  function MessagesOf(errs: ErrorMap, field: string): (ms: seq<Msg>)
    ensures field !in errs ==> ms == []
  {
    if field in errs then errs[field] else []
  }

  /** Every key present carries at least one message: the maps AddError builds. */
  predicate WellFormed(errs: ErrorMap) {
    forall k :: k in errs ==> |errs[k]| > 0
  }

  /** HasErrors: some key is present. */
  predicate HasErrors(errs: ErrorMap) {
    |errs| > 0
  }

  /** On a well-formed map, having errors means some key holds a message. */
  lemma HasErrorsMeansMessage(errs: ErrorMap)
    requires WellFormed(errs)
    ensures HasErrors(errs) <==> exists k :: |MessagesOf(errs, k)| > 0
  {
    if HasErrors(errs) {
      var k :| k in errs;
      assert |MessagesOf(errs, k)| > 0;
    }
  }

  /** AddError: append one message to a field's list; every other key keeps its list. */
  function AddError(errs: ErrorMap, field: string, msg: Msg): (r: ErrorMap)
    ensures MessagesOf(r, field) == MessagesOf(errs, field) + [msg]
    ensures forall k :: k != field ==> (k in r <==> k in errs) && MessagesOf(r, k) == MessagesOf(errs, k)
    ensures WellFormed(errs) ==> WellFormed(r)
    ensures HasErrors(r)
  {
    errs[field := MessagesOf(errs, field) + [msg]]
  }

  /** One AddError per message, in order: the loops that report a list of failures. */
  function {:induction false} AddErrors(errs: ErrorMap, field: string, msgs: seq<Msg>): (r: ErrorMap)
    ensures MessagesOf(r, field) == MessagesOf(errs, field) + msgs
    ensures forall k :: k != field ==> (k in r <==> k in errs) && MessagesOf(r, k) == MessagesOf(errs, k)
    ensures field in r <==> field in errs || |msgs| > 0
    ensures WellFormed(errs) ==> WellFormed(r)
    decreases |msgs|
  {
    if |msgs| == 0 then errs
    else
      var r := AddErrors(AddError(errs, field, msgs[0]), field, msgs[1..]);
      assert [msgs[0]] + msgs[1..] == msgs;
      r
  }

  /** Each key's list in `b` starts with its list in `a`: `b` only ever appended to `a`. */
  predicate Extends(a: ErrorMap, b: ErrorMap) {
    forall k :: k in a ==> k in b && a[k] <= b[k]
  }

  lemma ExtendsRefl(a: ErrorMap)
    ensures Extends(a, a)
  {}

  lemma ExtendsTrans(a: ErrorMap, b: ErrorMap, c: ErrorMap)
    requires Extends(a, b) && Extends(b, c)
    ensures Extends(a, c)
  {}

  /** Errors are never taken back: once present they stay. */
  lemma ExtendsKeepsErrors(a: ErrorMap, b: ErrorMap)
    requires Extends(a, b) && HasErrors(a)
    ensures HasErrors(b)
  {
    var k :| k in a;
    assert k in b;
  }

  lemma AddErrorsExtends(errs: ErrorMap, field: string, msgs: seq<Msg>)
    ensures Extends(errs, AddErrors(errs, field, msgs))
  {
    var r := AddErrors(errs, field, msgs);
    forall k | k in errs ensures k in r && errs[k] <= r[k] {
      assert MessagesOf(errs, k) == errs[k];
    }
  }

  lemma AddErrorExtends(errs: ErrorMap, field: string, msg: Msg)
    ensures Extends(errs, AddError(errs, field, msg))
  {
    var r := AddError(errs, field, msg);
    forall k | k in errs ensures k in r && errs[k] <= r[k] {
      assert MessagesOf(errs, k) == errs[k];
    }
  }

  /**
   * The sub-schema merge of validator.go: each key's messages from `sub` are
   * appended after those already in `errs`.
   */
  function MergeErrors(errs: ErrorMap, sub: ErrorMap): (r: ErrorMap)
    ensures forall k :: MessagesOf(r, k) == MessagesOf(errs, k) + MessagesOf(sub, k)
    ensures r.Keys == errs.Keys + sub.Keys
    ensures WellFormed(errs) && WellFormed(sub) ==> WellFormed(r)
  {
    map k | k in errs.Keys + sub.Keys :: MessagesOf(errs, k) + MessagesOf(sub, k)
  }

  /** Merging keeps every earlier message in place. */
  lemma MergeExtends(errs: ErrorMap, sub: ErrorMap)
    ensures Extends(errs, MergeErrors(errs, sub))
  {
    var r := MergeErrors(errs, sub);
    forall k | k in errs ensures k in r && errs[k] <= r[k] {
      assert MessagesOf(errs, k) == errs[k];
    }
  }

  /** The Go loop: visit `sub`'s keys in some order and AddError each message of each key. */
  function {:induction false} MergeInOrder(errs: ErrorMap, sub: ErrorMap, keys: seq<string>): ErrorMap
    decreases |keys|
  {
    if |keys| == 0 then errs
    else MergeInOrder(AddErrors(errs, keys[0], MessagesOf(sub, keys[0])), sub, keys[1..])
  }

  /** Two maps with the same keys and the same list under every key are equal. */
  lemma SameListsSameMap(a: ErrorMap, b: ErrorMap)
    requires a.Keys == b.Keys
    requires forall k :: MessagesOf(a, k) == MessagesOf(b, k)
    ensures a == b
  {
    forall k | k in a ensures a[k] == b[k] {
      assert MessagesOf(a, k) == MessagesOf(b, k);
    }
  }

  /** Dropping the first of a list of distinct keys drops exactly that key from the set. */
  lemma DistinctTail(keys: seq<string>, rest: ErrorMap)
    requires |keys| > 0
    requires forall i, j :: 0 <= i < j < |keys| ==> keys[i] != keys[j]
    requires forall k :: k in rest <==> k in keys
    ensures forall i, j :: 0 <= i < j < |keys[1..]| ==> keys[1..][i] != keys[1..][j]
    ensures forall k :: k in rest - {keys[0]} <==> k in keys[1..]
  {
    forall k ensures k in rest - {keys[0]} <==> k in keys[1..] {
      if k in keys[1..] {
        var j :| 0 <= j < |keys[1..]| && keys[1..][j] == k;
        assert keys[j + 1] == k && keys[0] != keys[j + 1];
      }
      if k in rest && k != keys[0] {
        var j :| 0 <= j < |keys| && keys[j] == k;
        assert keys[1..][j - 1] == k;
      }
    }
  }

  /**
   * Map iteration order does not matter: visiting the keys of `sub` in any order,
   * each exactly once, gives `MergeErrors`.
   */
  lemma MergeOrderIrrelevant(errs: ErrorMap, sub: ErrorMap, keys: seq<string>)
    requires WellFormed(sub)
    requires forall i, j :: 0 <= i < j < |keys| ==> keys[i] != keys[j]
    requires forall k :: k in sub <==> k in keys
    ensures MergeInOrder(errs, sub, keys) == MergeErrors(errs, sub)
  {
    MergeRest(errs, sub, sub, keys);
  }

  lemma MergeStepAt(errs: ErrorMap, rest: ErrorMap, k0: string, k: string)
    requires k0 in rest
    ensures MessagesOf(MergeErrors(AddErrors(errs, k0, rest[k0]), rest - {k0}), k)
         == MessagesOf(MergeErrors(errs, rest), k)
  {
    var e1 := AddErrors(errs, k0, rest[k0]);
    if k == k0 {
      calc {
        MessagesOf(MergeErrors(e1, rest - {k0}), k);
        MessagesOf(e1, k) + MessagesOf(rest - {k0}, k);
        { assert MessagesOf(rest - {k0}, k) == []; }
        MessagesOf(e1, k) + [];
        { assert MessagesOf(e1, k) + [] == MessagesOf(e1, k); }
        MessagesOf(errs, k) + rest[k0];
      }
    } else {
      assert MessagesOf(rest - {k0}, k) == MessagesOf(rest, k);
    }
  }

  /** Appending one key's messages first, then merging the other keys, is the whole merge. */
  lemma MergeStep(errs: ErrorMap, rest: ErrorMap, k0: string)
    requires k0 in rest && |rest[k0]| > 0
    ensures MergeErrors(AddErrors(errs, k0, rest[k0]), rest - {k0}) == MergeErrors(errs, rest)
  {
    var e1 := AddErrors(errs, k0, rest[k0]);
    var lhs := MergeErrors(e1, rest - {k0});
    var rhs := MergeErrors(errs, rest);
    forall k ensures (k in lhs <==> k in rhs) && MessagesOf(lhs, k) == MessagesOf(rhs, k) {
      assert k in lhs <==> k in e1 || k in rest - {k0};
      assert k in rhs <==> k in errs || k in rest;
      assert k in e1 <==> k in errs || k == k0;
      MergeStepAt(errs, rest, k0, k);
    }
    assert lhs.Keys == rhs.Keys;
    SameListsSameMap(lhs, rhs);
  }

  /** The induction behind MergeOrderIrrelevant: the keys still to visit are those of `rest`. */
  lemma {:induction false} MergeRest(errs: ErrorMap, sub: ErrorMap, rest: ErrorMap, keys: seq<string>)
    requires WellFormed(rest)
    requires forall i, j :: 0 <= i < j < |keys| ==> keys[i] != keys[j]
    requires forall k :: k in rest <==> k in keys
    requires forall k :: k in rest ==> k in sub && sub[k] == rest[k]
    ensures MergeInOrder(errs, sub, keys) == MergeErrors(errs, rest)
    decreases |keys|
  {
    if |keys| == 0 {
      assert rest.Keys == {};
      SameListsSameMap(MergeErrors(errs, rest), errs);
    } else {
      var k0 := keys[0];
      var e1 := AddErrors(errs, k0, MessagesOf(sub, k0));
      var rest' := rest - {k0};
      DistinctTail(keys, rest);
      assert MergeInOrder(errs, sub, keys) == MergeInOrder(e1, sub, keys[1..]);
      MergeRest(e1, sub, rest', keys[1..]);
      assert k0 in rest;
      MergeStep(errs, rest, k0);
    }
  }

  /** A result: the error lists and, when validation succeeded, the data that passed. */
  datatype ValidationResult = ValidationResult(errors: ErrorMap, validData: map<string, Value>)

  /** NewResult: no errors and no valid data. */
  const NewResult: ValidationResult := ValidationResult(map[], map[])

  /** SetValidData replaces the data and leaves the errors as they were. */
  function SetValidData(r: ValidationResult, data: map<string, Value>): (r': ValidationResult)
    ensures r'.validData == data && r'.errors == r.errors
    ensures HasErrors(r'.errors) == HasErrors(r.errors)
  {
    r.(validData := data)
  }
}

=== FILE: schema.dfy ===
/**
 * ValidationSchema (validator.go): a shape of named fields, cross-field
 * validators and conditional sub-schemas, and the five passes of Validate:
 * transform every declared field, validate every field on the transformed
 * map, run the conditional sub-schemas whose trigger matches, run the cross
 * validators if nothing failed so far, and keep the transformed map as the
 * valid data if nothing failed at all.
 *
 * The passes are written for any `FieldOps`, the transform and the own
 * checks of a field; `TypedOps` gives the ones of types/.
 */
module Schema {
  import opened Wrappers
  import opened Values
  import opened Messages
  import opened Results
  import opened Fields
  import opened Evaluation

  /** The key cross-field validation errors are recorded under. */
  const CrossKey: string := "_cross_validation"

  /** `Dönüşüm hatası: <err>`, recorded under a field whose transform failed. */
  function TransformMessage(err: string): Msg {
    Sprintf("D\U{00F6}n\U{00FC}\U{015F}\U{00FC}m hatas\U{0131}: %s", [S(err)])
  }

  /** A cross-field validator: none, or the text of the error it returns. */
  type CrossValidator = map<string, Value> -> Option<string>

  /** What a schema needs of its fields: how each transforms its input and what it checks once past the gate. */
  datatype FieldOps = FieldOps(transform: (Field, Value) -> Result<Value>, checks: Checks)

  /** The field operations of types/, given the collaborators in `env`. */
  function TypedOps(env: Env): (ops: FieldOps)
    ensures forall f, v :: ops.transform(f, v) == Transform(f, v, env)
    ensures forall f, v :: ops.checks(f, v) == OwnFailures(f, v, env)
  {
    FieldOps((f: Field, v: Value) => Transform(f, v, env), OwnChecks(env))
  }

  /**
   * A When rule: if the transformed map holds `field` and its value equals
   * `expected`, the schema the callback returns validates the same map.
   * The callback is represented by the schema it returns.
   */
  datatype Conditional = Conditional(field: string, expected: Value, sub: ValidationSchema)

  datatype ValidationSchema = ValidationSchema(shape: seq<Entry>, cross: seq<CrossValidator>, conditionals: seq<Conditional>)

  // ---------------------------------------------------------------------------
  // Building a schema
  // ---------------------------------------------------------------------------

  /** Make: no fields, no cross validators, no rules. */
  const Make: ValidationSchema := ValidationSchema([], [], [])

  /** Shape replaces the whole field map and keeps the validators and rules. */
  function WithShape(s: ValidationSchema, shape: seq<Entry>): (r: ValidationSchema)
    ensures r.shape == shape
    ensures r.cross == s.cross && r.conditionals == s.conditionals
  {
    s.(shape := shape)
  }

  /** CrossValidate appends one validator after the earlier ones and changes nothing else. */
  function CrossValidate(s: ValidationSchema, fn: CrossValidator): (r: ValidationSchema)
    ensures |r.cross| == |s.cross| + 1
    ensures r.cross[..|s.cross|] == s.cross && r.cross[|s.cross|] == fn
    ensures r.shape == s.shape && r.conditionals == s.conditionals
  {
    s.(cross := s.cross + [fn])
  }

  /** When appends one rule after the earlier ones and changes nothing else. */
  function When(s: ValidationSchema, field: string, expected: Value, sub: ValidationSchema): (r: ValidationSchema)
    ensures |r.conditionals| == |s.conditionals| + 1
    ensures r.conditionals[..|s.conditionals|] == s.conditionals
    ensures r.conditionals[|s.conditionals|] == Conditional(field, expected, sub)
    ensures r.shape == s.shape && r.cross == s.cross
  {
    s.(conditionals := s.conditionals + [Conditional(field, expected, sub)])
  }

  // ---------------------------------------------------------------------------
  // The transform pass
  // ---------------------------------------------------------------------------

  /** The entry at `j` transforms its input without error. */
  predicate TransformsAt(shape: seq<Entry>, data: map<string, Value>, ops: FieldOps, j: int)
    requires 0 <= j < |shape|
  {
    ops.transform(shape[j].field, Lookup(data, shape[j].name)).Success?
  }

  /**
   * Step 1 from entry `i` on: each declared field's input (nil when absent)
   * through its transform; a success is stored under the field's name, a
   * failure is recorded under it and leaves the name out of the map.
   */
  function TransformPass(shape: seq<Entry>, data: map<string, Value>, ops: FieldOps, i: nat,
                         t: map<string, Value>, errs: ErrorMap): (r: (map<string, Value>, ErrorMap))
    requires i <= |shape|
    ensures Extends(errs, r.1)
    ensures WellFormed(errs) ==> WellFormed(r.1)
    decreases |shape| - i
  {
    if i == |shape| then
      ExtendsRefl(errs);
      (t, errs)
    else
      var e := shape[i];
      match ops.transform(e.field, Lookup(data, e.name))
      case Failure(err) =>
        var errs' := AddError(errs, e.name, TransformMessage(err));
        AddErrorExtends(errs, e.name, TransformMessage(err));
        var r := TransformPass(shape, data, ops, i + 1, t, errs');
        ExtendsTrans(errs, errs', r.1);
        r
      case Success(x) =>
        TransformPass(shape, data, ops, i + 1, t[e.name := x], errs)
  }

  /** The transformed map of step 1. */
  function Transformed(shape: seq<Entry>, data: map<string, Value>, ops: FieldOps): map<string, Value> {
    TransformPass(shape, data, ops, 0, map[], map[]).0
  }

  /** The errors of step 1. */
  function TransformErrors(shape: seq<Entry>, data: map<string, Value>, ops: FieldOps): ErrorMap {
    TransformPass(shape, data, ops, 0, map[], map[]).1
  }

  /** Some entry from `i` on fails to transform. */
  predicate SomeTransformFails(shape: seq<Entry>, data: map<string, Value>, ops: FieldOps, i: nat) {
    exists j :: i <= j < |shape| && !TransformsAt(shape, data, ops, j)
  }

  /** Some entry from `i` on is named `k` and transforms. */
  predicate TransformsUnder(shape: seq<Entry>, data: map<string, Value>, ops: FieldOps, i: nat, k: string) {
    exists j :: i <= j < |shape| && shape[j].name == k && TransformsAt(shape, data, ops, j)
  }

  /** The transform pass records an error exactly when some entry fails to transform. */
  lemma {:induction false} TransformPassVerdict(shape: seq<Entry>, data: map<string, Value>, ops: FieldOps, i: nat,
                                                t: map<string, Value>, errs: ErrorMap)
    requires i <= |shape|
    ensures HasErrors(TransformPass(shape, data, ops, i, t, errs).1) <==> HasErrors(errs) || SomeTransformFails(shape, data, ops, i)
    decreases |shape| - i
  {
    if i < |shape| {
      var e := shape[i];
      match ops.transform(e.field, Lookup(data, e.name))
      case Failure(err) =>
        TransformPassVerdict(shape, data, ops, i + 1, t, AddError(errs, e.name, TransformMessage(err)));
        assert !TransformsAt(shape, data, ops, i);
      case Success(x) =>
        TransformPassVerdict(shape, data, ops, i + 1, t[e.name := x], errs);
        if SomeTransformFails(shape, data, ops, i) {
          var j :| i <= j < |shape| && !TransformsAt(shape, data, ops, j);
          assert j != i;
          assert SomeTransformFails(shape, data, ops, i + 1);
        }
    }
  }

  /** The transformed map after entry `i`: its name bound to its value when it transforms. */
  function StepMap(shape: seq<Entry>, data: map<string, Value>, ops: FieldOps, i: nat, t: map<string, Value>): (t': map<string, Value>)
    requires i < |shape|
    ensures forall k :: k in t' <==> k in t || (k == shape[i].name && TransformsAt(shape, data, ops, i))
    ensures forall k :: k in t && k != shape[i].name ==> t'[k] == t[k]
  {
    var x := ops.transform(shape[i].field, Lookup(data, shape[i].name));
    if x.Success? then t[shape[i].name := x.value] else t
  }

  /** The errors after entry `i`: the transform message under its name when it fails. */
  function StepErrs(shape: seq<Entry>, data: map<string, Value>, ops: FieldOps, i: nat, errs: ErrorMap): ErrorMap
    requires i < |shape|
  {
    var x := ops.transform(shape[i].field, Lookup(data, shape[i].name));
    if x.Success? then errs else AddError(errs, shape[i].name, TransformMessage(x.error))
  }

  /** One step of the transform pass. */
  lemma TransformStep(shape: seq<Entry>, data: map<string, Value>, ops: FieldOps, i: nat, t: map<string, Value>, errs: ErrorMap)
    requires i < |shape|
    ensures TransformPass(shape, data, ops, i, t, errs)
         == TransformPass(shape, data, ops, i + 1, StepMap(shape, data, ops, i, t), StepErrs(shape, data, ops, i, errs))
  {
  }

  /** The transformed map holds the names of the entries that transform, and the keys it started with. */
  lemma {:induction false} TransformPassKeys(shape: seq<Entry>, data: map<string, Value>, ops: FieldOps, i: nat,
                                             t: map<string, Value>, errs: ErrorMap, k: string)
    requires i <= |shape|
    ensures k in TransformPass(shape, data, ops, i, t, errs).0 <==> k in t || TransformsUnder(shape, data, ops, i, k)
    decreases |shape| - i
  {
    if i < |shape| {
      var t', errs' := StepMap(shape, data, ops, i, t), StepErrs(shape, data, ops, i, errs);
      TransformStep(shape, data, ops, i, t, errs);
      TransformPassKeys(shape, data, ops, i + 1, t', errs', k);
      if TransformsUnder(shape, data, ops, i, k) {
        var j :| i <= j < |shape| && shape[j].name == k && TransformsAt(shape, data, ops, j);
        assert j == i || TransformsUnder(shape, data, ops, i + 1, k);
      }
      if TransformsUnder(shape, data, ops, i + 1, k) {
        var j :| i + 1 <= j < |shape| && shape[j].name == k && TransformsAt(shape, data, ops, j);
        assert TransformsUnder(shape, data, ops, i, k);
      }
    }
  }

  /** A key the entries from `i` on do not declare keeps the value it started with. */
  lemma {:induction false} TransformPassKeeps(shape: seq<Entry>, data: map<string, Value>, ops: FieldOps, i: nat,
                                              t: map<string, Value>, errs: ErrorMap, k: string)
    requires i <= |shape| && k in t && !DeclaredFrom(shape, i, k)
    ensures k in TransformPass(shape, data, ops, i, t, errs).0
    ensures TransformPass(shape, data, ops, i, t, errs).0[k] == t[k]
    decreases |shape| - i
  {
    if i < |shape| {
      var e := shape[i];
      assert e.name != k;
      var x := ops.transform(e.field, Lookup(data, e.name));
      var t' := if x.Success? then t[e.name := x.value] else t;
      var errs' := if x.Success? then errs else AddError(errs, e.name, TransformMessage(x.error));
      assert TransformPass(shape, data, ops, i, t, errs) == TransformPass(shape, data, ops, i + 1, t', errs');
      TransformPassKeeps(shape, data, ops, i + 1, t', errs', k);
    }
  }

  /** With distinct names, each declared field that transforms holds its transformed value. */
  lemma {:induction false} TransformPassValues(shape: seq<Entry>, data: map<string, Value>, ops: FieldOps, i: nat,
                                               t: map<string, Value>, errs: ErrorMap, j: nat)
    requires DistinctNames(shape) && i <= j < |shape| && TransformsAt(shape, data, ops, j)
    ensures shape[j].name in TransformPass(shape, data, ops, i, t, errs).0
    ensures TransformPass(shape, data, ops, i, t, errs).0[shape[j].name] == ops.transform(shape[j].field, Lookup(data, shape[j].name)).value
    decreases |shape| - i
  {
    var e := shape[i];
    match ops.transform(e.field, Lookup(data, e.name))
    case Failure(err) =>
      TransformPassValues(shape, data, ops, i + 1, t, AddError(errs, e.name, TransformMessage(err)), j);
    case Success(x) =>
      if i == j {
        TransformPassKeeps(shape, data, ops, i + 1, t[e.name := x], errs, e.name);
      } else {
        TransformPassValues(shape, data, ops, i + 1, t[e.name := x], errs, j);
      }
  }

  /** With distinct names, a field whose transform fails gets exactly the transform message under its name. */
  lemma {:induction false} TransformPassMessage(shape: seq<Entry>, data: map<string, Value>, ops: FieldOps, i: nat,
                                                t: map<string, Value>, errs: ErrorMap, j: nat)
    requires DistinctNames(shape) && i <= j < |shape| && !TransformsAt(shape, data, ops, j)
    ensures MessagesOf(TransformPass(shape, data, ops, i, t, errs).1, shape[j].name) ==
      MessagesOf(errs, shape[j].name) + [TransformMessage(ops.transform(shape[j].field, Lookup(data, shape[j].name)).error)]
    decreases |shape| - i
  {
    var e := shape[i];
    var name := shape[j].name;
    match ops.transform(e.field, Lookup(data, e.name))
    case Failure(err) =>
      var errs' := AddError(errs, e.name, TransformMessage(err));
      if i == j {
        TransformPassUntouched(shape, data, ops, i + 1, t, errs', name);
      } else {
        TransformPassMessage(shape, data, ops, i + 1, t, errs', j);
      }
    case Success(x) =>
      TransformPassMessage(shape, data, ops, i + 1, t[e.name := x], errs, j);
  }

  /** A key no entry from `i` on declares keeps its messages through the transform pass. */
  lemma {:induction false} TransformPassUntouched(shape: seq<Entry>, data: map<string, Value>, ops: FieldOps, i: nat,
                                                  t: map<string, Value>, errs: ErrorMap, k: string)
    requires i <= |shape| && !DeclaredFrom(shape, i, k)
    ensures MessagesOf(TransformPass(shape, data, ops, i, t, errs).1, k) == MessagesOf(errs, k)
    decreases |shape| - i
  {
    if i < |shape| {
      var e := shape[i];
      assert e.name != k;
      match ops.transform(e.field, Lookup(data, e.name))
      case Failure(err) =>
        TransformPassUntouched(shape, data, ops, i + 1, t, AddError(errs, e.name, TransformMessage(err)), k);
      case Success(x) =>
        TransformPassUntouched(shape, data, ops, i + 1, t[e.name := x], errs, k);
    }
  }

  /** Only declared names reach the transformed map: a key the shape does not declare is nil to every later pass. */
  lemma OnlyDeclaredKeysTransformed(shape: seq<Entry>, data: map<string, Value>, ops: FieldOps, k: string)
    requires !DeclaredFrom(shape, 0, k)
    ensures k !in Transformed(shape, data, ops)
    ensures Lookup(Transformed(shape, data, ops), k) == Null
  {
    TransformPassKeys(shape, data, ops, 0, map[], map[], k);
  }

  // ---------------------------------------------------------------------------
  // The field pass
  // ---------------------------------------------------------------------------

  /** Step 2 from entry `i` on: each declared field validates its transformed value (nil when absent) under its name. */
  function FieldPass(shape: seq<Entry>, t: map<string, Value>, checks: Checks, i: nat, errs: ErrorMap): (r: ErrorMap)
    requires i <= |shape|
    ensures Extends(errs, r)
    ensures WellFormed(errs) ==> WellFormed(r)
    decreases |shape| - i
  {
    if i == |shape| then
      ExtendsRefl(errs);
      errs
    else
      var e1 := Evaluation.Validate(shape[i].field, shape[i].name, Lookup(t, shape[i].name), errs, checks);
      var r := FieldPass(shape, t, checks, i + 1, e1);
      ExtendsTrans(errs, e1, r);
      r
  }

  /** Some declared field from entry `i` on fails on its transformed value. */
  predicate SomeFieldFails(shape: seq<Entry>, t: map<string, Value>, checks: Checks, i: nat) {
    exists j :: i <= j < |shape| && FieldFails(shape[j].field, Lookup(t, shape[j].name), checks)
  }

  /** The field pass reports something exactly when some field fails on its own, whatever the order of the shape. */
  lemma {:induction false} FieldPassVerdict(shape: seq<Entry>, t: map<string, Value>, checks: Checks, i: nat, errs: ErrorMap)
    requires i <= |shape|
    ensures HasErrors(FieldPass(shape, t, checks, i, errs)) <==> HasErrors(errs) || SomeFieldFails(shape, t, checks, i)
    decreases |shape| - i
  {
    if i < |shape| {
      var e := shape[i];
      var e1 := Evaluation.Validate(e.field, e.name, Lookup(t, e.name), errs, checks);
      ValidateVerdict(e.field, e.name, Lookup(t, e.name), errs, checks);
      FieldPassVerdict(shape, t, checks, i + 1, e1);
      if SomeFieldFails(shape, t, checks, i) {
        var j :| i <= j < |shape| && FieldFails(shape[j].field, Lookup(t, shape[j].name), checks);
        assert j == i || SomeFieldFails(shape, t, checks, i + 1);
      }
    }
  }

  // ---------------------------------------------------------------------------
  // Conditional sub-schemas, cross validators and the whole pipeline
  // ---------------------------------------------------------------------------

  /**
   * A rule fires when the transformed map holds its field with exactly the
   * expected value, dynamic type included. Only the key-present test tells a
   * missing key from a nil value, so a rule expecting nil never fires on a
   * field the map does not hold.
   */
  function Fires(rule: Conditional, t: map<string, Value>): (fired: bool)
    ensures fired ==> Lookup(t, rule.field) == rule.expected
    ensures rule.expected != Null ==> (fired <==> Lookup(t, rule.field) == rule.expected)
    ensures rule.field !in t ==> !fired
  {
    rule.field in t && t[rule.field] == rule.expected
  }

  /** Go's `==` on `any` compares dynamic types: a rule expecting `int(5)` fires on neither `int64(5)` nor `float64(5)`. */
  lemma FiresComparesTypes(rule: Conditional, t: map<string, Value>)
    requires rule.expected == Int(5, GoInt) && rule.field in t
    ensures t[rule.field] == Int(5, GoInt) ==> Fires(rule, t)
    ensures t[rule.field] == Int(5, GoInt64) ==> !Fires(rule, t)
    ensures t[rule.field] == Flt(5.0, GoFloat64) ==> !Fires(rule, t)
  {
  }

  /**
   * Every unsigned width is a type of its own, and a `time.Time` equals
   * another only with the same location and monotonic reading: a rule
   * expecting `uint8(5)` does not fire on `uint64(5)`, and one expecting a
   * time does not fire on the same instant under another clock.
   */
  lemma FiresComparesWidthsAndClocks(field: string, sub: ValidationSchema, t: map<string, Value>, instant: int, c: Clock, other: Clock)
    requires field in t && c != other
    ensures t[field] == Int(5, GoUint8) ==> Fires(Conditional(field, Int(5, GoUint8), sub), t)
    ensures t[field] == Int(5, GoUint64) ==> !Fires(Conditional(field, Int(5, GoUint8), sub), t)
    ensures t[field] == Time(instant, c) ==> Fires(Conditional(field, Time(instant, c), sub), t)
    ensures t[field] == Time(instant, other) ==> !Fires(Conditional(field, Time(instant, c), sub), t)
  {
  }

  /**
   * Step 3 from rule `i` on: a rule that fires validates its sub-schema on
   * the transformed map, and a sub-schema result with errors is merged in,
   * each key's messages after the ones already there.
   */
  function ConditionalPass(s: ValidationSchema, t: map<string, Value>, ops: FieldOps, i: nat, errs: ErrorMap): (r: ErrorMap)
    requires i <= |s.conditionals|
    ensures Extends(errs, r)
    ensures WellFormed(errs) ==> WellFormed(r)
    decreases s, 1, |s.conditionals| - i
  {
    if i == |s.conditionals| then
      ExtendsRefl(errs);
      errs
    else
      var rule := s.conditionals[i];
      var sub := Run(rule.sub, t, ops).errors;
      var e1 := if Fires(rule, t) && HasErrors(sub) then MergeErrors(errs, sub) else errs;
      assert Extends(errs, e1) by {
        MergeExtends(errs, sub);
        ExtendsRefl(errs);
      }
      var r := ConditionalPass(s, t, ops, i + 1, e1);
      ExtendsTrans(errs, e1, r);
      r
  }

  /** Rule `j` fires on `t` and its sub-schema reports errors there. */
  predicate RuleFails(s: ValidationSchema, t: map<string, Value>, ops: FieldOps, j: int)
    requires 0 <= j < |s.conditionals|
  {
    Fires(s.conditionals[j], t) && HasErrors(Run(s.conditionals[j].sub, t, ops).errors)
  }

  /** Some rule from `i` on fires and its sub-schema fails. */
  predicate SomeRuleFails(s: ValidationSchema, t: map<string, Value>, ops: FieldOps, i: nat) {
    exists j :: i <= j < |s.conditionals| && RuleFails(s, t, ops, j)
  }

  /** The errors after rule `i`: the sub-schema's merged in when the rule fires and they are not empty. */
  function RuleStep(s: ValidationSchema, t: map<string, Value>, ops: FieldOps, i: nat, errs: ErrorMap): (r: ErrorMap)
    requires i < |s.conditionals|
    ensures HasErrors(r) <==> HasErrors(errs) || RuleFails(s, t, ops, i)
  {
    var rule := s.conditionals[i];
    var sub := Run(rule.sub, t, ops).errors;
    if Fires(rule, t) && HasErrors(sub) then MergeErrors(errs, sub) else errs
  }

  /** One step of the conditional pass. */
  lemma ConditionalStep(s: ValidationSchema, t: map<string, Value>, ops: FieldOps, i: nat, errs: ErrorMap)
    requires i < |s.conditionals|
    ensures ConditionalPass(s, t, ops, i, errs) == ConditionalPass(s, t, ops, i + 1, RuleStep(s, t, ops, i, errs))
  {
  }

  /** The conditional pass adds errors exactly when a rule that fires has a failing sub-schema. */
  lemma {:induction false} ConditionalVerdict(s: ValidationSchema, t: map<string, Value>, ops: FieldOps, i: nat, errs: ErrorMap)
    requires i <= |s.conditionals|
    ensures HasErrors(ConditionalPass(s, t, ops, i, errs)) <==> HasErrors(errs) || SomeRuleFails(s, t, ops, i)
    decreases |s.conditionals| - i
  {
    if i < |s.conditionals| {
      var e1 := RuleStep(s, t, ops, i, errs);
      ConditionalStep(s, t, ops, i, errs);
      ConditionalVerdict(s, t, ops, i + 1, e1);
      SomeRuleFailsStep(s, t, ops, i);
    }
  }

  /** A failing rule from `i` on is rule `i` or one after it. */
  lemma SomeRuleFailsStep(s: ValidationSchema, t: map<string, Value>, ops: FieldOps, i: nat)
    requires i < |s.conditionals|
    ensures SomeRuleFails(s, t, ops, i) <==> RuleFails(s, t, ops, i) || SomeRuleFails(s, t, ops, i + 1)
  {
    if SomeRuleFails(s, t, ops, i) {
      var j :| i <= j < |s.conditionals| && RuleFails(s, t, ops, j);
      assert j == i || SomeRuleFails(s, t, ops, i + 1);
    }
  }

  /** The errors of steps 1 to 3, all a cross validator can be gated on. */
  function BeforeCross(s: ValidationSchema, data: map<string, Value>, ops: FieldOps): (r: ErrorMap)
    ensures WellFormed(r)
    ensures Extends(TransformErrors(s.shape, data, ops), r)
    decreases s, 1, |s.conditionals| + 1
  {
    var t := Transformed(s.shape, data, ops);
    var e0 := TransformErrors(s.shape, data, ops);
    var e1 := FieldPass(s.shape, t, ops.checks, 0, e0);
    var r := ConditionalPass(s, t, ops, 0, e1);
    ExtendsTrans(e0, e1, r);
    r
  }

  /** The messages of the cross validators from `i` on, in order: one per validator that returns an error. */
  function CrossMessages(cross: seq<CrossValidator>, t: map<string, Value>, i: nat): (ms: seq<Msg>)
    requires i <= |cross|
    ensures |ms| <= |cross| - i
    ensures forall m :: m in ms ==> m.Raw?
    decreases |cross| - i
  {
    if i == |cross| then []
    else (if cross[i](t).Some? then [Raw(cross[i](t).value)] else []) + CrossMessages(cross, t, i + 1)
  }

  /** Some cross validator from `i` on returns an error. */
  predicate SomeCrossFails(cross: seq<CrossValidator>, t: map<string, Value>, i: nat) {
    exists j :: i <= j < |cross| && cross[j](t).Some?
  }

  /** One message per failing validator, with that validator's text, and nothing when all pass. */
  lemma {:induction false} CrossMessagesFaithful(cross: seq<CrossValidator>, t: map<string, Value>, i: nat)
    requires i <= |cross|
    ensures CrossMessages(cross, t, i) == [] <==> !SomeCrossFails(cross, t, i)
    ensures forall m :: m in CrossMessages(cross, t, i) <==> m.Raw? && exists j :: i <= j < |cross| && cross[j](t) == Some(m.text)
    decreases |cross| - i
  {
    if i < |cross| {
      CrossMessagesFaithful(cross, t, i + 1);
      if SomeCrossFails(cross, t, i) {
        var j :| i <= j < |cross| && cross[j](t).Some?;
        assert j == i || SomeCrossFails(cross, t, i + 1);
      }
      forall m | m in CrossMessages(cross, t, i)
        ensures m.Raw? && exists j :: i <= j < |cross| && cross[j](t) == Some(m.text)
      {
        if m !in CrossMessages(cross, t, i + 1) {
          assert m.Raw? && cross[i](t) == Some(m.text);
        }
      }
      forall m: Msg | m.Raw? && exists j :: i <= j < |cross| && cross[j](t) == Some(m.text)
        ensures m in CrossMessages(cross, t, i)
      {
        var j :| i <= j < |cross| && cross[j](t) == Some(m.text);
        if j == i {
          assert m == Raw(cross[i](t).value);
        }
      }
    }
  }

  /** Step 4 from validator `i` on: every validator runs, and each error is appended under the cross-validation key. */
  function CrossPass(cross: seq<CrossValidator>, t: map<string, Value>, i: nat, errs: ErrorMap): (r: ErrorMap)
    requires i <= |cross|
    ensures MessagesOf(r, CrossKey) == MessagesOf(errs, CrossKey) + CrossMessages(cross, t, i)
    ensures forall k :: k != CrossKey ==> (k in r <==> k in errs) && MessagesOf(r, k) == MessagesOf(errs, k)
    ensures WellFormed(errs) ==> WellFormed(r)
    decreases |cross| - i
  {
    if i == |cross| then errs
    else
      var e1 := if cross[i](t).Some? then AddError(errs, CrossKey, Raw(cross[i](t).value)) else errs;
      CrossPass(cross, t, i + 1, e1)
  }

  /**
   * ValidationSchema.Validate for any field operations: the four passes,
   * then the transformed map as valid data when no error was recorded.
   */
  function Run(s: ValidationSchema, data: map<string, Value>, ops: FieldOps): (r: ValidationResult)
    ensures WellFormed(r.errors)
    ensures HasErrors(r.errors) ==> r.validData == map[]
    ensures !HasErrors(r.errors) ==> r.validData == Transformed(s.shape, data, ops)
    decreases s, 2
  {
    var before := BeforeCross(s, data, ops);
    var errors := if HasErrors(before) then before else CrossPass(s.cross, Transformed(s.shape, data, ops), 0, before);
    var r := NewResult.(errors := errors);
    if HasErrors(errors) then r else SetValidData(r, Transformed(s.shape, data, ops))
  }

  /** ValidationSchema.Validate with the fields of types/. */
  function Validate(s: ValidationSchema, data: map<string, Value>, env: Env): (r: ValidationResult)
    ensures WellFormed(r.errors)
    ensures HasErrors(r.errors) ==> r.validData == map[]
  {
    Run(s, data, TypedOps(env))
  }

  // ---------------------------------------------------------------------------
  // What Validate promises
  // ---------------------------------------------------------------------------

  /**
   * When a schema's result has errors: some transform fails, some field
   * fails on the transformed map, some rule that fires has a failing
   * sub-schema, or some cross validator rejects the transformed map. Each
   * disjunct reads the shape as a set of entries.
   */
  predicate SchemaFails(s: ValidationSchema, data: map<string, Value>, ops: FieldOps) {
    var t := Transformed(s.shape, data, ops);
    || SomeTransformFails(s.shape, data, ops, 0)
    || SomeFieldFails(s.shape, t, ops.checks, 0)
    || SomeRuleFails(s, t, ops, 0)
    || SomeCrossFails(s.cross, t, 0)
  }

  /** The verdict of Validate. */
  lemma RunVerdict(s: ValidationSchema, data: map<string, Value>, ops: FieldOps)
    ensures HasErrors(Run(s, data, ops).errors) <==> SchemaFails(s, data, ops)
  {
    var t := Transformed(s.shape, data, ops);
    var e0 := TransformErrors(s.shape, data, ops);
    var e1 := FieldPass(s.shape, t, ops.checks, 0, e0);
    TransformPassVerdict(s.shape, data, ops, 0, map[], map[]);
    FieldPassVerdict(s.shape, t, ops.checks, 0, e0);
    ConditionalVerdict(s, t, ops, 0, e1);
    var before := BeforeCross(s, data, ops);
    if !HasErrors(before) {
      CrossMessagesFaithful(s.cross, t, 0);
      var r := CrossPass(s.cross, t, 0, before);
      assert HasErrors(r) <==> CrossMessages(s.cross, t, 0) != [] by {
        if CrossMessages(s.cross, t, 0) != [] {
          assert CrossKey in r;
        }
      }
    }
  }

  /** A rule can only fire on a field the outer shape declares: the sub-schema sees the outer transformed map and nothing else. */
  lemma RuleNeedsOuterField(s: ValidationSchema, data: map<string, Value>, ops: FieldOps, rule: Conditional)
    requires Fires(rule, Transformed(s.shape, data, ops))
    ensures DeclaredFrom(s.shape, 0, rule.field)
  {
    if !DeclaredFrom(s.shape, 0, rule.field) {
      OnlyDeclaredKeysTransformed(s.shape, data, ops, rule.field);
    }
  }

  /**
   * On success the valid data has exactly the shape's names as keys, each
   * holding its field's transformed value: undeclared input keys are
   * dropped and absent declared keys hold what nil transforms to.
   */
  lemma ValidDataIsShape(s: ValidationSchema, data: map<string, Value>, ops: FieldOps)
    requires DistinctNames(s.shape)
    requires !HasErrors(Run(s, data, ops).errors)
    ensures forall k :: k in Run(s, data, ops).validData <==> DeclaredFrom(s.shape, 0, k)
    ensures forall j :: 0 <= j < |s.shape| ==>
      && TransformsAt(s.shape, data, ops, j)
      && s.shape[j].name in Run(s, data, ops).validData
      && Run(s, data, ops).validData[s.shape[j].name] == ops.transform(s.shape[j].field, Lookup(data, s.shape[j].name)).value
  {
    RunVerdict(s, data, ops);
    var shape := s.shape;
    forall k ensures k in Transformed(shape, data, ops) <==> DeclaredFrom(shape, 0, k) {
      TransformPassKeys(shape, data, ops, 0, map[], map[], k);
      if DeclaredFrom(shape, 0, k) {
        var j :| 0 <= j < |shape| && shape[j].name == k;
        assert TransformsAt(shape, data, ops, j);
      }
    }
    forall j | 0 <= j < |shape|
      ensures && TransformsAt(shape, data, ops, j)
              && shape[j].name in Transformed(shape, data, ops)
              && Transformed(shape, data, ops)[shape[j].name] == ops.transform(shape[j].field, Lookup(data, shape[j].name)).value
    {
      TransformPassValues(shape, data, ops, 0, map[], map[], j);
    }
  }

  /** No later step removes or reorders a message the transform pass recorded. */
  lemma TransformErrorsKept(s: ValidationSchema, data: map<string, Value>, ops: FieldOps)
    ensures Extends(TransformErrors(s.shape, data, ops), Run(s, data, ops).errors)
  {
    var e0 := TransformErrors(s.shape, data, ops);
    var before := BeforeCross(s, data, ops);
    if HasErrors(e0) {
      ExtendsKeepsErrors(e0, before);
    }
  }

  /** A field whose transform fails has the transform message as the first message under its name in the result. */
  lemma TransformFailureRecorded(s: ValidationSchema, data: map<string, Value>, ops: FieldOps, j: nat)
    requires DistinctNames(s.shape) && j < |s.shape| && !TransformsAt(s.shape, data, ops, j)
    ensures |MessagesOf(Run(s, data, ops).errors, s.shape[j].name)| > 0
    ensures MessagesOf(Run(s, data, ops).errors, s.shape[j].name)[0] ==
      TransformMessage(ops.transform(s.shape[j].field, Lookup(data, s.shape[j].name)).error)
  {
    var name := s.shape[j].name;
    var e0 := TransformErrors(s.shape, data, ops);
    var r := Run(s, data, ops).errors;
    TransformPassMessage(s.shape, data, ops, 0, map[], map[], j);
    TransformErrorsKept(s, data, ops);
    assert name in e0 && e0[name] <= r[name];
  }

  /** A field whose transform fails is absent from the transformed map, so the field pass validates nil for it. */
  lemma TransformFailureValidatesNil(shape: seq<Entry>, data: map<string, Value>, ops: FieldOps, j: nat)
    requires DistinctNames(shape) && j < |shape| && !TransformsAt(shape, data, ops, j)
    ensures Lookup(Transformed(shape, data, ops), shape[j].name) == Null
  {
    TransformPassKeys(shape, data, ops, 0, map[], map[], shape[j].name);
  }

  /** Once steps 1 to 3 recorded an error, the cross validators play no part in the result. */
  lemma CrossSkippedAfterErrors(s: ValidationSchema, data: map<string, Value>, ops: FieldOps, other: seq<CrossValidator>)
    requires HasErrors(BeforeCross(s, data, ops))
    ensures Run(s, data, ops).errors == BeforeCross(s, data, ops)
    ensures Run(s.(cross := other), data, ops) == Run(s, data, ops)
  {
    var t := Transformed(s.shape, data, ops);
    var e1 := FieldPass(s.shape, t, ops.checks, 0, TransformErrors(s.shape, data, ops));
    ConditionalPassIgnoresCross(s, other, t, ops, 0, e1);
  }

  lemma {:induction false} ConditionalPassIgnoresCross(s: ValidationSchema, other: seq<CrossValidator>, t: map<string, Value>,
                                                       ops: FieldOps, i: nat, errs: ErrorMap)
    requires i <= |s.conditionals|
    ensures ConditionalPass(s.(cross := other), t, ops, i, errs) == ConditionalPass(s, t, ops, i, errs)
    decreases |s.conditionals| - i
  {
    if i < |s.conditionals| {
      var rule := s.conditionals[i];
      var sub := Run(rule.sub, t, ops).errors;
      var e1 := if Fires(rule, t) && HasErrors(sub) then MergeErrors(errs, sub) else errs;
      ConditionalPassIgnoresCross(s, other, t, ops, i + 1, e1);
    }
  }

  /**
   * When steps 1 to 3 recorded nothing, every cross validator runs: the
   * result holds one message per failing validator, in order, under the
   * cross-validation key, and nothing else.
   */
  lemma CrossRunsWhenClean(s: ValidationSchema, data: map<string, Value>, ops: FieldOps)
    requires !HasErrors(BeforeCross(s, data, ops))
    ensures MessagesOf(Run(s, data, ops).errors, CrossKey) == CrossMessages(s.cross, Transformed(s.shape, data, ops), 0)
    ensures forall k :: k != CrossKey ==> k !in Run(s, data, ops).errors
  {
  }

  /** Two shapes with the same entries, each name once. */
  ghost predicate SameEntries(a: seq<Entry>, b: seq<Entry>) {
    DistinctNames(a) && DistinctNames(b) && forall e :: e in a <==> e in b
  }

  /** Declaring the same entries in another order transforms the input to the same map. */
  lemma TransformedSameEntries(a: seq<Entry>, b: seq<Entry>, data: map<string, Value>, ops: FieldOps)
    requires SameEntries(a, b)
    ensures Transformed(a, data, ops) == Transformed(b, data, ops)
    ensures SomeTransformFails(a, data, ops, 0) <==> SomeTransformFails(b, data, ops, 0)
  {
    SameEntriesTransformed(a, b, data, ops);
    SameEntriesTransformed(b, a, data, ops);
    var ta := Transformed(a, data, ops);
    var tb := Transformed(b, data, ops);
    assert ta.Keys == tb.Keys;
    SameEntriesFails(a, b, data, ops);
    SameEntriesFails(b, a, data, ops);
  }

  /** Every key of `a`'s transformed map is in `b`'s with the same value. */
  lemma SameEntriesTransformed(a: seq<Entry>, b: seq<Entry>, data: map<string, Value>, ops: FieldOps)
    requires SameEntries(a, b)
    ensures forall k :: k in Transformed(a, data, ops) ==> k in Transformed(b, data, ops) && Transformed(b, data, ops)[k] == Transformed(a, data, ops)[k]
  {
    forall k | k in Transformed(a, data, ops)
      ensures k in Transformed(b, data, ops) && Transformed(b, data, ops)[k] == Transformed(a, data, ops)[k]
    {
      TransformPassKeys(a, data, ops, 0, map[], map[], k);
      var j :| 0 <= j < |a| && a[j].name == k && TransformsAt(a, data, ops, j);
      assert a[j] in b;
      var j' :| 0 <= j' < |b| && b[j'] == a[j];
      TransformPassValues(a, data, ops, 0, map[], map[], j);
      TransformPassValues(b, data, ops, 0, map[], map[], j');
    }
  }

  lemma SameEntriesFails(a: seq<Entry>, b: seq<Entry>, data: map<string, Value>, ops: FieldOps)
    requires SameEntries(a, b)
    ensures SomeTransformFails(a, data, ops, 0) ==> SomeTransformFails(b, data, ops, 0)
  {
    if SomeTransformFails(a, data, ops, 0) {
      var j :| 0 <= j < |a| && !TransformsAt(a, data, ops, j);
      assert a[j] in b;
      var j' :| 0 <= j' < |b| && b[j'] == a[j];
      assert !TransformsAt(b, data, ops, j');
    }
  }

  lemma SameEntriesFieldFails(a: seq<Entry>, b: seq<Entry>, t: map<string, Value>, checks: Checks)
    requires SameEntries(a, b)
    ensures SomeFieldFails(a, t, checks, 0) ==> SomeFieldFails(b, t, checks, 0)
  {
    if SomeFieldFails(a, t, checks, 0) {
      var j :| 0 <= j < |a| && FieldFails(a[j].field, Lookup(t, a[j].name), checks);
      assert a[j] in b;
      var j' :| 0 <= j' < |b| && b[j'] == a[j];
    }
  }

  /**
   * Whether a schema's result has errors does not depend on the order its
   * shape is visited in, the order Go's map iteration leaves unspecified;
   * which messages appear can.
   */
  lemma ShapeOrderIrrelevant(s1: ValidationSchema, s2: ValidationSchema, data: map<string, Value>, ops: FieldOps)
    requires SameEntries(s1.shape, s2.shape)
    requires s1.cross == s2.cross && s1.conditionals == s2.conditionals
    ensures HasErrors(Run(s1, data, ops).errors) <==> HasErrors(Run(s2, data, ops).errors)
  {
    RunVerdict(s1, data, ops);
    RunVerdict(s2, data, ops);
    TransformedSameEntries(s1.shape, s2.shape, data, ops);
    var t := Transformed(s1.shape, data, ops);
    SameEntriesFieldFails(s1.shape, s2.shape, t, ops.checks);
    SameEntriesFieldFails(s2.shape, s1.shape, t, ops.checks);
    assert SomeRuleFails(s1, t, ops, 0) <==> SomeRuleFails(s2, t, ops, 0) by {
      assert forall j :: 0 <= j < |s1.conditionals| ==> (RuleFails(s1, t, ops, j) <==> RuleFails(s2, t, ops, j));
    }
  }
}

=== FILE: security_rules.dfy ===
/**
 * The sanitisers and character-set check of rules/security.go.
 */
module Security {
  import opened Text

  // ---------------------------------------------------------------------------
  // StripHtmlTags: every leftmost match of `<[^>]*>` replaced by ""
  // ---------------------------------------------------------------------------

  /** No '<' is followed anywhere later by a '>': nothing left for `<[^>]*>` to match. */
  predicate NoTagSpan(s: string) {
    forall i, j :: 0 <= i < j < |s| && s[i] == '<' ==> s[j] != '>'
  }

  lemma NoTagSpanAfterPlain(p: string, t: string)
    requires '<' !in p && NoTagSpan(t)
    ensures NoTagSpan(p + t)
  {
    var r := p + t;
    forall a, b | 0 <= a < b < |r| && r[a] == '<' ensures r[b] != '>' {
      if a >= |p| {
        assert r[a] == t[a - |p|] && r[b] == t[b - |p|];
      }
    }
  }

  lemma NoTagSpanUnclosed(s: string, i: nat)
    requires i < |s| && '<' !in s[..i] && '>' !in s[i + 1..]
    ensures NoTagSpan(s)
  {
    forall a, b | 0 <= a < b < |s| && s[a] == '<' ensures s[b] != '>' {
      if a >= i {
        assert s[b] == s[i + 1..][b - i - 1];
      }
    }
  }

  /** Remove the spans from each leftmost '<' to the first '>' after it. */
  function StripTags(s: string): (r: string)
    ensures |r| <= |s|
    ensures NoTagSpan(r)
    decreases |s|
  {
    if '<' !in s then
      NoTagSpanUnclosed(s + ">", |s|);
      assert (s + ">")[..|s|] == s;
      s
    else
      var i := IndexOf(s, '<');
      var rest := s[i + 1..];
      if '>' !in rest then
        NoTagSpanUnclosed(s, i);
        s
      else
        var j := IndexOf(rest, '>');
        var tail := StripTags(rest[j + 1..]);
        NoTagSpanAfterPlain(s[..i], tail);
        s[..i] + tail
  }

  /** StripHtmlTags: the allowed-tags argument is accepted and ignored. */
  function StripHtmlTags(input: string, allowedTags: seq<string>): (r: string)
    ensures NoTagSpan(r)
  {
    StripTags(input)
  }

  /** Text with no tag span is left alone. */
  lemma StripTagsNoSpan(s: string)
    requires NoTagSpan(s)
    ensures StripTags(s) == s
  {
    if '<' in s {
      var i := IndexOf(s, '<');
      assert forall b :: i < b < |s| ==> s[b] != '>';
      assert '>' !in s[i + 1..];
    }
  }

  /** Stripping twice is stripping once. */
  lemma StripTagsIdempotent(s: string)
    ensures StripTags(StripTags(s)) == StripTags(s)
  {
    StripTagsNoSpan(StripTags(s));
  }

  /** The allowed tags never make a difference. */
  lemma AllowedTagsIgnored(input: string, a: seq<string>, b: seq<string>)
    ensures StripHtmlTags(input, a) == StripHtmlTags(input, b)
  {}

  /** A closed tag goes; a '<' with no '>' after it stays. */
  lemma StripTagsExample()
    ensures StripTags("a<b>c") == "ac"
    ensures StripTags("1<2") == "1<2"
  {
    assert IndexOf("a<b>c", '<') == 1;
    assert "a<b>c"[2..] == "b>c";
    assert IndexOf("b>c", '>') == 1;
    assert "b>c"[2..] == "c";
    assert IndexOf("1<2", '<') == 1;
    assert "1<2"[2..] == "2";
  }

  // ---------------------------------------------------------------------------
  // PreventXss: five ReplaceAll passes, '&' first
  // ---------------------------------------------------------------------------

  /** The five escaped runes, in the order PreventXss replaces them. */
  const Specials: seq<char> := ['&', '<', '>', '"', '\'']

  function Entity(c: char): string {
    match c
    case '&' => "&amp;"
    case '<' => "&lt;"
    case '>' => "&gt;"
    case '"' => "&quot;"
    case '\'' => "&#39;"
    case _ => [c]
  }

  /**
   * PreventXss as written: one ReplaceAll per special rune. Because '&' is
   * replaced first, the five passes escape each special rune exactly once.
   */
  function PreventXss(input: string): (r: string)
    ensures r == EscapeHtml(input)
  {
    assert Specials[0] == '&' && Specials[1] == '<' && Specials[2] == '>' && Specials[3] == '"' && Specials[4] == '\'';
    PassesEscape(input);
    var s1 := ReplaceAll(input, '&', "&amp;");
    var s2 := ReplaceAll(s1, '<', "&lt;");
    var s3 := ReplaceAll(s2, '>', "&gt;");
    var s4 := ReplaceAll(s3, '"', "&quot;");
    ReplaceAll(s4, '\'', "&#39;")
  }

  /** Reference definition: every special rune escaped once, everything else kept; no markup rune is left. */
  function EscapeHtml(s: string): (r: string)
    ensures '<' !in r && '>' !in r && '"' !in r && '\'' !in r
  {
    EscapeAvoids(s);
    FlatMap(s, EscapeChar)
  }

  lemma EscapeAvoids(s: string)
    ensures '<' !in FlatMap(s, EscapeChar) && '>' !in FlatMap(s, EscapeChar)
    ensures '"' !in FlatMap(s, EscapeChar) && '\'' !in FlatMap(s, EscapeChar)
  {
    forall x ensures '<' !in EscapeChar(x) && '>' !in EscapeChar(x) && '"' !in EscapeChar(x) && '\'' !in EscapeChar(x) {
      EscapeCharAvoids(x);
    }
    FlatMapAvoids(s, EscapeChar, '<');
    FlatMapAvoids(s, EscapeChar, '>');
    FlatMapAvoids(s, EscapeChar, '"');
    FlatMapAvoids(s, EscapeChar, '\'');
  }

  function EscapeChar(c: char): string {
    if c in Specials then Entity(c) else [c]
  }

  /** An escaped rune never is, or holds, one of the four markup runes. */
  lemma EscapeCharAvoids(c: char)
    ensures '<' !in EscapeChar(c) && '>' !in EscapeChar(c)
    ensures '"' !in EscapeChar(c) && '\'' !in EscapeChar(c)
  {
    if c in Specials {
      assert c == '&' || c == '<' || c == '>' || c == '"' || c == '\'';
    }
  }

  /** A rune as the first `n` passes leave it. */
  function EscapedBy(n: nat, c: char): string
    requires n <= 5
  {
    if c in Specials[..n] then Entity(c) else [c]
  }

  lemma {:induction false} ReplaceAllFlatMap(s: string, f: char -> string, g: char -> string, c: char, rep: string)
    requires forall x :: ReplaceAll(f(x), c, rep) == g(x)
    ensures ReplaceAll(FlatMap(s, f), c, rep) == FlatMap(s, g)
    decreases |s|
  {
    if |s| > 0 {
      FlatMapConcat(f(s[0]), FlatMap(s[1..], f), x => if x == c then rep else [x]);
      ReplaceAllFlatMap(s[1..], f, g, c, rep);
    }
  }

  lemma {:induction false} FlatMapExt(s: string, f: char -> string, g: char -> string)
    requires forall x :: f(x) == g(x)
    ensures FlatMap(s, f) == FlatMap(s, g)
    decreases |s|
  {
    if |s| > 0 {
      FlatMapExt(s[1..], f, g);
    }
  }

  /** Pass `n` turns the result of the first `n` passes into that of the first `n + 1`. */
  lemma EscapeStep(n: nat, x: char)
    requires n < 5
    ensures ReplaceAll(EscapedBy(n, x), Specials[n], Entity(Specials[n])) == EscapedBy(n + 1, x)
  {
    var rep := Entity(Specials[n]);
    if x in Specials[..n] {
      assert Specials[n] !in Entity(x);
      NoOccurrenceUnchanged(Entity(x), Specials[n], rep);
    } else {
      assert Specials[..n + 1] == Specials[..n] + [Specials[n]];
      FlatMapSingle(x, y => if y == Specials[n] then rep else [y]);
    }
  }

  lemma {:induction false} NoOccurrenceUnchanged(s: string, c: char, rep: string)
    requires c !in s
    ensures ReplaceAll(s, c, rep) == s
    decreases |s|
  {
    if |s| > 0 {
      NoOccurrenceUnchanged(s[1..], c, rep);
    }
  }

  lemma ReplacePass(s: string, n: nat)
    requires n < 5
    ensures ReplaceAll(FlatMap(s, x => EscapedBy(n, x)), Specials[n], Entity(Specials[n]))
         == FlatMap(s, x => EscapedBy(n + 1, x))
  {
    forall x ensures ReplaceAll(EscapedBy(n, x), Specials[n], Entity(Specials[n])) == EscapedBy(n + 1, x) {
      EscapeStep(n, x);
    }
    ReplaceAllFlatMap(s, x => EscapedBy(n, x), x => EscapedBy(n + 1, x), Specials[n], Entity(Specials[n]));
  }

  /** Pass `n` of PreventXss. */
  function Pass(s: string, n: nat): string
    requires n < 5
  {
    ReplaceAll(s, Specials[n], Entity(Specials[n]))
  }

  /** The first `n` passes applied to `s`, as a rune-by-rune map. */
  function Escaped(s: string, n: nat): string
    requires n <= 5
  {
    FlatMap(s, x => EscapedBy(n, x))
  }

  lemma PassStep(s: string, n: nat)
    requires n < 5
    ensures Pass(Escaped(s, n), n) == Escaped(s, n + 1)
  {
    ReplacePass(s, n);
  }

  /** The five passes, each on the previous one's output, escape each special rune exactly once. */
  lemma PassesEscape(s: string)
    ensures Pass(Pass(Pass(Pass(Pass(s, 0), 1), 2), 3), 4) == FlatMap(s, EscapeChar)
  {
    assert Escaped(s, 0) == s by {
      FlatMapExt(s, x => EscapedBy(0, x), x => [x]);
      IdentityFlatMap(s);
    }
    PassStep(s, 0);
    PassStep(s, 1);
    PassStep(s, 2);
    PassStep(s, 3);
    PassStep(s, 4);
    FlatMapExt(s, x => EscapedBy(5, x), EscapeChar);
  }

  lemma {:induction false} IdentityFlatMap(s: string)
    ensures FlatMap(s, x => [x]) == s
    decreases |s|
  {
    if |s| > 0 {
      IdentityFlatMap(s[1..]);
    }
  }

  lemma {:induction false} FlatMapAvoids(s: string, f: char -> string, d: char)
    requires forall x :: d !in f(x)
    ensures d !in FlatMap(s, f)
    decreases |s|
  {
    if |s| > 0 {
      FlatMapAvoids(s[1..], f, d);
    }
  }

  // ---------------------------------------------------------------------------
  // SanitizeFilename
  // ---------------------------------------------------------------------------

  /** The Turkish replacer: each of the twelve letters to its plain Latin twin. */
  function Transliterate(c: char): char {
    match c
    case '\U{00E7}' => 'c'
    case '\U{00C7}' => 'C'
    case '\U{011F}' => 'g'
    case '\U{011E}' => 'G'
    case '\U{0131}' => 'i'
    case '\U{0130}' => 'I'
    case '\U{00F6}' => 'o'
    case '\U{00D6}' => 'O'
    case '\U{015F}' => 's'
    case '\U{015E}' => 'S'
    case '\U{00FC}' => 'u'
    case '\U{00DC}' => 'U'
    case _ => c
  }

  /** `[a-zA-Z0-9\-\_\.]`. */
  predicate IsFilenameChar(c: char) { IsAlnum(c) || c == '-' || c == '_' || c == '.' }

  /** `\.{2,}` replaced by ".": each run of dots keeps one. */
  function CollapseDots(s: string): (r: string)
    ensures |r| <= |s|
    ensures forall k :: 0 <= k < |r| ==> r[k] in s
    ensures forall k :: 0 <= k < |r| - 1 ==> !(r[k] == '.' && r[k + 1] == '.')
  {
    if |s| < 2 then s
    else if s[0] == '.' && s[1] == '.' then CollapseDots(s[1..])
    else
      var t := CollapseDots(s[1..]);
      [s[0]] + t
  }

  /** `^\.` and then `\.$` replaced by "". */
  function TrimOneDot(s: string): (r: string)
    ensures forall k :: 0 <= k < |r| ==> r[k] in s
    ensures NoDoubleDot(s) ==> NoDoubleDot(r) && (|r| > 0 ==> r[0] != '.')
  {
    var a := if |s| > 0 && s[0] == '.' then s[1..] else s;
    if |a| > 0 && a[|a| - 1] == '.' then a[..|a| - 1] else a
  }

  predicate NoDoubleDot(s: string) { forall k :: 0 <= k < |s| - 1 ==> !(s[k] == '.' && s[k + 1] == '.') }

  /**
   * SanitizeFilename: Turkish letters transliterated, everything outside
   * `[a-zA-Z0-9._-]` dropped, dot runs collapsed, one leading and then one
   * trailing dot removed, and the result cut to 255 characters.
   */
  function SanitizeFilename(filename: string): (r: string)
    ensures forall k :: 0 <= k < |r| ==> IsFilenameChar(r[k])
    ensures NoDoubleDot(r)
    ensures |r| > 0 ==> r[0] != '.'
    ensures ByteLen(r) == |r| <= 255
  {
    var t := MapChars(filename, Transliterate);
    var safe := Filter(t, IsFilenameChar);
    var collapsed := CollapseDots(safe);
    var trimmed := TrimOneDot(collapsed);
    assert forall k :: 0 <= k < |trimmed| ==> IsFilenameChar(trimmed[k]);
    var r := if |trimmed| > 255 then trimmed[..255] else trimmed;
    FilenameCharsAreBytes(r);
    r
  }

  lemma FilenameCharsAreBytes(r: string)
    requires forall k :: 0 <= k < |r| ==> IsFilenameChar(r[k])
    ensures ByteLen(r) == |r|
  {
    assert AllAscii(r) by {
      forall k | 0 <= k < |r| ensures IsAscii(r[k]) { assert IsFilenameChar(r[k]); }
    }
    ByteLenBounds(r);
  }

  /** A Turkish letter is kept as its Latin twin, not dropped. */
  lemma SanitizeTransliterates(c: char)
    requires IsTurkishLetter(c)
    ensures SanitizeFilename([c]) == [Transliterate(c)]
    ensures IsLetter(Transliterate(c))
  {
    assert MapChars([c], Transliterate) == [Transliterate(c)];
  }

  predicate IsTurkishLetter(c: char) {
    c == '\U{00E7}' || c == '\U{00C7}' || c == '\U{011F}' || c == '\U{011E}'
    || c == '\U{0131}' || c == '\U{0130}' || c == '\U{00F6}' || c == '\U{00D6}'
    || c == '\U{015F}' || c == '\U{015E}' || c == '\U{00FC}' || c == '\U{00DC}'
  }

  /** A name that is already safe, dot-run free and dot-free at both ends passes unchanged. */
  lemma SanitizeKeepsSafeNames(s: string)
    requires forall k :: 0 <= k < |s| ==> IsAlnum(s[k]) || s[k] == '-' || s[k] == '_' || s[k] == '.'
    requires NoDoubleDot(s) && |s| <= 255
    requires |s| > 0 ==> s[0] != '.' && s[|s| - 1] != '.'
    ensures SanitizeFilename(s) == s
  {
    assert MapChars(s, Transliterate) == s;
    FilterKeepsAll(s, IsFilenameChar);
    CollapseNoDoubleDot(s);
  }

  lemma {:induction false} CollapseNoDoubleDot(s: string)
    requires NoDoubleDot(s)
    ensures CollapseDots(s) == s
    decreases |s|
  {
    if |s| >= 2 {
      CollapseNoDoubleDot(s[1..]);
    }
  }

  // ---------------------------------------------------------------------------
  // FilterEmoji
  // ---------------------------------------------------------------------------

  /** The five code point ranges of the emoji pattern. */
  predicate IsEmoji(c: char) {
    || '\U{1F600}' <= c <= '\U{1F64F}'
    || '\U{1F300}' <= c <= '\U{1F5FF}'
    || '\U{1F680}' <= c <= '\U{1F6FF}'
    || '\U{2600}' <= c <= '\U{26FF}'
    || '\U{2700}' <= c <= '\U{27BF}'
  }

  /** FilterEmoji: with `remove` it deletes exactly the runes in the ranges. */
  function FilterEmoji(input: string, remove: bool): (r: string)
    ensures !remove ==> r == input
    ensures remove ==> forall k :: 0 <= k < |r| ==> !IsEmoji(r[k])
  {
    if remove then Filter(input, c => !IsEmoji(c)) else input
  }

  /** Removing emoji keeps every other rune, in order. */
  lemma FilterEmojiKeepsText(a: string, b: string)
    ensures FilterEmoji(a + b, true) == FilterEmoji(a, true) + FilterEmoji(b, true)
    ensures (forall k :: 0 <= k < |a| ==> !IsEmoji(a[k])) ==> FilterEmoji(a, true) == a
  {
    FilterConcat(a, b, c => !IsEmoji(c));
    if forall k :: 0 <= k < |a| ==> !IsEmoji(a[k]) {
      FilterKeepsAll(a, c => !IsEmoji(c));
    }
  }

  // ---------------------------------------------------------------------------
  // ValidateCharSet
  // ---------------------------------------------------------------------------

  /** ValidateCharSet; `isLatin` stands for the `\p{Latin}` class. */
  function ValidateCharSet(input: string, charSet: string, isLatin: char -> bool): (ok: bool)
    ensures charSet !in {"latin", "alphanumeric", "numeric", "alpha"} ==> !ok
    ensures input == "" ==> !ok
    ensures charSet == "numeric" ==> (ok <==> |input| > 0 && AllDigits(input))
    ensures charSet == "alpha" ==> (ok <==> |input| > 0 && forall k :: 0 <= k < |input| ==> IsLetter(input[k]))
  {
    match charSet
    case "latin" => NonEmptyAll(input, isLatin)
    case "alphanumeric" => NonEmptyAll(input, IsAlnum)
    case "numeric" => NonEmptyAll(input, IsDigit)
    case "alpha" => NonEmptyAll(input, IsLetter)
    case _ => false
  }

  /** The sets nest: alpha and numeric text are alphanumeric. */
  lemma CharSetsNest(input: string, isLatin: char -> bool)
    ensures ValidateCharSet(input, "alpha", isLatin) ==> ValidateCharSet(input, "alphanumeric", isLatin)
    ensures ValidateCharSet(input, "numeric", isLatin) ==> ValidateCharSet(input, "alphanumeric", isLatin)
  {}
}

=== FILE: string_checks.dfy ===
/**
 * The checks StringType.Validate (types/string.go) and
 * AdvancedStringType.Validate (types/advanced_string.go) run on a string,
 * as the list of failures they report, in order. The early returns of the
 * email and URL pre-checks and of a broken custom pattern are part of the
 * list's shape: what comes after them is absent when they fire.
 */
module StringChecks {
  import opened Wrappers
  import opened Text
  import opened Values
  import opened Messages
  import opened Custom
  import opened Reports
  import opened Fields
  import PasswordPolicy
  import Network
  import Domains
  import Security

  // ---------------------------------------------------------------------------
  // The patterns types/string.go compiles, on the model's characters
  // ---------------------------------------------------------------------------

  /** `^[a-zA-Z]+$`. */
  predicate IsAlphaText(s: string) { NonEmptyAll(s, IsLetter) }

  /** `^[a-zA-Z0-9]+$`. */
  predicate IsAlphanumericText(s: string) { NonEmptyAll(s, IsAlnum) }

  /** `^[0-9]+$`. */
  predicate IsNumericText(s: string) { NonEmptyAll(s, IsDigit) }

  /** `^[0-9A-Fa-f]+$`. */
  predicate IsHexText(s: string) { NonEmptyAll(s, IsHex) }

  /** `^([0-9A-Fa-f]{2}[:-]){5}([0-9A-Fa-f]{2})$`: six hex pairs, each separator ':' or '-' on its own. */
  predicate IsMac(s: string) {
    |s| == 17 && forall i :: 0 <= i < 17 ==> if i % 3 == 2 then s[i] == ':' || s[i] == '-' else IsHex(s[i])
  }

  // ---------------------------------------------------------------------------
  // The early returns
  // ---------------------------------------------------------------------------

  function LastPart(parts: seq<string>): string
    requires |parts| >= 1
  {
    parts[|parts| - 1]
  }

  /**
   * The pre-checks before the email pattern: a ".." anywhere, or exactly one
   * '@' with a domain whose text after the last '.' is shorter than two bytes.
   */
  predicate EmailRejectedEarly(s: string) {
    || Contains(s, "..")
    || (var parts := SplitOn(s, '@'); |parts| == 2 && ByteLen(LastPart(SplitOn(parts[1], '.'))) < 2)
  }

  /** The pre-checks before the URL pattern: a space, no http:// or https:// prefix, or nothing after it. */
  predicate UrlRejectedEarly(s: string) {
    || Contains(s, " ")
    || (!HasPrefix(s, "http://") && !HasPrefix(s, "https://"))
    || |TrimPrefix(TrimPrefix(s, "https://"), "http://")| == 0
  }

  /** Neither pre-check returned early. */
  predicate PastPrechecks(r: StringRules, s: string) {
    !(r.email && EmailRejectedEarly(s)) && !(r.url && UrlRejectedEarly(s))
  }

  /** The checks after the pattern error, custom validators included, run. */
  predicate ReachesCustom(r: StringRules, s: string) {
    PastPrechecks(r, s) && r.regexError.None?
  }

  // ---------------------------------------------------------------------------
  // The stages of StringType.Validate
  // ---------------------------------------------------------------------------

  /**
   * The position of a failure's check in StringType.Validate: the lengths,
   * the email check, the URL check, OneOf to Contains, the pattern error,
   * the format checks, the custom validators; 7 for a failure the string
   * checks never report.
   */
  function Stage(f: Failure): nat {
    match f
    case Length(_) => 0
    case BadEmail => 1
    case BadUrl => 2
    case Content(_) => 3
    case BadPattern(_) => 4
    case Format(_) => 5
    case UserFailure(_) => 6
    case _ => 7
  }

  predicate AllAt(fs: seq<Failure>, k: nat) { forall f :: f in fs ==> Stage(f) == k }

  /** The failures come in the order of their checks. */
  predicate InStageOrder(fs: seq<Failure>) {
    forall i, j :: 0 <= i < j < |fs| ==> Stage(fs[i]) <= Stage(fs[j])
  }

  lemma InStageOrderAppend(xs: seq<Failure>, ys: seq<Failure>, k: nat)
    requires InStageOrder(xs) && InStageOrder(ys)
    requires forall f :: f in xs ==> Stage(f) <= k
    requires forall f :: f in ys ==> Stage(f) > k
    ensures InStageOrder(xs + ys)
  {
    assert forall i :: 0 <= i < |xs| ==> (xs + ys)[i] == xs[i] && xs[i] in xs;
    assert forall j :: |xs| <= j < |xs + ys| ==> (xs + ys)[j] == ys[j - |xs|] && ys[j - |xs|] in ys;
  }

  lemma AllAtInOrder(fs: seq<Failure>, k: nat)
    requires AllAt(fs, k)
    ensures InStageOrder(fs)
  {
    assert forall i :: 0 <= i < |fs| ==> fs[i] in fs;
  }

  /** In stage order, with nothing past the custom validators' stage, the custom failures are last. */
  lemma StageOrderPutsUsersLast(fs: seq<Failure>)
    requires InStageOrder(fs)
    requires forall f :: f in fs ==> Stage(f) <= 6
    ensures UserFailuresLast(fs)
  {
    assert forall j :: 0 <= j < |fs| ==> fs[j] in fs;
  }

  // ---------------------------------------------------------------------------
  // Phases: groups of checks, some of which end the validation
  // ---------------------------------------------------------------------------

  /** The failures of a group of checks, and whether the group returns early after reporting them. */
  datatype Phase = Phase(failures: seq<Failure>, stops: bool)

  /** The failures of the phases in order, up to and including the first one that stops. */
  function RunPhases(ps: seq<Phase>): seq<Failure>
    decreases |ps|
  {
    if |ps| == 0 then [] else ps[0].failures + (if ps[0].stops then [] else RunPhases(ps[1..]))
  }

  /** No phase before the k-th stops. */
  predicate Reaches(ps: seq<Phase>, k: nat)
    requires k <= |ps|
  {
    forall j :: 0 <= j < k ==> !ps[j].stops
  }

  lemma {:induction false} RunPhasesAbsent(ps: seq<Phase>, f: Failure)
    requires forall j :: 0 <= j < |ps| ==> f !in ps[j].failures
    ensures f !in RunPhases(ps)
    decreases |ps|
  {
    if |ps| > 0 {
      assert forall j :: 0 <= j < |ps| - 1 ==> ps[1..][j] == ps[j + 1];
      RunPhasesAbsent(ps[1..], f);
    }
  }

  /** A failure only one phase can report is reported exactly when that phase reports it and is reached. */
  lemma {:induction false} RunPhasesMember(ps: seq<Phase>, f: Failure, k: nat)
    requires k < |ps|
    requires forall j :: 0 <= j < |ps| && j != k ==> f !in ps[j].failures
    ensures f in RunPhases(ps) <==> f in ps[k].failures && Reaches(ps, k)
    decreases |ps|
  {
    assert forall j :: 0 <= j < |ps| - 1 ==> ps[1..][j] == ps[j + 1];
    if k == 0 {
      RunPhasesAbsent(ps[1..], f);
    } else {
      RunPhasesMember(ps[1..], f, k - 1);
      assert Reaches(ps, k) <==> !ps[0].stops && Reaches(ps[1..], k - 1);
    }
  }

  /** When the k-th phase reports only stage base + k failures, the run is in stage order. */
  lemma {:induction false} RunPhasesStaged(ps: seq<Phase>, base: nat)
    requires forall j :: 0 <= j < |ps| ==> AllAt(ps[j].failures, base + j)
    ensures InStageOrder(RunPhases(ps))
    ensures forall f :: f in RunPhases(ps) ==> base <= Stage(f) < base + |ps|
    decreases |ps|
  {
    if |ps| > 0 {
      assert forall j :: 0 <= j < |ps| - 1 ==> ps[1..][j] == ps[j + 1];
      RunPhasesStaged(ps[1..], base + 1);
      var tail := if ps[0].stops then [] else RunPhases(ps[1..]);
      AllAtInOrder(ps[0].failures, base);
      InStageOrderAppend(ps[0].failures, tail, base);
    }
  }

  // ---------------------------------------------------------------------------
  // Which check reports what
  // ---------------------------------------------------------------------------

  /** Min and Max: inclusive bounds on the byte length, each checked on its own. */
  predicate LengthFails(r: StringRules, s: string, l: LengthIssue) {
    match l
    case TooShort(n) => r.minLength == Some(n) && ByteLen(s) < n
    case TooLong(n) => r.maxLength == Some(n) && ByteLen(s) > n
  }

  /** Email: a failed pre-check or an address the pattern rejects. */
  predicate EmailFails(r: StringRules, s: string, env: Env) {
    r.email && (EmailRejectedEarly(s) || !env.emailPattern(s))
  }

  /** URL, likewise. */
  predicate UrlFails(r: StringRules, s: string, env: Env) {
    r.url && (UrlRejectedEarly(s) || !env.urlPattern(s))
  }

  /** OneOf, the password policy, IP, Phone, the three character classes and the three affixes. */
  predicate ContentFails(r: StringRules, s: string, env: Env, c: ContentIssue) {
    match c
    case NotOneOf(a) => a == r.allowed && |a| > 0 && s !in a
    case WeakPassword(i) => r.password.Some? && s != "" && i in PasswordPolicy.ValidatePassword(s, r.password, env.log2)
    case BadIP => r.ipVersion.Some? && !Network.IsValidIP(s, r.ipVersion.value, env.parseIP)
    case BadPhone(c) => r.phoneCountry == Some(c) && !Network.IsValidPhoneNumber(s, c)
    case NotAlpha => r.alpha && !IsAlphaText(s)
    case NotAlphanumeric => r.alphanumeric && !IsAlphanumericText(s)
    case NotNumericText => r.numeric && !IsNumericText(s)
    case MissingPrefix(p) => r.startsWith == Some(p) && !HasPrefix(s, p)
    case MissingSuffix(p) => r.endsWith == Some(p) && !HasSuffix(s, p)
    case MissingSubstring(p) => r.contains == Some(p) && !Contains(s, p)
  }

  /** The custom pattern, MAC, Hex and Base64. */
  predicate FormatFails(r: StringRules, s: string, env: Env, x: FormatIssue) {
    match x
    case NoMatch => r.customRegex.Some? && !env.matches(r.customRegex.value, s)
    case BadMac => r.mac && !IsMac(s)
    case BadHex => r.hex && !IsHexText(s)
    case BadBase64 => r.base64 && !env.base64Decodes(s)
  }

  // ---------------------------------------------------------------------------
  // The groups, in the order the source checks them
  // ---------------------------------------------------------------------------

  /** The failure `f` when `b` holds, nothing otherwise. */
  function When(b: bool, f: Failure): (fs: seq<Failure>)
    ensures forall g :: g in fs <==> b && g == f
  {
    if b then [f] else []
  }

  function LengthFailures(r: StringRules, s: string): (fs: seq<Failure>)
    ensures forall f :: f in fs ==> f.Length?
  {
    Select([ (r.minLength.Some? && ByteLen(s) < r.minLength.value, Length(TooShort(r.minLength.GetOr(0)))),
             (r.maxLength.Some? && ByteLen(s) > r.maxLength.value, Length(TooLong(r.maxLength.GetOr(0)))) ])
  }

  lemma LengthFailuresExactly(r: StringRules, s: string)
    ensures forall f :: f in LengthFailures(r, s) <==> f.Length? && LengthFails(r, s, f.length)
  {
  }

  /** One failure per password policy issue, when the policy applies. */
  function PasswordFailures(applies: bool, issues: seq<PasswordPolicy.Issue>): (fs: seq<Failure>)
    ensures forall f :: f in fs <==> applies && f.Content? && f.content.WeakPassword? && f.content.issue in issues
  {
    if applies then
      var fs := seq(|issues|, k requires 0 <= k < |issues| => Content(WeakPassword(issues[k])));
      assert forall k :: 0 <= k < |issues| ==> fs[k] == Content(WeakPassword(issues[k])) && fs[k] in fs;
      fs
    else []
  }

  /** OneOf and the password policy. */
  function ChoiceFailures(r: StringRules, s: string, env: Env): (fs: seq<Failure>)
    ensures forall f :: f in fs <==> f.Content? && (f.content.NotOneOf? || f.content.WeakPassword?) && ContentFails(r, s, env, f.content)
  {
    When(|r.allowed| > 0 && s !in r.allowed, Content(NotOneOf(r.allowed)))
    + PasswordFailures(r.password.Some? && s != "", PasswordPolicy.ValidatePassword(s, r.password, env.log2))
  }

  /** IP and Phone. */
  function NetworkFailures(r: StringRules, s: string, env: Env): (fs: seq<Failure>)
    ensures forall f :: f in fs <==> f.Content? && (f.content.BadIP? || f.content.BadPhone?) && ContentFails(r, s, env, f.content)
  {
    When(r.ipVersion.Some? && !Network.IsValidIP(s, r.ipVersion.value, env.parseIP), Content(BadIP))
    + When(r.phoneCountry.Some? && !Network.IsValidPhoneNumber(s, r.phoneCountry.value), Content(BadPhone(r.phoneCountry.GetOr(""))))
  }

  /** Alpha, Alphanumeric and Numeric. */
  function ClassFailures(r: StringRules, s: string, env: Env): (fs: seq<Failure>)
    ensures forall f :: f in fs <==> f.Content? && (f.content.NotAlpha? || f.content.NotAlphanumeric? || f.content.NotNumericText?) && ContentFails(r, s, env, f.content)
  {
    When(r.alpha && !IsAlphaText(s), Content(NotAlpha))
    + When(r.alphanumeric && !IsAlphanumericText(s), Content(NotAlphanumeric))
    + When(r.numeric && !IsNumericText(s), Content(NotNumericText))
  }

  /** StartsWith, EndsWith and Contains. */
  function AffixFailures(r: StringRules, s: string, env: Env): (fs: seq<Failure>)
    ensures forall f :: f in fs <==> f.Content? && (f.content.MissingPrefix? || f.content.MissingSuffix? || f.content.MissingSubstring?) && ContentFails(r, s, env, f.content)
  {
    When(r.startsWith.Some? && !HasPrefix(s, r.startsWith.value), Content(MissingPrefix(r.startsWith.GetOr(""))))
    + When(r.endsWith.Some? && !HasSuffix(s, r.endsWith.value), Content(MissingSuffix(r.endsWith.GetOr(""))))
    + When(r.contains.Some? && !Contains(s, r.contains.value), Content(MissingSubstring(r.contains.GetOr(""))))
  }

  function ContentFailures(r: StringRules, s: string, env: Env): (fs: seq<Failure>)
    ensures forall f :: f in fs ==> f.Content?
  {
    ChoiceFailures(r, s, env) + NetworkFailures(r, s, env) + ClassFailures(r, s, env) + AffixFailures(r, s, env)
  }

  lemma ContentFailuresExactly(r: StringRules, s: string, env: Env)
    ensures forall f :: f in ContentFailures(r, s, env) <==> f.Content? && ContentFails(r, s, env, f.content)
  {
  }

  function FormatFailures(r: StringRules, s: string, env: Env): (fs: seq<Failure>)
    ensures forall f :: f in fs ==> f.Format?
  {
    Select([ (r.customRegex.Some? && !env.matches(r.customRegex.value, s), Format(NoMatch)),
             (r.mac && !IsMac(s), Format(BadMac)),
             (r.hex && !IsHexText(s), Format(BadHex)),
             (r.base64 && !env.base64Decodes(s), Format(BadBase64)) ])
  }

  lemma FormatFailuresExactly(r: StringRules, s: string, env: Env)
    ensures forall f :: f in FormatFailures(r, s, env) <==> f.Format? && FormatFails(r, s, env, f.format)
  {
  }

  /** Each group reports only failures of its own kind. */
  predicate Kinded(lengths: seq<Failure>, content: seq<Failure>, formats: seq<Failure>, users: seq<Failure>) {
    && (forall f :: f in lengths ==> f.Length?)
    && (forall f :: f in content ==> f.Content?)
    && (forall f :: f in formats ==> f.Format?)
    && (forall f :: f in users ==> f.UserFailure?)
  }

  /** The seven phases of StringType.Validate, from the outcome of each group. */
  function Assemble(lengths: seq<Failure>, email: bool, emailStops: bool, url: bool, urlStops: bool,
                    content: seq<Failure>, patternError: Option<string>, formats: seq<Failure>, users: seq<Failure>): (ps: seq<Phase>)
    requires Kinded(lengths, content, formats, users)
    ensures |ps| == 7
    ensures forall k :: 0 <= k < 7 ==> AllAt(ps[k].failures, k)
  {
    [ Phase(lengths, false),
      Phase(When(email, BadEmail), emailStops),
      Phase(When(url, BadUrl), urlStops),
      Phase(content, false),
      Phase(When(patternError.Some?, BadPattern(patternError.GetOr(""))), patternError.Some?),
      Phase(formats, false),
      Phase(users, false) ]
  }

  function StringPhases(r: StringRules, custom: CustomValidation, s: string, env: Env): (ps: seq<Phase>)
    ensures |ps| == 7
    ensures forall k :: 0 <= k < 7 ==> AllAt(ps[k].failures, k)
  {
    Assemble(LengthFailures(r, s), EmailFails(r, s, env), r.email && EmailRejectedEarly(s),
             UrlFails(r, s, env), r.url && UrlRejectedEarly(s), ContentFailures(r, s, env),
             r.regexError, FormatFailures(r, s, env), UserFailures(SyncFailures(custom, Str(s))))
  }

  // ---------------------------------------------------------------------------
  // StringType.Validate on a string
  // ---------------------------------------------------------------------------

  /**
   * The failures StringType.Validate reports for a string value, in the
   * order of its checks, custom validators last.
   */
  function StringFailures(r: StringRules, custom: CustomValidation, s: string, env: Env): (fs: seq<Failure>)
    ensures InStageOrder(fs)
    ensures UserFailuresLast(fs)
    ensures forall f :: f in fs ==> Stage(f) < 7
  {
    var ps := StringPhases(r, custom, s, env);
    RunPhasesStaged(ps, 0);
    StageOrderPutsUsersLast(RunPhases(ps));
    RunPhases(ps)
  }

  /**
   * Which failures StringType.Validate reports: the lengths always; the
   * email check; the URL check unless the email pre-checks returned; the
   * checks from OneOf to Contains and the pattern error once past both
   * pre-checks; the format checks and the custom validators only when the
   * pattern compiled as well.
   */
  predicate StringFails(r: StringRules, custom: CustomValidation, s: string, env: Env, f: Failure) {
    match f
    case Length(l) => LengthFails(r, s, l)
    case BadEmail => EmailFails(r, s, env)
    case BadUrl => !(r.email && EmailRejectedEarly(s)) && UrlFails(r, s, env)
    case Content(c) => PastPrechecks(r, s) && ContentFails(r, s, env, c)
    case BadPattern(e) => PastPrechecks(r, s) && r.regexError == Some(e)
    case Format(x) => ReachesCustom(r, s) && FormatFails(r, s, env, x)
    case UserFailure(m) => ReachesCustom(r, s) && m in SyncFailures(custom, Str(s))
    case _ => false
  }

  // ---------------------------------------------------------------------------
  // Which failures the seven phases report, whatever the groups hold
  // ---------------------------------------------------------------------------

  lemma AssembleLength(lengths: seq<Failure>, email: bool, emailStops: bool, url: bool, urlStops: bool,
      content: seq<Failure>, patternError: Option<string>, formats: seq<Failure>, users: seq<Failure>, f: Failure)
    requires Kinded(lengths, content, formats, users)
    requires f.Length?
    ensures f in RunPhases(Assemble(lengths, email, emailStops, url, urlStops, content, patternError, formats, users)) <==> f in lengths
  {
    var ps := Assemble(lengths, email, emailStops, url, urlStops, content, patternError, formats, users);
    forall j | 0 <= j < 7 && j != 0
      ensures f !in ps[j].failures
    {
      assert AllAt(ps[j].failures, j);
    }
    RunPhasesMember(ps, f, 0);
    assert !ps[0].stops && ps[1].stops == emailStops && ps[2].stops == urlStops && !ps[3].stops;
    assert ps[4].stops == patternError.Some? && !ps[5].stops;
  }

  lemma AssembleEmail(lengths: seq<Failure>, email: bool, emailStops: bool, url: bool, urlStops: bool,
      content: seq<Failure>, patternError: Option<string>, formats: seq<Failure>, users: seq<Failure>, f: Failure)
    requires Kinded(lengths, content, formats, users)
    requires f == BadEmail
    ensures f in RunPhases(Assemble(lengths, email, emailStops, url, urlStops, content, patternError, formats, users)) <==> email
  {
    var ps := Assemble(lengths, email, emailStops, url, urlStops, content, patternError, formats, users);
    forall j | 0 <= j < 7 && j != 1
      ensures f !in ps[j].failures
    {
      assert AllAt(ps[j].failures, j);
    }
    RunPhasesMember(ps, f, 1);
    assert !ps[0].stops && ps[1].stops == emailStops && ps[2].stops == urlStops && !ps[3].stops;
    assert ps[4].stops == patternError.Some? && !ps[5].stops;
  }

  lemma AssembleUrl(lengths: seq<Failure>, email: bool, emailStops: bool, url: bool, urlStops: bool,
      content: seq<Failure>, patternError: Option<string>, formats: seq<Failure>, users: seq<Failure>, f: Failure)
    requires Kinded(lengths, content, formats, users)
    requires f == BadUrl
    ensures f in RunPhases(Assemble(lengths, email, emailStops, url, urlStops, content, patternError, formats, users)) <==> !emailStops && url
  {
    var ps := Assemble(lengths, email, emailStops, url, urlStops, content, patternError, formats, users);
    forall j | 0 <= j < 7 && j != 2
      ensures f !in ps[j].failures
    {
      assert AllAt(ps[j].failures, j);
    }
    RunPhasesMember(ps, f, 2);
    assert !ps[0].stops && ps[1].stops == emailStops && ps[2].stops == urlStops && !ps[3].stops;
    assert ps[4].stops == patternError.Some? && !ps[5].stops;
  }

  lemma AssembleContent(lengths: seq<Failure>, email: bool, emailStops: bool, url: bool, urlStops: bool,
      content: seq<Failure>, patternError: Option<string>, formats: seq<Failure>, users: seq<Failure>, f: Failure)
    requires Kinded(lengths, content, formats, users)
    requires f.Content?
    ensures f in RunPhases(Assemble(lengths, email, emailStops, url, urlStops, content, patternError, formats, users)) <==> !emailStops && !urlStops && f in content
  {
    var ps := Assemble(lengths, email, emailStops, url, urlStops, content, patternError, formats, users);
    forall j | 0 <= j < 7 && j != 3
      ensures f !in ps[j].failures
    {
      assert AllAt(ps[j].failures, j);
    }
    RunPhasesMember(ps, f, 3);
    assert !ps[0].stops && ps[1].stops == emailStops && ps[2].stops == urlStops && !ps[3].stops;
    assert ps[4].stops == patternError.Some? && !ps[5].stops;
  }

  lemma AssemblePattern(lengths: seq<Failure>, email: bool, emailStops: bool, url: bool, urlStops: bool,
      content: seq<Failure>, patternError: Option<string>, formats: seq<Failure>, users: seq<Failure>, f: Failure)
    requires Kinded(lengths, content, formats, users)
    requires f.BadPattern?
    ensures f in RunPhases(Assemble(lengths, email, emailStops, url, urlStops, content, patternError, formats, users)) <==> !emailStops && !urlStops && patternError == Some(f.error)
  {
    var ps := Assemble(lengths, email, emailStops, url, urlStops, content, patternError, formats, users);
    forall j | 0 <= j < 7 && j != 4
      ensures f !in ps[j].failures
    {
      assert AllAt(ps[j].failures, j);
    }
    RunPhasesMember(ps, f, 4);
    assert !ps[0].stops && ps[1].stops == emailStops && ps[2].stops == urlStops && !ps[3].stops;
    assert ps[4].stops == patternError.Some? && !ps[5].stops;
  }

  lemma AssembleFormat(lengths: seq<Failure>, email: bool, emailStops: bool, url: bool, urlStops: bool,
      content: seq<Failure>, patternError: Option<string>, formats: seq<Failure>, users: seq<Failure>, f: Failure)
    requires Kinded(lengths, content, formats, users)
    requires f.Format?
    ensures f in RunPhases(Assemble(lengths, email, emailStops, url, urlStops, content, patternError, formats, users)) <==> !emailStops && !urlStops && patternError.None? && f in formats
  {
    var ps := Assemble(lengths, email, emailStops, url, urlStops, content, patternError, formats, users);
    forall j | 0 <= j < 7 && j != 5
      ensures f !in ps[j].failures
    {
      assert AllAt(ps[j].failures, j);
    }
    RunPhasesMember(ps, f, 5);
    assert !ps[0].stops && ps[1].stops == emailStops && ps[2].stops == urlStops && !ps[3].stops;
    assert ps[4].stops == patternError.Some? && !ps[5].stops;
  }

  lemma AssembleUser(lengths: seq<Failure>, email: bool, emailStops: bool, url: bool, urlStops: bool,
      content: seq<Failure>, patternError: Option<string>, formats: seq<Failure>, users: seq<Failure>, f: Failure)
    requires Kinded(lengths, content, formats, users)
    requires f.UserFailure?
    ensures f in RunPhases(Assemble(lengths, email, emailStops, url, urlStops, content, patternError, formats, users)) <==> !emailStops && !urlStops && patternError.None? && f in users
  {
    var ps := Assemble(lengths, email, emailStops, url, urlStops, content, patternError, formats, users);
    forall j | 0 <= j < 7 && j != 6
      ensures f !in ps[j].failures
    {
      assert AllAt(ps[j].failures, j);
    }
    RunPhasesMember(ps, f, 6);
    assert !ps[0].stops && ps[1].stops == emailStops && ps[2].stops == urlStops && !ps[3].stops;
    assert ps[4].stops == patternError.Some? && !ps[5].stops;
  }

  lemma AssembleOther(lengths: seq<Failure>, email: bool, emailStops: bool, url: bool, urlStops: bool,
      content: seq<Failure>, patternError: Option<string>, formats: seq<Failure>, users: seq<Failure>, f: Failure)
    requires Kinded(lengths, content, formats, users)
    requires Stage(f) == 7
    ensures f !in RunPhases(Assemble(lengths, email, emailStops, url, urlStops, content, patternError, formats, users))
  {
    RunPhasesAbsent(Assemble(lengths, email, emailStops, url, urlStops, content, patternError, formats, users), f);
  }

  // Each kind of failure is reported when its phase is reached and its group reports it.

  lemma StringReachesLength(r: StringRules, custom: CustomValidation, s: string, env: Env, f: Failure)
    requires f.Length?
    ensures f in StringFailures(r, custom, s, env) <==> f in LengthFailures(r, s)
  {
    var lengths, content, formats := LengthFailures(r, s), ContentFailures(r, s, env), FormatFailures(r, s, env);
    var users := UserFailures(SyncFailures(custom, Str(s)));
    var email, emailStops := EmailFails(r, s, env), r.email && EmailRejectedEarly(s);
    var url, urlStops := UrlFails(r, s, env), r.url && UrlRejectedEarly(s);
    AssembleLength(lengths, email, emailStops, url, urlStops, content, r.regexError, formats, users, f);
  }

  lemma StringReportsLength(r: StringRules, custom: CustomValidation, s: string, env: Env, f: Failure)
    requires f.Length?
    ensures f in StringFailures(r, custom, s, env) <==> StringFails(r, custom, s, env, f)
  {
    StringReachesLength(r, custom, s, env, f);
    LengthFailuresExactly(r, s);
  }

  lemma StringReachesEmail(r: StringRules, custom: CustomValidation, s: string, env: Env, f: Failure)
    requires f == BadEmail
    ensures f in StringFailures(r, custom, s, env) <==> EmailFails(r, s, env)
  {
    var lengths, content, formats := LengthFailures(r, s), ContentFailures(r, s, env), FormatFailures(r, s, env);
    var users := UserFailures(SyncFailures(custom, Str(s)));
    var email, emailStops := EmailFails(r, s, env), r.email && EmailRejectedEarly(s);
    var url, urlStops := UrlFails(r, s, env), r.url && UrlRejectedEarly(s);
    AssembleEmail(lengths, email, emailStops, url, urlStops, content, r.regexError, formats, users, f);
  }

  lemma StringReachesUrl(r: StringRules, custom: CustomValidation, s: string, env: Env, f: Failure)
    requires f == BadUrl
    ensures f in StringFailures(r, custom, s, env) <==> !(r.email && EmailRejectedEarly(s)) && UrlFails(r, s, env)
  {
    var lengths, content, formats := LengthFailures(r, s), ContentFailures(r, s, env), FormatFailures(r, s, env);
    var users := UserFailures(SyncFailures(custom, Str(s)));
    var email, emailStops := EmailFails(r, s, env), r.email && EmailRejectedEarly(s);
    var url, urlStops := UrlFails(r, s, env), r.url && UrlRejectedEarly(s);
    AssembleUrl(lengths, email, emailStops, url, urlStops, content, r.regexError, formats, users, f);
  }

  lemma StringReachesContent(r: StringRules, custom: CustomValidation, s: string, env: Env, f: Failure)
    requires f.Content?
    ensures f in StringFailures(r, custom, s, env) <==> PastPrechecks(r, s) && f in ContentFailures(r, s, env)
  {
    var lengths, content, formats := LengthFailures(r, s), ContentFailures(r, s, env), FormatFailures(r, s, env);
    var users := UserFailures(SyncFailures(custom, Str(s)));
    var email, emailStops := EmailFails(r, s, env), r.email && EmailRejectedEarly(s);
    var url, urlStops := UrlFails(r, s, env), r.url && UrlRejectedEarly(s);
    AssembleContent(lengths, email, emailStops, url, urlStops, content, r.regexError, formats, users, f);
  }

  lemma StringReportsContent(r: StringRules, custom: CustomValidation, s: string, env: Env, f: Failure)
    requires f.Content?
    ensures f in StringFailures(r, custom, s, env) <==> StringFails(r, custom, s, env, f)
  {
    StringReachesContent(r, custom, s, env, f);
    ContentFailuresExactly(r, s, env);
  }

  lemma StringReachesPattern(r: StringRules, custom: CustomValidation, s: string, env: Env, f: Failure)
    requires f.BadPattern?
    ensures f in StringFailures(r, custom, s, env) <==> PastPrechecks(r, s) && r.regexError == Some(f.error)
  {
    var lengths, content, formats := LengthFailures(r, s), ContentFailures(r, s, env), FormatFailures(r, s, env);
    var users := UserFailures(SyncFailures(custom, Str(s)));
    var email, emailStops := EmailFails(r, s, env), r.email && EmailRejectedEarly(s);
    var url, urlStops := UrlFails(r, s, env), r.url && UrlRejectedEarly(s);
    AssemblePattern(lengths, email, emailStops, url, urlStops, content, r.regexError, formats, users, f);
  }

  lemma StringReachesFormat(r: StringRules, custom: CustomValidation, s: string, env: Env, f: Failure)
    requires f.Format?
    ensures f in StringFailures(r, custom, s, env) <==> ReachesCustom(r, s) && f in FormatFailures(r, s, env)
  {
    var lengths, content, formats := LengthFailures(r, s), ContentFailures(r, s, env), FormatFailures(r, s, env);
    var users := UserFailures(SyncFailures(custom, Str(s)));
    var email, emailStops := EmailFails(r, s, env), r.email && EmailRejectedEarly(s);
    var url, urlStops := UrlFails(r, s, env), r.url && UrlRejectedEarly(s);
    AssembleFormat(lengths, email, emailStops, url, urlStops, content, r.regexError, formats, users, f);
  }

  lemma StringReportsFormat(r: StringRules, custom: CustomValidation, s: string, env: Env, f: Failure)
    requires f.Format?
    ensures f in StringFailures(r, custom, s, env) <==> StringFails(r, custom, s, env, f)
  {
    StringReachesFormat(r, custom, s, env, f);
    FormatFailuresExactly(r, s, env);
    assert f in FormatFailures(r, s, env) <==> FormatFails(r, s, env, f.format);
  }

  lemma StringReachesUser(r: StringRules, custom: CustomValidation, s: string, env: Env, f: Failure)
    requires f.UserFailure?
    ensures f in StringFailures(r, custom, s, env) <==> ReachesCustom(r, s) && f in UserFailures(SyncFailures(custom, Str(s)))
  {
    var lengths, content, formats := LengthFailures(r, s), ContentFailures(r, s, env), FormatFailures(r, s, env);
    var users := UserFailures(SyncFailures(custom, Str(s)));
    var email, emailStops := EmailFails(r, s, env), r.email && EmailRejectedEarly(s);
    var url, urlStops := UrlFails(r, s, env), r.url && UrlRejectedEarly(s);
    AssembleUser(lengths, email, emailStops, url, urlStops, content, r.regexError, formats, users, f);
  }

  lemma StringReachesOther(r: StringRules, custom: CustomValidation, s: string, env: Env, f: Failure)
    requires Stage(f) == 7
    ensures f !in StringFailures(r, custom, s, env)
  {
    var lengths, content, formats := LengthFailures(r, s), ContentFailures(r, s, env), FormatFailures(r, s, env);
    var users := UserFailures(SyncFailures(custom, Str(s)));
    var email, emailStops := EmailFails(r, s, env), r.email && EmailRejectedEarly(s);
    var url, urlStops := UrlFails(r, s, env), r.url && UrlRejectedEarly(s);
    AssembleOther(lengths, email, emailStops, url, urlStops, content, r.regexError, formats, users, f);
  }

  /** StringFailures reports exactly the failures StringFails describes. */
  lemma StringFailuresExactly(r: StringRules, custom: CustomValidation, s: string, env: Env, f: Failure)
    ensures f in StringFailures(r, custom, s, env) <==> StringFails(r, custom, s, env, f)
  {
    match f
    case Length(_) => StringReportsLength(r, custom, s, env, f);
    case BadEmail => StringReachesEmail(r, custom, s, env, f);
    case BadUrl => StringReachesUrl(r, custom, s, env, f);
    case Content(_) => StringReportsContent(r, custom, s, env, f);
    case BadPattern(_) => StringReachesPattern(r, custom, s, env, f);
    case Format(_) => StringReportsFormat(r, custom, s, env, f);
    case UserFailure(_) => StringReachesUser(r, custom, s, env, f);
    case _ => StringReachesOther(r, custom, s, env, f);
  }

  /** When the email pre-checks return, the run ends after the email phase. */
  lemma AssembleEmailStops(lengths: seq<Failure>, email: bool, url: bool, urlStops: bool,
                           content: seq<Failure>, patternError: Option<string>, formats: seq<Failure>, users: seq<Failure>)
    requires Kinded(lengths, content, formats, users)
    ensures RunPhases(Assemble(lengths, email, true, url, urlStops, content, patternError, formats, users)) == lengths + When(email, BadEmail)
  {
    var ps := Assemble(lengths, email, true, url, urlStops, content, patternError, formats, users);
    assert ps[1..][0] == ps[1];
    assert RunPhases(ps[1..]) == When(email, BadEmail) + [];
  }

  /** A failed email pre-check: the length failures, one email failure, and nothing else. */
  lemma EmailEarlyReturn(r: StringRules, custom: CustomValidation, s: string, env: Env)
    requires r.email && EmailRejectedEarly(s)
    ensures StringFailures(r, custom, s, env) == LengthFailures(r, s) + [BadEmail]
  {
    AssembleEmailStops(LengthFailures(r, s), EmailFails(r, s, env), UrlFails(r, s, env), r.url && UrlRejectedEarly(s),
                       ContentFailures(r, s, env), r.regexError, FormatFailures(r, s, env), UserFailures(SyncFailures(custom, Str(s))));
  }

  /** "a..b@x.com" stops at the email pre-checks. */
  lemma EmailPrecheckExample()
    ensures EmailRejectedEarly("a..b@x.com")
  {
    assert OccursAt("a..b@x.com", "..", 1);
  }

  /** A bare scheme and a schemeless address stop at the URL pre-checks. */
  lemma UrlPrecheckExamples()
    ensures UrlRejectedEarly("http://")
    ensures UrlRejectedEarly("https://")
    ensures UrlRejectedEarly("example.com")
  {
    assert HasPrefix("http://", "http://");
    assert HasPrefix("https://", "https://");
    assert !HasPrefix("https://", "http://") by { assert "https://"[4] != "http://"[4]; }
  }

  // ---------------------------------------------------------------------------
  // AdvancedStringType.Validate's own checks
  // ---------------------------------------------------------------------------

  /**
   * TurkishChars(true) needs a Turkish letter and TurkishChars(false) forbids
   * one; Domain(b) and CharSet(set) fail exactly when their predicates do.
   */
  predicate AdvancedFails(a: AdvancedRules, s: string, env: Env, x: AdvancedIssue) {
    match x
    case NeedsTurkish => a.turkishChars == Some(true) && !Domains.HasTurkishChars(s)
    case ForbidsTurkish => a.turkishChars == Some(false) && Domains.HasTurkishChars(s)
    case BadDomain => a.domain.Some? && !Domains.IsValidDomain(s, a.domain.value)
    case OutsideCharSet(c) => a.charSet == Some(c) && !Security.ValidateCharSet(s, c, env.isLatin)
  }

  function AdvancedFailures(a: AdvancedRules, s: string, env: Env): (fs: seq<Failure>)
    ensures forall f :: f in fs ==> f.Advanced?
    ensures |fs| <= 3
  {
    var turkish := a.turkishChars.Some? && a.turkishChars.value != Domains.HasTurkishChars(s);
    Select([ (turkish, Advanced(if a.turkishChars == Some(true) then NeedsTurkish else ForbidsTurkish)),
             (a.domain.Some? && !Domains.IsValidDomain(s, a.domain.value), Advanced(BadDomain)),
             (a.charSet.Some? && !Security.ValidateCharSet(s, a.charSet.value, env.isLatin), Advanced(OutsideCharSet(a.charSet.GetOr("")))) ])
  }

  lemma AdvancedFailuresExactly(a: AdvancedRules, s: string, env: Env)
    ensures forall f :: f in AdvancedFailures(a, s, env) <==> f.Advanced? && AdvancedFails(a, s, env, f.advanced)
  {
  }

  /** The Turkish letter check reports at most one of its two failures. */
  lemma TurkishChecksExclusive(a: AdvancedRules, s: string, env: Env)
    ensures !(Advanced(NeedsTurkish) in AdvancedFailures(a, s, env) && Advanced(ForbidsTurkish) in AdvancedFailures(a, s, env))
  {
    AdvancedFailuresExactly(a, s, env);
  }

  /** A character set name outside the four known ones rejects every string. */
  lemma UnknownCharSetAlwaysFails(a: AdvancedRules, s: string, env: Env)
    requires a.charSet.Some? && a.charSet.value !in {"latin", "alphanumeric", "numeric", "alpha"}
    ensures Advanced(OutsideCharSet(a.charSet.value)) in AdvancedFailures(a, s, env)
  {
    AdvancedFailuresExactly(a, s, env);
  }
}

=== FILE: text.dfy ===
/**
 * Character classes and string helpers shared by the rule predicates and the
 * field types. A Go `string` is modelled as a sequence of Unicode scalar values
 * (runes); where Go measures a string in bytes, `ByteLen` gives its UTF-8 length.
 */
module Text {

  // ---------------------------------------------------------------------------
  // ASCII character classes (Go's regexp `[0-9]`, `[A-Z]`, `\d`, ... are ASCII-only)
  // ---------------------------------------------------------------------------

  predicate IsDigit(c: char) { '0' <= c <= '9' }
  predicate IsUpper(c: char) { 'A' <= c <= 'Z' }
  predicate IsLower(c: char) { 'a' <= c <= 'z' }
  predicate IsLetter(c: char) { IsUpper(c) || IsLower(c) }
  predicate IsAlnum(c: char) { IsLetter(c) || IsDigit(c) }
  predicate IsHex(c: char) { IsDigit(c) || 'a' <= c <= 'f' || 'A' <= c <= 'F' }
  predicate IsLowerHex(c: char) { IsDigit(c) || 'a' <= c <= 'f' }
  predicate IsAscii(c: char) { c as int < 0x80 }

  predicate AllDigits(s: string) { forall i :: 0 <= i < |s| ==> IsDigit(s[i]) }
  predicate AllAscii(s: string) { forall i :: 0 <= i < |s| ==> IsAscii(s[i]) }

  /** A regexp `^[class]+$`: non-empty and every rune in the class. */
  predicate NonEmptyAll(s: string, p: char -> bool) {
    |s| > 0 && forall i :: 0 <= i < |s| ==> p(s[i])
  }

  function DigitValue(c: char): (d: nat)
    requires IsDigit(c)
    ensures d < 10
  {
    c as int - '0' as int
  }

  // ---------------------------------------------------------------------------
  // UTF-8 byte length (Go's `len` on a string)
  // ---------------------------------------------------------------------------

  function Utf8Len(c: char): (n: nat)
    ensures 1 <= n <= 4
    ensures n == 1 <==> IsAscii(c)
  {
    if c as int < 0x80 then 1
    else if c as int < 0x800 then 2
    else if c as int < 0x10000 then 3
    else 4
  }

  function ByteLen(s: string): nat
  {
    if |s| == 0 then 0 else Utf8Len(s[0]) + ByteLen(s[1..])
  }

  lemma {:induction false} ByteLenConcat(a: string, b: string)
    ensures ByteLen(a + b) == ByteLen(a) + ByteLen(b)
    decreases |a|
  {
    if |a| == 0 {
      assert a + b == b;
    } else {
      assert (a + b)[1..] == a[1..] + b;
      ByteLenConcat(a[1..], b);
    }
  }

  /** Every rune takes at least one byte, and ASCII text takes exactly one per rune. */
  lemma {:induction false} ByteLenBounds(s: string)
    ensures ByteLen(s) >= |s|
    ensures AllAscii(s) ==> ByteLen(s) == |s|
    ensures ByteLen(s) == |s| ==> AllAscii(s)
    decreases |s|
  {
    if |s| > 0 {
      ByteLenBounds(s[1..]);
      if ByteLen(s) == |s| {
        assert Utf8Len(s[0]) == 1;
        forall i | 0 <= i < |s| ensures IsAscii(s[i]) {
          if i > 0 { assert s[i] == s[1..][i - 1]; }
        }
      }
    }
  }

  lemma DigitsAreAscii(s: string)
    requires AllDigits(s)
    ensures ByteLen(s) == |s|
  {
    assert AllAscii(s);
    ByteLenBounds(s);
  }

  // ---------------------------------------------------------------------------
  // Go's unicode.IsSpace and strings.TrimSpace
  // ---------------------------------------------------------------------------

  predicate IsSpace(c: char) {
    c == '\t' || c == '\n' || c == '\U{000B}' || c == '\U{000C}' || c == '\r' || c == ' '
    || c == '\U{0085}' || c == '\U{00A0}' || c == '\U{1680}'
    || ('\U{2000}' <= c <= '\U{200A}')
    || c == '\U{2028}' || c == '\U{2029}' || c == '\U{202F}' || c == '\U{205F}' || c == '\U{3000}'
  }

  /** The number of leading white-space runes of `s`. */
  function LeadingSpaces(s: string): (n: nat)
    ensures n <= |s|
    ensures forall k :: 0 <= k < n ==> IsSpace(s[k])
    ensures n < |s| ==> !IsSpace(s[n])
  {
    if |s| > 0 && IsSpace(s[0]) then 1 + LeadingSpaces(s[1..]) else 0
  }

  /** The length of `s` without its trailing white-space runes. */
  function TrailingStart(s: string): (n: nat)
    ensures n <= |s|
    ensures forall k :: n <= k < |s| ==> IsSpace(s[k])
    ensures n > 0 ==> !IsSpace(s[n - 1])
  {
    if |s| > 0 && IsSpace(s[|s| - 1]) then TrailingStart(s[..|s| - 1]) else |s|
  }

  /** strings.TrimSpace: `s` without its leading and trailing white space. */
  function TrimSpace(s: string): (r: string)
    ensures exists i, j :: 0 <= i <= j <= |s| && r == s[i..j]
    ensures |r| > 0 ==> !IsSpace(r[0]) && !IsSpace(r[|r| - 1])
  {
    var l := s[LeadingSpaces(s)..];
    var j := TrailingStart(l);
    assert l[..j] == s[LeadingSpaces(s)..LeadingSpaces(s) + j];
    l[..j]
  }

  /** Trimming twice is the same as trimming once. */
  lemma TrimSpaceIdempotent(s: string)
    ensures TrimSpace(TrimSpace(s)) == TrimSpace(s)
  {
    var t := TrimSpace(s);
    assert LeadingSpaces(t) == 0;
    assert t[0..] == t;
    assert TrailingStart(t) == |t|;
  }

  // ---------------------------------------------------------------------------
  // Substrings, prefixes, suffixes
  // ---------------------------------------------------------------------------

  predicate HasPrefix(s: string, p: string) { |p| <= |s| && s[..|p|] == p }
  predicate HasSuffix(s: string, p: string) { |p| <= |s| && s[|s| - |p|..] == p }

  /** strings.Contains: `t` occurs as a contiguous run of `s`. */
  predicate Contains(s: string, t: string) {
    exists i | 0 <= i <= |s| :: OccursAt(s, t, i)
  }

  predicate OccursAt(s: string, t: string, i: int) {
    0 <= i && i + |t| <= |s| && s[i..i + |t|] == t
  }

  /** strings.TrimPrefix: removes one leading `p`, if present. */
  function TrimPrefix(s: string, p: string): (r: string)
    ensures HasPrefix(s, p) ==> s == p + r
    ensures !HasPrefix(s, p) ==> r == s
  {
    if HasPrefix(s, p) then
      assert s == s[..|p|] + s[|p|..];
      s[|p|..]
    else s
  }

  // ---------------------------------------------------------------------------
  // Per-rune maps and filters
  // ---------------------------------------------------------------------------

  /** The string of the runes of `s` that satisfy `keep`, in order. */
  function Filter(s: string, keep: char -> bool): (r: string)
    ensures |r| <= |s|
    ensures forall i :: 0 <= i < |r| ==> keep(r[i])
  {
    if |s| == 0 then []
    else if keep(s[0]) then [s[0]] + Filter(s[1..], keep)
    else Filter(s[1..], keep)
  }

  lemma {:induction false} FilterConcat(a: string, b: string, keep: char -> bool)
    ensures Filter(a + b, keep) == Filter(a, keep) + Filter(b, keep)
    decreases |a|
  {
    if |a| > 0 {
      assert (a + b)[1..] == a[1..] + b;
      FilterConcat(a[1..], b, keep);
    } else {
      assert a + b == b;
    }
  }

  /** Filtering a string whose runes all pass leaves it unchanged. */
  lemma {:induction false} FilterKeepsAll(s: string, keep: char -> bool)
    requires forall i :: 0 <= i < |s| ==> keep(s[i])
    ensures Filter(s, keep) == s
    decreases |s|
  {
    if |s| > 0 {
      FilterKeepsAll(s[1..], keep);
    }
  }

  /** Replace every rune of `s` by a string (strings.NewReplacer / ReplaceAll on one-rune patterns). */
  function FlatMap(s: string, f: char -> string): string
  {
    if |s| == 0 then [] else f(s[0]) + FlatMap(s[1..], f)
  }

  lemma {:induction false} FlatMapConcat(a: string, b: string, f: char -> string)
    ensures FlatMap(a + b, f) == FlatMap(a, f) + FlatMap(b, f)
    decreases |a|
  {
    if |a| > 0 {
      assert (a + b)[1..] == a[1..] + b;
      FlatMapConcat(a[1..], b, f);
    } else {
      assert a + b == b;
    }
  }

  lemma FlatMapSingle(c: char, f: char -> string)
    ensures FlatMap([c], f) == f(c)
  {
    assert [c][1..] == [];
  }

  /** strings.ReplaceAll(s, string(c), rep). */
  function ReplaceAll(s: string, c: char, rep: string): string
  {
    FlatMap(s, x => if x == c then rep else [x])
  }

  function MapChars(s: string, f: char -> char): (r: string)
    ensures |r| == |s|
    ensures forall i :: 0 <= i < |s| ==> r[i] == f(s[i])
  {
    seq(|s|, i requires 0 <= i < |s| => f(s[i]))
  }

  /** The rune reversal of `s`. */
  function Reverse(s: string): (r: string)
    ensures |r| == |s|
    ensures forall i :: 0 <= i < |s| ==> r[i] == s[|s| - 1 - i]
  {
    seq(|s|, i requires 0 <= i < |s| => s[|s| - 1 - i])
  }

  // ---------------------------------------------------------------------------
  // Go's unicode case mapping, restricted to what matters for ASCII targets.
  // Go maps U+0130 to 'i' and U+212A (Kelvin sign) to 'k' when lowering, and
  // U+0131 to 'I' and U+017F (long s) to 'S' when upper-casing; every other
  // non-ASCII rune maps to a non-ASCII rune, which is kept as it is here.
  // ---------------------------------------------------------------------------

  function GoLower(c: char): (r: char)
    ensures IsAscii(r) ==> IsAscii(c) || c == '\U{0130}' || c == '\U{212A}'
    ensures !IsUpper(r)
  {
    if IsUpper(c) then (c as int + 32) as char
    else if c == '\U{0130}' then 'i'
    else if c == '\U{212A}' then 'k'
    else c
  }

  function GoUpper(c: char): (r: char)
    ensures !IsLower(r)
  {
    if IsLower(c) then (c as int - 32) as char
    else if c == '\U{0131}' then 'I'
    else if c == '\U{017F}' then 'S'
    else c
  }

  function ToLower(s: string): string { MapChars(s, GoLower) }
  function ToUpper(s: string): string { MapChars(s, GoUpper) }

  // ---------------------------------------------------------------------------
  // Decimal rendering (Go's `%d` of a non-negative int)
  // ---------------------------------------------------------------------------

  function NatToString(n: nat): (r: string)
    ensures |r| >= 1 && AllDigits(r)
  {
    if n < 10 then ['0' + n as char]
    else NatToString(n / 10) + ['0' + (n % 10) as char]
  }

  // ---------------------------------------------------------------------------
  // strings.Split on a one-rune separator
  // ---------------------------------------------------------------------------

  function IndexOf(s: string, c: char): (i: nat)
    requires c in s
    ensures i < |s| && s[i] == c && c !in s[..i]
  {
    if s[0] == c then 0
    else
      assert s == [s[0]] + s[1..];
      var j := IndexOf(s[1..], c);
      assert s[..j + 1] == [s[0]] + s[1..][..j];
      j + 1
  }

  /** strings.Split(s, string(c)): the maximal runs between separators; never empty. */
  function SplitOn(s: string, c: char): (parts: seq<string>)
    ensures |parts| >= 1
    ensures forall k :: 0 <= k < |parts| ==> c !in parts[k]
    decreases |s|
  {
    if c !in s then [s]
    else
      var i := IndexOf(s, c);
      [s[..i]] + SplitOn(s[i + 1..], c)
  }

  /** strings.Join(parts, string(c)). */
  function JoinOn(parts: seq<string>, c: char): string
  {
    if |parts| == 0 then []
    else if |parts| == 1 then parts[0]
    else parts[0] + [c] + JoinOn(parts[1..], c)
  }

  /** Splitting undoes joining when no part holds the separator. */
  lemma {:induction false} SplitJoin(parts: seq<string>, c: char)
    requires |parts| >= 1
    requires forall k :: 0 <= k < |parts| ==> c !in parts[k]
    ensures SplitOn(JoinOn(parts, c), c) == parts
    decreases |parts|
  {
    if |parts| > 1 {
      var s := JoinOn(parts, c);
      var p := parts[0];
      assert s[|p|] == c && c !in s[..|p|] by {
        assert s[..|p|] == p;
      }
      assert IndexOf(s, c) == |p|;
      assert s[..|p|] == p;
      assert s[|p| + 1..] == JoinOn(parts[1..], c);
      SplitJoin(parts[1..], c);
    }
  }

  /** Joining undoes splitting. */
  lemma {:induction false} JoinSplit(s: string, c: char)
    ensures JoinOn(SplitOn(s, c), c) == s
    decreases |s|
  {
    if c in s {
      var i := IndexOf(s, c);
      var rest := SplitOn(s[i + 1..], c);
      var parts := [s[..i]] + rest;
      assert SplitOn(s, c) == parts;
      assert parts[0] == s[..i] && parts[1..] == rest && |parts| > 1;
      assert JoinOn(parts, c) == s[..i] + [c] + JoinOn(rest, c);
      JoinSplit(s[i + 1..], c);
      assert s == s[..i] + [c] + s[i + 1..];
    }
  }
}

=== FILE: uuid_rules.dfy ===
/**
 * UUID format check of rules/uuid.go: the 8-4-4-4-12 grouping of lowercase hex
 * digits, plus the version and variant digits of section 4.1 of RFC 4122 for
 * versions 1, 3, 4 and 5.
 */
module Uuid {
  import opened Text

  predicate IsDashIndex(i: int) { i == 8 || i == 13 || i == 18 || i == 23 }

  /** The general pattern: lowercase hex digits, dashes at 8, 13, 18 and 23, length 36. */
  predicate GenericShape(s: string) {
    |s| == 36 && forall i :: 0 <= i < 36 ==> if IsDashIndex(i) then s[i] == '-' else IsLowerHex(s[i])
  }

  /** The version digit as it appears at index 14. */
  function VersionChar(version: nat): char
    requires version < 10
  {
    '0' + version as char
  }

  /** A version-specific pattern: the version digit at 14 and one of 8, 9, a, b at 19. */
  predicate VersionShape(s: string, version: nat)
    requires version < 10
  {
    GenericShape(s) && s[14] == VersionChar(version) && s[19] in "89ab"
  }

  /** IsValidUUID: version 0 accepts any version, 1, 3, 4 and 5 their own, the rest nothing. */
  function IsValidUUID(s: string, version: int): (ok: bool)
    ensures ok ==> GenericShape(s)
    ensures version == 0 ==> (ok <==> GenericShape(s))
    ensures version in {1, 3, 4, 5} ==> (ok <==> VersionShape(s, version))
    ensures version !in {0, 1, 3, 4, 5} ==> !ok
  {
    match version
    case 0 => GenericShape(s)
    case 1 => VersionShape(s, 1)
    case 3 => VersionShape(s, 3)
    case 4 => VersionShape(s, 4)
    case 5 => VersionShape(s, 5)
    case _ => false
  }

  /** Every string valid for some version is valid for version 0. */
  lemma SpecificImpliesGeneric(s: string, version: int)
    requires IsValidUUID(s, version)
    ensures IsValidUUID(s, 0)
  {}

  /** Accepted UUIDs have no upper-case letters: upper-case hex is rejected. */
  lemma OnlyLowercase(s: string, version: int, i: nat)
    requires IsValidUUID(s, version) && i < |s|
    ensures !IsUpper(s[i])
  {}

  /** The text form of five groups of hex digits. */
  function Format(g1: string, g2: string, g3: string, g4: string, g5: string): string {
    g1 + "-" + g2 + "-" + g3 + "-" + g4 + "-" + g5
  }

  predicate HexGroup(g: string, n: nat) {
    |g| == n && forall i :: 0 <= i < n ==> IsLowerHex(g[i])
  }

  /** Formatting groups of 8, 4, 4, 4 and 12 lowercase hex digits gives a valid UUID. */
  lemma FormatIsGeneric(g1: string, g2: string, g3: string, g4: string, g5: string)
    requires HexGroup(g1, 8) && HexGroup(g2, 4) && HexGroup(g3, 4) && HexGroup(g4, 4) && HexGroup(g5, 12)
    ensures IsValidUUID(Format(g1, g2, g3, g4, g5), 0)
  {
    var s := Format(g1, g2, g3, g4, g5);
    forall i | 0 <= i < 36 ensures if IsDashIndex(i) then s[i] == '-' else IsLowerHex(s[i]) {
      if i < 8 { assert s[i] == g1[i]; }
      else if 8 < i < 13 { assert s[i] == g2[i - 9]; }
      else if 13 < i < 18 { assert s[i] == g3[i - 14]; }
      else if 18 < i < 23 { assert s[i] == g4[i - 19]; }
      else if 23 < i { assert s[i] == g5[i - 24]; }
    }
  }

  /** Every valid UUID is the text form of its own five groups. */
  lemma GenericIsFormat(s: string)
    requires IsValidUUID(s, 0)
    ensures HexGroup(s[..8], 8) && HexGroup(s[9..13], 4) && HexGroup(s[14..18], 4)
         && HexGroup(s[19..23], 4) && HexGroup(s[24..], 12)
    ensures s == Format(s[..8], s[9..13], s[14..18], s[19..23], s[24..])
  {
    assert HexGroup(s[..8], 8) by {
      forall i | 0 <= i < 8 ensures IsLowerHex(s[..8][i]) { assert !IsDashIndex(i); }
    }
    assert HexGroup(s[9..13], 4) by {
      forall i | 0 <= i < 4 ensures IsLowerHex(s[9..13][i]) { assert !IsDashIndex(i + 9); }
    }
    assert HexGroup(s[14..18], 4) by {
      forall i | 0 <= i < 4 ensures IsLowerHex(s[14..18][i]) { assert !IsDashIndex(i + 14); }
    }
    assert HexGroup(s[19..23], 4) by {
      forall i | 0 <= i < 4 ensures IsLowerHex(s[19..23][i]) { assert !IsDashIndex(i + 19); }
    }
    assert HexGroup(s[24..], 12) by {
      forall i | 0 <= i < 12 ensures IsLowerHex(s[24..][i]) { assert !IsDashIndex(i + 24); }
    }
    assert IsDashIndex(8) && IsDashIndex(13) && IsDashIndex(18) && IsDashIndex(23);
    assert s == Format(s[..8], s[9..13], s[14..18], s[19..23], s[24..]);
  }
}

=== FILE: value_checks.dfy ===
/**
 * The checks of the non-string field types once the required check and the
 * global error gate have passed: NumberType, BooleanType, DateType, the
 * array's own checks, UuidType, IbanType and CreditCardType. Each returns
 * the failures it reports, in order; a nil value reports nothing.
 */
module ValueChecks {
  import opened Wrappers
  import opened Values
  import opened Messages
  import opened Custom
  import opened Reports
  import opened Fields
  import Uuid
  import Payment

  // ---------------------------------------------------------------------------
  // NumberType
  // ---------------------------------------------------------------------------

  /**
   * The kind check of types/number.go: the signed integer types and both float
   * types, widened to one exact number; an unsigned integer is not a number.
   */
  function AsNumber(v: Value): (r: Option<real>)
    ensures r.Some? <==> IsNumber(v)
    ensures r.Some? && v.Int? ==> r.value == v.i as real
    ensures r.Some? && v.Flt? ==> r.value == v.r
  {
    match v
    case Int(i, t) => if IsUnsigned(t) then None else Some(i as real)
    case Flt(x, _) => Some(x)
    case _ => None
  }

  /** `float64(int64(x))`: truncation toward zero (int64 overflow is not modelled). */
  function Truncate(x: real): (t: real)
    ensures 0.0 <= x ==> 0.0 <= t <= x
    ensures x <= 0.0 ==> x <= t <= 0.0
    ensures x - 1.0 < t < x + 1.0
  {
    if x >= 0.0 then x.Floor as real else -((-x).Floor as real)
  }

  /** A whole number. */
  predicate IsWhole(x: real) {
    x.Floor as real == x
  }

  /** Truncation always lands on a whole number. */
  lemma TruncateIsWhole(x: real)
    ensures IsWhole(Truncate(x))
  {
    if x >= 0.0 {
      assert (x.Floor as real).Floor == x.Floor;
    } else {
      var n := (-x).Floor;
      assert ((-n) as real).Floor == -n;
    }
  }

  /** Integer() fails exactly on the numbers with a fractional part. */
  lemma TruncateFixesWholes(x: real)
    ensures Truncate(x) == x <==> IsWhole(x)
  {
    TruncateIsWhole(x);
    if x < 0.0 && IsWhole(x) {
      var n := x.Floor;
      assert -x == (-n) as real;
      assert (-x).Floor == -n;
    }
  }

  /** 42.0 passes Integer() and 42.5 does not. */
  lemma IntegerExamples()
    ensures Truncate(42.0) == 42.0
    ensures Truncate(42.5) != 42.5
    ensures Truncate(-42.5) == -42.0
  {
    assert (42.5).Floor == 42;
  }

  /** Which numeric checks fail for the number `x`. */
  predicate NumberFails(n: NumberRules, x: real, env: Env, i: NumberIssue) {
    match i
    case NotInteger => n.integer && Truncate(x) != x
    case BelowMin(m) => n.min == Some(m) && x < m
    case AboveMax(m) => n.max == Some(m) && x > m
    case NotPositive => n.positive && x <= 0.0
    case NotNegative => n.negative && x >= 0.0
    case NotMultiple(m) => n.multipleOf == Some(m) && !env.isMultipleOf(x, m)
    case OutsideRange(lo, hi) => n.between == Some((lo, hi)) && (x < lo || x > hi)
  }

  /** Integer, Min, Max, Positive, Negative, MultipleOf and Between, in that order, each with its failure. */
  function NumberCheckList(n: NumberRules, x: real, env: Env): (cs: seq<Check>)
    ensures |cs| == 7
    ensures forall i, j :: 0 <= i < j < |cs| ==> cs[i].1 != cs[j].1
  {
    [ (n.integer && Truncate(x) != x, Numeric(NotInteger)),
      (n.min.Some? && x < n.min.value, Numeric(BelowMin(n.min.GetOr(0.0)))),
      (n.max.Some? && x > n.max.value, Numeric(AboveMax(n.max.GetOr(0.0)))),
      (n.positive && x <= 0.0, Numeric(NotPositive)),
      (n.negative && x >= 0.0, Numeric(NotNegative)),
      (n.multipleOf.Some? && !env.isMultipleOf(x, n.multipleOf.value), Numeric(NotMultiple(n.multipleOf.GetOr(0.0)))),
      (n.between.Some? && (x < n.between.value.0 || x > n.between.value.1),
       Numeric(OutsideRange(n.between.GetOr((0.0, 0.0)).0, n.between.GetOr((0.0, 0.0)).1))) ]
  }

  /** The failed numeric checks; none stops the others. */
  function NumberChecks(n: NumberRules, x: real, env: Env): (fs: seq<Failure>)
    ensures forall f :: f in fs ==> f.Numeric?
    ensures Distinct(fs)
  {
    SelectDistinct(NumberCheckList(n, x, env));
    Select(NumberCheckList(n, x, env))
  }

  lemma NumberChecksExactly(n: NumberRules, x: real, env: Env, f: Failure)
    ensures f in NumberChecks(n, x, env) <==> f.Numeric? && NumberFails(n, x, env, f.number)
  {
    var cs := NumberCheckList(n, x, env);
    assert f in NumberChecks(n, x, env) <==> (true, f) in cs;
    if f.Numeric? {
      var k := match f.number
        case NotInteger => 0
        case BelowMin(_) => 1
        case AboveMax(_) => 2
        case NotPositive => 3
        case NotNegative => 4
        case NotMultiple(_) => 5
        case OutsideRange(_, _) => 6;
      assert forall i :: 0 <= i < 7 && i != k ==> cs[i].1 != f;
      assert (true, f) in cs <==> cs[k] == (true, f);
    }
  }

  /** NumberType.Validate after the gate: the kind check, then the numeric checks, then the custom validators. */
  function NumberFailures(n: NumberRules, custom: CustomValidation, v: Value, env: Env): (fs: seq<Failure>)
    ensures v.Null? ==> fs == []
    ensures !v.Null? && AsNumber(v).None? ==> fs == [WrongType(NumberType)]
    ensures UserFailuresLast(fs)
  {
    match AsNumber(v)
    case None => if v.Null? then [] else [WrongType(NumberType)]
    case Some(x) =>
      var users := UserFailures(SyncFailures(custom, v));
      ChecksThenUsers(NumberChecks(n, x, env), users);
      NumberChecks(n, x, env) + users
  }

  /** What NumberType reports: a non-number only the kind failure; a number its failed checks and the custom failures. */
  predicate NumberReports(n: NumberRules, custom: CustomValidation, v: Value, env: Env, f: Failure) {
    match AsNumber(v)
    case None => !v.Null? && f == WrongType(NumberType)
    case Some(x) =>
      || (f.Numeric? && NumberFails(n, x, env, f.number))
      || (f.UserFailure? && f.msg in SyncFailures(custom, v))
  }

  lemma NumberFailuresExactly(n: NumberRules, custom: CustomValidation, v: Value, env: Env, f: Failure)
    ensures f in NumberFailures(n, custom, v, env) <==> NumberReports(n, custom, v, env, f)
  {
    if AsNumber(v).Some? {
      NumberChecksExactly(n, AsNumber(v).value, env, f);
    }
  }

  /** Between(lo, hi) accepts exactly the closed interval. */
  lemma BetweenIsClosed(n: NumberRules, x: real, env: Env, lo: real, hi: real)
    requires n.between == Some((lo, hi))
    ensures Numeric(OutsideRange(lo, hi)) in NumberChecks(n, x, env) <==> !(lo <= x <= hi)
  {
    NumberChecksExactly(n, x, env, Numeric(OutsideRange(lo, hi)));
  }

  // ---------------------------------------------------------------------------
  // BooleanType
  // ---------------------------------------------------------------------------

  /** BooleanType.Validate after the gate: only a bool passes the kind check, and only then do the custom validators run. */
  function BooleanFailures(custom: CustomValidation, v: Value): (fs: seq<Failure>)
    ensures WrongType(BooleanType) in fs <==> !v.Null? && !v.Bool?
    ensures !v.Null? && !v.Bool? ==> fs == [WrongType(BooleanType)]
    ensures forall f :: f in fs && f.UserFailure? ==> v.Bool?
    ensures |fs| <= 1 + |custom.syncValidators| + |custom.rules|
  {
    if v.Null? then []
    else if !v.Bool? then [WrongType(BooleanType)]
    else UserFailures(SyncFailures(custom, v))
  }

  // ---------------------------------------------------------------------------
  // DateType
  // ---------------------------------------------------------------------------

  const DefaultLayout: string := "2006-01-02"

  /** The layout a date field parses with: its Format, or the ISO date layout when none was set. */
  function Layout(d: DateRules): (l: string)
    ensures l != ""
    ensures d.format != "" ==> l == d.format
  {
    if d.format == "" then DefaultLayout else d.format
  }

  const DateKindError: string := "tarih alan\U{0131} string veya time.Time tipinde olmal\U{0131}d\U{0131}r"

  function DateParseError(layout: string): string {
    "ge\U{00E7}erli bir tarih format\U{0131} de\U{011F}il. Beklenen: " + layout
  }

  /**
   * DateType.Transform: the base transform, then nil stays nil, a time stays
   * as it is, a string is parsed with the layout and anything else is an error.
   */
  function DateTransform(b: Base, d: DateRules, v: Value, env: Env): (r: Result<Value>)
    ensures BaseTransform(b, v).Failure? ==> r == BaseTransform(b, v)
    ensures r.Success? ==> r.value.Null? || r.value.Time?
    ensures BaseTransform(b, v).Success? && BaseTransform(b, v).value.Time? ==> r == BaseTransform(b, v)
    ensures BaseTransform(b, v).Success? && BaseTransform(b, v).value.Str? ==>
      match env.parseTime(Layout(d), BaseTransform(b, v).value.s)
      case Some(t) => r == Success(Time(t, ParsedClock(env, Layout(d), BaseTransform(b, v).value.s)))
      case None => r == Failure(DateParseError(Layout(d)))
  {
    match BaseTransform(b, v)
    case Failure(e) => Failure(e)
    case Success(w) =>
      match w
      case Null => Success(Null)
      case Time(_, _) => Success(w)
      case Str(s) =>
        (match env.parseTime(Layout(d), s)
         case Some(t) => Success(Time(t, ParsedClock(env, Layout(d), s)))
         case None => Failure(DateParseError(Layout(d))))
      case _ => Failure(DateKindError)
  }

  /** Which bound checks fail for the instant `t`: an unparseable bound reports the layout, a parsed one is strict. */
  predicate DateFails(d: DateRules, t: int, env: Env, x: DateIssue) {
    match x
    case MinUnparsed(l) => l == Layout(d) && d.minDate.Some? && env.parseTime(l, d.minDate.value).None?
    case MaxUnparsed(l) => l == Layout(d) && d.maxDate.Some? && env.parseTime(l, d.maxDate.value).None?
    case BeforeMin(bound) => d.minDate == Some(bound) && env.parseTime(Layout(d), bound).Some? && t < env.parseTime(Layout(d), bound).value
    case AfterMax(bound) => d.maxDate == Some(bound) && env.parseTime(Layout(d), bound).Some? && t > env.parseTime(Layout(d), bound).value
  }

  /** One bound: no failure when absent, the format failure when it does not parse, else the range check. */
  function BoundFailures(bound: Option<string>, layout: string, env: Env, unparsed: Failure, outside: int -> bool, out: Failure): (fs: seq<Failure>)
    ensures |fs| <= 1
    ensures bound.None? ==> fs == []
    ensures bound.Some? && env.parseTime(layout, bound.value).None? ==> fs == [unparsed]
    ensures bound.Some? && env.parseTime(layout, bound.value).Some? ==>
      (fs == [out] <==> outside(env.parseTime(layout, bound.value).value)) && (fs == [] <==> !outside(env.parseTime(layout, bound.value).value))
  {
    match bound
    case None => []
    case Some(text) =>
      match env.parseTime(layout, text)
      case None => [unparsed]
      case Some(m) => if outside(m) then [out] else []
  }

  /** Min, then Max: Before and After are strict, so the bounds themselves pass. */
  function DateChecks(d: DateRules, t: int, env: Env): (fs: seq<Failure>)
    ensures forall f :: f in fs ==> f.Dated?
    ensures |fs| <= 2
  {
    BoundFailures(d.minDate, Layout(d), env, Dated(MinUnparsed(Layout(d))), m => t < m, Dated(BeforeMin(d.minDate.GetOr(""))))
    + BoundFailures(d.maxDate, Layout(d), env, Dated(MaxUnparsed(Layout(d))), m => t > m, Dated(AfterMax(d.maxDate.GetOr(""))))
  }

  lemma DateChecksExactly(d: DateRules, t: int, env: Env, f: Failure)
    ensures f in DateChecks(d, t, env) <==> f.Dated? && DateFails(d, t, env, f.date)
  {
    var l := Layout(d);
    if f.Dated? {
      match f.date
      case BeforeMin(bound) =>
        if d.minDate == Some(bound) && env.parseTime(l, bound).Some? {
          assert DateFails(d, t, env, f.date) <==> t < env.parseTime(l, bound).value;
        }
      case AfterMax(bound) =>
        if d.maxDate == Some(bound) && env.parseTime(l, bound).Some? {
          assert DateFails(d, t, env, f.date) <==> t > env.parseTime(l, bound).value;
        }
      case _ =>
    }
  }

  /** A date equal to a parsed bound is inside it. */
  lemma DateBoundsInclusive(d: DateRules, t: int, env: Env)
    requires d.minDate.Some? && env.parseTime(Layout(d), d.minDate.value) == Some(t)
    requires d.maxDate.Some? && env.parseTime(Layout(d), d.maxDate.value) == Some(t)
    ensures DateChecks(d, t, env) == []
  {
  }

  /** DateType.Validate after the gate: a non-time value gets the kind failure; a time its bound failures and the custom failures. */
  function DateFailures(d: DateRules, custom: CustomValidation, v: Value, env: Env): (fs: seq<Failure>)
    ensures v.Null? ==> fs == []
    ensures !v.Null? && !v.Time? ==> fs == [WrongType(DateType)]
    ensures v.Time? ==> forall f :: f in fs <==> (f.Dated? && DateFails(d, v.t, env, f.date)) || (f.UserFailure? && f.msg in SyncFailures(custom, v))
    ensures UserFailuresLast(fs)
  {
    if v.Null? then []
    else if !v.Time? then [WrongType(DateType)]
    else
      var users := UserFailures(SyncFailures(custom, v));
      ChecksThenUsers(DateChecks(d, v.t, env), users);
      forall f ensures f in DateChecks(d, v.t, env) <==> f.Dated? && DateFails(d, v.t, env, f.date) {
        DateChecksExactly(d, v.t, env, f);
      }
      DateChecks(d, v.t, env) + users
  }

  // ---------------------------------------------------------------------------
  // ArrayType's own checks
  // ---------------------------------------------------------------------------

  /** The `%v` renderings of the elements, which Unique and Contains compare. */
  function Renderings(items: seq<Value>, env: Env): (keys: seq<string>)
    ensures |keys| == |items|
    ensures forall i :: 0 <= i < |items| ==> keys[i] == env.show(items[i])
  {
    seq(|items|, i requires 0 <= i < |items| => env.show(items[i]))
  }

  /** Two positions hold the same key. */
  predicate HasRepeat(keys: seq<string>) {
    exists i, j :: 0 <= i < j < |keys| && keys[i] == keys[j]
  }

  /**
   * Unique's loop: walk the keys with the set already seen and stop at the
   * first key met before.
   */
  function RepeatScan(keys: seq<string>, seen: set<string>): (found: bool)
    decreases |keys|
  {
    if |keys| == 0 then false
    else if keys[0] in seen then true
    else RepeatScan(keys[1..], seen + {keys[0]})
  }

  /** The scan finds a key met before, or seen before it started. */
  lemma {:induction false} RepeatScanFinds(keys: seq<string>, seen: set<string>)
    ensures RepeatScan(keys, seen) <==> HasRepeat(keys) || exists i :: 0 <= i < |keys| && keys[i] in seen
    decreases |keys|
  {
    if |keys| > 0 {
      var tail := keys[1..];
      RepeatScanFinds(tail, seen + {keys[0]});
      assert forall i :: 0 <= i < |tail| ==> tail[i] == keys[i + 1];
      if HasRepeat(keys) && keys[0] !in seen {
        var i, j :| 0 <= i < j < |keys| && keys[i] == keys[j];
        if i == 0 {
          assert tail[j - 1] in seen + {keys[0]};
        } else {
          assert tail[i - 1] == tail[j - 1];
        }
      }
      if HasRepeat(tail) {
        var i, j :| 0 <= i < j < |tail| && tail[i] == tail[j];
        assert keys[i + 1] == keys[j + 1];
      }
    }
  }

  /** Unique's scan reports exactly the arrays with two elements of the same rendering. */
  lemma UniqueScanCorrect(keys: seq<string>)
    ensures RepeatScan(keys, {}) <==> HasRepeat(keys)
  {
    RepeatScanFinds(keys, {});
  }

  /** Contains: some element renders as the expected value does. */
  predicate RendersAs(items: seq<Value>, x: Value, env: Env) {
    exists i :: 0 <= i < |items| && env.show(items[i]) == env.show(x)
  }

  /** Which of the array's own checks fail for the elements `items`. */
  predicate ArrayFails(a: ArrayRules, items: seq<Value>, env: Env, x: ArrayIssue) {
    match x
    case TooFewElements(n) => a.minLength == Some(n) && |items| < n
    case TooManyElements(n) => a.maxLength == Some(n) && |items| > n
    case EmptyArray => a.notEmpty && |items| == 0
    case Duplicates => a.unique && HasRepeat(Renderings(items, env))
    case NotContained(y) => a.containsValue == Some(y) && !RendersAs(items, y, env)
  }

  /** Min, Max, NotEmpty, Unique and Contains, in that order; each reports at most once. */
  function ArrayChecks(a: ArrayRules, items: seq<Value>, env: Env): (fs: seq<Failure>)
    ensures forall f :: f in fs ==> f.Listed?
    ensures Distinct(fs)
  {
    var cs := [ (a.minLength.Some? && |items| < a.minLength.value, Listed(TooFewElements(a.minLength.GetOr(0)))),
                (a.maxLength.Some? && |items| > a.maxLength.value, Listed(TooManyElements(a.maxLength.GetOr(0)))),
                (a.notEmpty && |items| == 0, Listed(EmptyArray)),
                (a.unique && RepeatScan(Renderings(items, env), {}), Listed(Duplicates)),
                (a.containsValue.Some? && !RendersAs(items, a.containsValue.value, env), Listed(NotContained(a.containsValue.GetOr(Null)))) ];
    SelectDistinct(cs);
    Select(cs)
  }

  lemma ArrayChecksExactly(a: ArrayRules, items: seq<Value>, env: Env)
    ensures forall f :: f in ArrayChecks(a, items, env) <==> f.Listed? && ArrayFails(a, items, env, f.listing)
  {
    UniqueScanCorrect(Renderings(items, env));
  }

  /**
   * ArrayType.Validate after the gate, up to the element schema: a non-list
   * gets the kind failure; a list its own failed checks, then the custom
   * failures. The elements follow under their own keys.
   */
  function ArrayFailures(a: ArrayRules, custom: CustomValidation, v: Value, env: Env): (fs: seq<Failure>)
    ensures v.Null? ==> fs == []
    ensures !v.Null? && !v.List? ==> fs == [WrongType(ArrayType)]
    ensures UserFailuresLast(fs)
  {
    if v.Null? then []
    else if !v.List? then [WrongType(ArrayType)]
    else
      var users := UserFailures(SyncFailures(custom, v));
      ChecksThenUsers(ArrayChecks(a, v.items, env), users);
      ArrayChecks(a, v.items, env) + users
  }

  lemma ArrayFailuresExactly(a: ArrayRules, custom: CustomValidation, items: seq<Value>, env: Env, f: Failure)
    ensures f in ArrayFailures(a, custom, List(items), env) <==>
      (f.Listed? && ArrayFails(a, items, env, f.listing)) || (f.UserFailure? && f.msg in SyncFailures(custom, List(items)))
  {
    ArrayChecksExactly(a, items, env);
  }

  // ---------------------------------------------------------------------------
  // UuidType, IbanType, CreditCardType
  // ---------------------------------------------------------------------------

  /**
   * The shape shared by the three string formats: a non-string gets the
   * string kind failure and stops; a string gets `bad` when the format
   * predicate rejects it, and the custom validators run either way.
   */
  function StringRuleFailures(v: Value, valid: bool, bad: Failure, custom: CustomValidation): (fs: seq<Failure>)
    requires !bad.UserFailure?
    ensures v.Null? ==> fs == []
    ensures !v.Null? && !v.Str? ==> fs == [WrongType(StringType)]
    ensures v.Str? ==> (bad in fs <==> !valid)
    ensures v.Str? ==> forall m :: UserFailure(m) in fs <==> m in SyncFailures(custom, v)
    ensures UserFailuresLast(fs)
  {
    if v.Null? then []
    else if !v.Str? then [WrongType(StringType)]
    else
      var own := if valid then [] else [bad];
      var users := UserFailures(SyncFailures(custom, v));
      ChecksThenUsers(own, users);
      own + users
  }

  /** UuidType.Validate after the gate. */
  function UuidFailures(version: int, custom: CustomValidation, v: Value): (fs: seq<Failure>)
    ensures v.Str? ==> (BadUuid in fs <==> !Uuid.IsValidUUID(v.s, version))
    ensures v.Str? ==> forall m :: UserFailure(m) in fs <==> m in SyncFailures(custom, v)
    ensures !v.Null? && !v.Str? ==> fs == [WrongType(StringType)]
  {
    StringRuleFailures(v, v.Str? && Uuid.IsValidUUID(v.s, version), BadUuid, custom)
  }

  /** IbanType.Validate after the gate. */
  function IbanFailures(country: string, custom: CustomValidation, v: Value): (fs: seq<Failure>)
    ensures v.Str? ==> (BadIban in fs <==> !Payment.IsValidIBAN(v.s, country))
    ensures v.Str? ==> forall m :: UserFailure(m) in fs <==> m in SyncFailures(custom, v)
    ensures !v.Null? && !v.Str? ==> fs == [WrongType(StringType)]
  {
    StringRuleFailures(v, v.Str? && Payment.IsValidIBAN(v.s, country), BadIban, custom)
  }

  /** CreditCardType.Validate after the gate. */
  function CardFailures(cardType: string, custom: CustomValidation, v: Value): (fs: seq<Failure>)
    ensures v.Str? ==> (BadCard in fs <==> !Payment.IsValidCreditCard(v.s, cardType))
    ensures v.Str? ==> forall m :: UserFailure(m) in fs <==> m in SyncFailures(custom, v)
    ensures !v.Null? && !v.Str? ==> fs == [WrongType(StringType)]
  {
    StringRuleFailures(v, v.Str? && Payment.IsValidCreditCard(v.s, cardType), BadCard, custom)
  }

  /** Spaces and letter case never change an IBAN field's verdict. */
  lemma IbanFieldIgnoresSpacesAndCase(country: string, custom: CustomValidation, a: string, b: string)
    requires Payment.NormalizeIban(a) == Payment.NormalizeIban(b)
    ensures (BadIban in IbanFailures(country, custom, Str(a))) == (BadIban in IbanFailures(country, custom, Str(b)))
  {
  }
}

=== FILE: values.dfy ===
/**
 * The dynamically typed values the validator works on: what a decoded JSON
 * object (`map[string]any`) holds once it reaches a schema.
 */
module Values {
  import opened Wrappers

  /**
   * The dynamic type of a Go integer: the signed widths `int` to `int64` and
   * the unsigned widths `uint` to `uint64` and `uintptr`. Each is a type of
   * its own, so `uint8(5)` and `uint64(5)` differ as `any` values.
   */
  datatype IntType =
    | GoInt | GoInt8 | GoInt16 | GoInt32 | GoInt64
    | GoUint | GoUint8 | GoUint16 | GoUint32 | GoUint64 | GoUintptr

  /** The unsigned integer types, which no field type accepts as a number. */
  predicate IsUnsigned(t: IntType) {
    t.GoUint? || t.GoUint8? || t.GoUint16? || t.GoUint32? || t.GoUint64? || t.GoUintptr?
  }

  /** The dynamic type of a Go float. */
  datatype FloatType = GoFloat32 | GoFloat64

  /**
   * The parts of a `time.Time` other than its instant that Go's `==` compares:
   * the `*Location` pointer, as an identity, and the monotonic clock reading,
   * when the time carries one.
   */
  datatype Clock = Clock(loc: nat, monotonic: Option<int>)

  /**
   * `Null` is Go's `nil`. `Int` and `Flt` are numbers, exact and tagged with
   * their Go type: two numbers are equal, as Go's `==` on `any` has them, only
   * when both the value and the type agree. `List` is `[]any`, `Obj` is
   * `map[string]any` and `Time` is a `time.Time`: an instant on a totally
   * ordered time line, which `Before` and `After` compare, and its clock, so
   * that two times are equal only as Go's `==` has them.
   */
  datatype Value =
    | Null
    | Str(s: string)
    | Int(i: int, intType: IntType)
    | Flt(r: real, floatType: FloatType)
    | Bool(b: bool)
    | List(items: seq<Value>)
    | Obj(fields: map<string, Value>)
    | Time(t: int, clock: Clock)

  /** The number types every numeric check of types/number.go accepts: signed integers and both floats. */
  predicate IsNumber(v: Value) {
    (v.Int? && !IsUnsigned(v.intType)) || v.Flt?
  }

  /** Go's `m[k]` on a `map[string]any`: a missing key reads as `nil`. */
  function Lookup(m: map<string, Value>, k: string): (v: Value)
    ensures k !in m ==> v == Null
    ensures k in m ==> v == m[k]
  {
    if k in m then m[k] else Null
  }
}

=== FILE: wrappers.dfy ===
/** Option and Result: the model's stand-ins for Go's `nil` and `(value, error)` returns. */
module Wrappers {

  datatype Option<+T> = None | Some(value: T) {
    function GetOr(default: T): T {
      match this
      case Some(v) => v
      case None => default
    }
  }

  /** A Go `(T, error)` pair: `Failure(e)` is a non-nil error with text `e`. */
  datatype Result<+T> = Success(value: T) | Failure(error: string)
}
